=== FILE: README.md ===
# Effective Python examples, modelled in Dafny

The repository is a collection of small, independent Python programs, one
per item of *Effective Python* (`ItemNN.py`). Each program demonstrates a
language feature on a tiny domain: Conway's Game of Life, a guess-the-number
server and client, a library's queue of overdue books, sorting and search
routines, a gradebook, polygon and resistor descriptors, an e-mail
producer/consumer loop, pickled game states, a zoo's feeding schedule and so
on. This project models the algorithmic core of each of those programs as
pure Dafny functions, methods and lemmas, one module per program:

- mutable Python objects become immutable datatypes, and each mutating
  method becomes a function from the old object to the new one;
- errors become error values of a per-module result type (a `Fail` or `Err`
  case, or a constructor named after the Python exception such as
  `ValueError` or `KeyError`, or `None` where only the failure matters),
  returned next to the happy path; the exceptions that are not modelled
  are listed under "Left out";
- sockets, clocks, random numbers and mocks become parameters or traces,
  and so does the printed output the examples check or the core's
  operations produce: the model returns what would have been written
  instead of writing it (the prints that are not returned are listed under
  "Left out");
- the examples' own `assert` statements and printed values are restated as
  lemmas about concrete inputs, next to all-inputs lemmas that say what the
  operation means (its inverse, the order it keeps, the invariant it
  preserves, or an independent reference definition).

Shared helpers live in `Common` (options, sortedness, bisection, counting,
sums), `PyDict` (an insertion-ordered Python `dict`) and `Text` (integer
formatting and parsing, `str.split`).

## Model

| member | source | states |
|---|---|---|
| Life.NewGrid | Item56.py:63-68 | a new grid has the requested height and width and every cell is EMPTY |
| Life.Get | Item56.py:70-71 | a position inside the grid reads the cell stored there (positions outside wrap around, as Life.GetWrapsAround states) |
| Life.Set | Item56.py:73-74 | after `set(y, x, state)` the cell read back at (y, x) is `state`, the dimensions are kept and every other cell (after wrap-around) is unchanged |
| Life.GetWrapsAround | Item56.py:70-71 | `get` is periodic: adding any multiple of the height to y or of the width to x reads the same cell, and the wrapped indices are in range |
| Life.SetThenGet | Item56.py:70-74 | reading after a write returns the written state exactly when the two coordinates wrap to the same cell, and the old state otherwise |
| Life.CountAliveIsSetSize | Item56.py:105-110 | counting ALIVE results over distinct positions equals the number of distinct live positions among them |
| Life.CountNeighbors | Item56.py:96-110 | the neighbour count is at most 8 and is the number of live cells among the eight surrounding positions |
| Life.CountNeighborsReadsOnlyNeighbors | Item56.py:96-104 | two grids that agree on the eight neighbours give the same count, whatever the cell itself and the rest hold |
| Life.CountNeighborsExample | Item56.py:112-127 | the test grid with live cells at (9, 5) and (9, 6) gives 2 neighbours for (10, 5), and the queried positions are exactly the eight neighbours |
| Life.GameLogic | Item56.py:131-140 | a live cell with fewer than 2 or more than 3 neighbours dies, an empty cell with exactly 3 comes alive, every other cell keeps its state |
| Life.GameLogicIsB3S23 | Item56.py:131-140 | the rule is "born with 3, survives with 2 or 3": the result is ALIVE iff there are 3 neighbours, or 2 and the cell is alive |
| Life.GameLogicTable | Item56.py:142-151 | the ten asserted cases of the example table |
| Life.StepCell | Item56.py:155-159 | `step_cell` writes into the next grid the rule applied to the cell's current state and its neighbour count, and leaves every other cell of the next grid alone |
| Life.StepCellStaysAlive | Item56.py:161-173 | a live cell with two live neighbours stays ALIVE |
| Life.StepCellStaysEmpty | Item56.py:175-178 | an empty cell with two live neighbours stays EMPTY |
| Life.StepCellRegenerates | Item56.py:180-183 | an empty cell with three live neighbours becomes ALIVE |
| Life.StepRow | Item56.py:189-191 | stepping one row sets every cell of that row to its next state and leaves the other rows of the next grid unchanged |
| Life.Simulate | Item56.py:187-192 | the new grid has the old dimensions and layout; when both dimensions are positive every cell holds the rule applied to that cell of the old grid and its neighbour count in the old grid, and a grid with a zero or negative dimension gives a fresh grid of the same dimensions, with nothing to step |
| Life.SimulateBoard | Item56.py:189-191 | on a grid with at least one cell, every cell of the new grid holds the rule applied to the old cell and its old neighbour count |
| Life.RenderRow | Item56.py:78-81 | a row renders one character per cell, `*` for ALIVE and `-` for EMPTY |
| Life.RenderLength | Item56.py:76-82 | the rendering of `height` rows of `width` cells has `height` lines of `width + 1` characters |
| Life.RenderLine | Item56.py:76-82 | line y of the rendering is exactly row y rendered, followed by a newline |
| Life.ToString | Item56.py:76-82 | `__str__` is empty iff the grid has no rows; for a grid laid out as `Grid(height, width)` builds it, it is one newline-terminated line per row, line y being row y rendered and starting at offset y * (width + 1); negative dimensions count as 0 |
| Life.RenderLaid | Item56.py:76-82 | the rendering of a grid laid out as `Grid(height, width)` builds it has the line layout ToString promises |
| Life.ToStringLength | Item56.py:76-82 | the string has height * (width + 1) characters, dimensions counted as `range` counts them, so a grid with no rows renders as "" |
| Life.ToStringEmptyGrids | Item56.py:63-82 | a 3 by 0 grid renders as three newlines and a 0 by 4 grid as "" |
| GuessNumber.NewSession | Item61.py:88-92 | a new session has no bounds, no secret, no guesses and has sent nothing |
| GuessNumber.ClearState | Item61.py:94-98 | `_clear_state` sets the bounds, forgets the secret and the guesses and sends nothing |
| GuessNumber.SetParams | Item61.py:116-120 | PARAMS needs exactly three words (AssertionError otherwise) and two texts `int()` accepts (ValueError otherwise); on success the state is cleared with the parsed bounds |
| GuessNumber.NextGuess | Item61.py:124-131 | a known secret is returned as is; without bounds the call raises TypeError; an empty range raises ValueError; a range with every number guessed spins forever; otherwise the guess is a new number within the bounds |
| GuessNumber.SendNumber | Item61.py:133-136 | with a known secret, the secret is sent; otherwise TypeError without bounds, ValueError for an empty range, no answer when every number of the range was guessed, and else some fresh number of the range; the guess is appended to the guesses and its decimal text to the sent lines |
| GuessNumber.ReceiveReport | Item61.py:140-148 | REPORT needs exactly two words and at least one earlier guess (IndexError otherwise), and fails for no other reason; CORRECT fixes the secret to the last guess, any other decision leaves it; the server prints `Server: <last guess> is <decision>` |
| GuessNumber.ServerLineRoundTrip | Item61.py:148 | the server's printed line splits back into the last guess and the decision it names, and the guess reads back as the same number |
| GuessNumber.ReportCorrectFixesSecret | Item61.py:140-146 | after CORRECT the secret is the last number guessed, so the session keeps the secret-is-last-guess invariant |
| GuessNumber.Dispatch | Item61.py:104-112 | each command's outcome is that of the handler named by its first word (PARAMS, NUMBER, REPORT), and UnknownCommandError is raised exactly for any other first word |
| GuessNumber.Loop | Item61.py:102-112 | commands are handled in order until an empty line, the end of input or the first exception; the returned chain of sessions starts at the given one, each step is the outcome of the handler for that line, the final session is the last step, and a raised fault is the outcome of the line that stopped the loop; UnknownCommandError names the offending line; the secret-is-last-guess invariant is preserved |
| GuessNumber.ClearClient | Item61.py:160-162 | the client forgets the secret and the last distance, and sends and prints nothing |
| GuessNumber.BeginSession | Item61.py:166-171 | entering a session prints `Guess a number between <lower> and <upper>! Shhhhh, it's <secret>.`, records the secret and sends `PARAMS lower upper` |
| GuessNumber.EndSession | Item61.py:174-176 | leaving a session clears the client and sends `PARAMS 0 -1` |
| GuessNumber.ParamsLineRoundTrip | Item61.py:116-120 | the server parses the client's PARAMS line back into exactly the bounds the client sent |
| GuessNumber.ClosingParamsEmptyRange | Item61.py:176 | the closing `PARAMS 0 -1` leaves the server with an empty range, so no fresh guess exists |
| GuessNumber.ReportOutcome | Item61.py:190-206 | CORRECT iff the guess is the secret; the first miss is UNSURE; later misses are WARMER iff strictly closer than the previous guess, COLDER iff strictly farther, UNSURE iff equally far; the distance is remembered and `REPORT <decision>` is sent; no session raises TypeError |
| GuessNumber.ConsecutiveReports | Item61.py:190-203 | of two consecutive reports, the second is WARMER iff it is strictly closer to the secret than the first and COLDER iff strictly farther |
| GuessNumber.RequestAndReport | Item61.py:180-205 | each round's number is the parsed reply; only the last round can be CORRECT, and a round is CORRECT iff its number is the secret; every miss is UNSURE with no earlier distance and otherwise WARMER, COLDER or UNSURE exactly as it is closer than, farther than or as far as the previous round's guess; the client has sent NUMBER and REPORT <decision> for each completed round, plus the NUMBER of a failed one; rounds stop after `count` or right after a correct guess; running out of replies is EOFError, and a reply `int()` cannot read is ValueError; nothing is printed |
| OverdueBooks.BookLessIsStrictOrder | Item73.py:233-240 | `__lt__` on due dates is irreflexive, asymmetric and transitive, and any two books with different dates are ordered |
| OverdueBooks.InsertDesc | Item73.py:56-58 | placing a book into the queue gives the old books plus that book, as a multiset, one longer |
| OverdueBooks.SortByDueDesc | Item73.py:58 | the stable sort with `reverse=True` returns a permutation of the queue ordered latest due first |
| OverdueBooks.SortSortedIsIdentity | Item73.py:58 | sorting a queue that is already latest-first leaves it unchanged |
| OverdueBooks.InsertDescSorted | Item73.py:56-58 | inserting a book into a latest-first queue keeps it latest-first |
| OverdueBooks.AddBook | Item73.py:56-58 | `add_book` leaves the queue holding the old books plus the new one, latest due first |
| OverdueBooks.AddBookToSorted | Item73.py:56-58 | on a sorted queue, append-then-sort equals inserting the book in place |
| OverdueBooks.NextOverdueBook | Item73.py:73-80 | a book is returned iff the queue is non-empty and its last book is due before `now`; that book is popped off the end; otherwise NoOverdueBooks |
| OverdueBooks.NextOverdueOnSorted | Item73.py:73-80 | on a sorted queue the popped book is due no later than any other, and NoOverdueBooks means no book is due before `now` |
| OverdueBooks.ReturnBook | Item73.py:102-103 | `list.remove` fails with ValueError iff that book object is not queued, and otherwise drops exactly its first occurrence; books are compared by identity, since `Book` defines no `__eq__` |
| OverdueBooks.ReturnEqualButDistinctBook | Item73.py:49-103 | returning a second `Book` with the queued book's title and due date raises ValueError, because it is a different object |
| OverdueBooks.ReturnBookKeepsSorted | Item73.py:102-103 | returning a queued book keeps the queue latest-first |
| OverdueBooks.ListQueueExampleOrder | Item73.py:61-65 | adding the four example books gives Les Misérables, Don Quixote, Frankenstein, War and Peace |
| OverdueBooks.ListQueueExampleFirstPop | Item73.py:83-88 | the first pop at 2019-06-10 takes War and Peace |
| OverdueBooks.ListQueueExampleSecondPop | Item73.py:90-91 | the second pop at 2019-06-10 takes Frankenstein |
| OverdueBooks.ListQueueExampleLastPops | Item73.py:84-97 | at the string 2019-6-6 both remaining books count as overdue, because string order puts "2019-06-…" before "2019-6-6" |
| OverdueBooks.ListQueueReturnExample | Item73.py:108-124 | a book added and returned leaves an empty queue, from which no overdue book can be taken |
| OverdueBooks.HeapAddBook | Item73.py:214-215 | `heappush` adds exactly the new book to the heap |
| OverdueBooks.HeapNextOverdueBook | Item73.py:280-287 | the book taken is one of the earliest due and is due before `now`, and only it is removed; otherwise NoOverdueBooks, the heap is kept and no book is due before `now` |
| OverdueBooks.ReturnFlagged | Item73.py:398-399 | returning a book only sets its `returned` flag; every other book and the book's title and date are unchanged |
| OverdueBooks.LazyNextOverdueBook | Item73.py:353-366 | only returned books and the book handed out leave the heap; every pending book other than the result stays; the result is pending, due before `now`, due no later than any pending book, and removed once; NoOverdueBooks means no pending book is due before `now` |
| InsertionSort.FirstGreater | Item70.py:66-69 | the linear scan stops at the first element strictly greater than the value: everything before it is at most the value |
| InsertionSort.InsertAt | Item70.py:68 | `list.insert(i, value)` puts the value at index i, keeps the prefix and shifts the suffix, adding exactly one element |
| InsertionSort.InsertLinear | Item70.py:65-70 | the linear `insert_value` adds exactly the value to the list |
| InsertionSort.InsertLinearPosition | Item70.py:65-70 | the linear version inserts at the first position whose element is greater than the value |
| InsertionSort.InsertBisect | Item70.py:101-103 | the `bisect_left` version adds exactly the value to the list |
| InsertionSort.InsertBisectPosition | Item70.py:101-103 | on a sorted list the `bisect_left` version inserts before the first element not less than the value |
| InsertionSort.InsertLinearSorted | Item70.py:65-70 | on a sorted list the linear version keeps it sorted |
| InsertionSort.InsertBisectSorted | Item70.py:101-103 | on a sorted list the `bisect_left` version keeps it sorted |
| InsertionSort.InsertVersionsAgree | Item70.py:101-103 | on a sorted list of integers the two versions of `insert_value` return the same list |
| InsertionSort.InsertValueSorted | Item70.py:65-70 | either version of `insert_value` keeps a sorted list sorted and adds exactly the value |
| InsertionSort.InsertionSortMethod | Item70.py:56-60 | `insertion_sort` returns a sorted permutation of its input |
| InsertionSort.InsertionSortSortsAndPermutes | Item70.py:56-60 | the sort as a function returns a sorted permutation of its input |
| InsertionSort.InsertionSortIdempotent | Item70.py:56-60 | a sorted input comes back unchanged, so sorting twice equals sorting once |
| BubbleSort.Swap | Item06.py:25-27 | the swap exchanges positions i - 1 and i, keeps every other element, and is a permutation |
| BubbleSort.Pass | Item06.py:23-27 | one pass over the list keeps its elements and moves the largest unsorted element to the front of the sorted tail |
| BubbleSort.Sort | Item06.py:21-27 | `bubble_sort` leaves a sorted permutation of the list, and a sorted list is left unchanged |
| FindClosest.FindClosest | Item72.py:55-59 | the result is the first index whose value exceeds the goal, with every earlier value at most the goal; ValueError iff no value exceeds the goal |
| FindClosest.FindClosestIsBisect | Item72.py:55-59 | on sorted data not containing the goal, the linear scan agrees with `bisect_left` (ValueError where `bisect_left` returns the length) |
| FindClosest.FindClosestInRange | Item72.py:49-69 | on `list(range(n))` a goal in the range lands on the index just above it (91234.56 gives 91235), and a goal past the last value raises ValueError |
| FindClosest.BisectLeftInRange | Item72.py:76-80 | on `list(range(n))`, `bisect_left` finds an exact match at its own index and a fractional goal one index later |
| PrioritySort.Call | Item21.py:15-19 | `Sorter.__call__` returns key (0, x) iff x is in the group and (1, x) otherwise, and records that the group was seen |
| PrioritySort.NewSorter | Item21.py:11-13 | a new sorter has found nothing, and a call on it sets `found` exactly for a member of the group |
| PrioritySort.ApplyKeys | Item21.py:15-26 | calling the sorter on every number gives each number's key, and `found` is set iff some number is in the group |
| PrioritySort.InsertByKey | Item21.py:26 | inserting by key adds exactly one element |
| PrioritySort.InsertByKeySorted | Item21.py:26 | inserting by key keeps a list ordered by key |
| PrioritySort.SortByKey | Item21.py:26 | `sort(key=sorter)` returns a permutation ordered by key |
| PrioritySort.PriorityOrder | Item21.py:10-26 | after the sort every group member comes before every other number, and each part is ascending |
| PrioritySort.SortWith | Item21.py:22-28 | sorting with a fresh sorter returns a permutation ordered by key, and `found` ends true iff some number is in the group |
| PrioritySort.KeySortedUnique | Item21.py:26 | two key-ordered arrangements of the same numbers are equal, so the sorted result is determined by its elements |
| PrioritySort.SortIsParts | Item21.py:26 | the sorted list is the sorted group members followed by the sorted rest |
| Ranking.InsertAscendingSorted | Item15.py:133-134 | inserting a key into an ascending list keeps it ascending |
| Ranking.SortStrings | Item15.py:133-134 | `keys.sort()` returns an ascending permutation of the keys |
| Ranking.AscendingUnique | Item15.py:133-134 | two ascending arrangements of the same strings are equal |
| Ranking.SetItem | Item15.py:126-127 | storing a key in a dict or a SortedDict makes it read back the value, leaves other keys alone, and appends a new key to the insertion order |
| Ranking.SortedDictIterKeys | Item15.py:132-136 | iterating a SortedDict yields exactly its keys in ascending order |
| Ranking.SortedDictIterOrderFree | Item15.py:132-136 | a SortedDict's iteration order does not depend on the order the keys were inserted |
| Ranking.SortedDictExample | Item15.py:141-154 | the example's SortedDict reads otter as 1, has cheeta, has no cheeta after `del`, and then iterates as anteater, deer, otter |
| Ranking.InsertByVotesSorted | Item15.py:98 | inserting a name after all names with at least as many votes keeps the list in falling vote order |
| Ranking.SortByVotes | Item15.py:98 | `names.sort(key=votes.get, reverse=True)` returns a permutation in falling vote order |
| Ranking.AssignRanks | Item15.py:99-100 | assigning ranks touches only the listed names |
| Ranking.AssignRanksValues | Item15.py:99-100 | each name of the list gets its position counted from `first` |
| Ranking.AssignRanksOrder | Item15.py:99-100 | on a mapping holding none of the names, the names join the insertion order in list order |
| Ranking.RankedNames | Item15.py:97-98 | the names to rank are exactly the voted names, without repeats, in falling vote order |
| Ranking.PopulateRanks | Item15.py:96-100 | `populate_ranks` keeps the kind of mapping it is given and leaves every key that got no votes as it was |
| Ranking.PopulateRanksSpec | Item15.py:96-100 | every voted name gets a rank between 1 and the number of names, ranks differ between names, more votes mean a smaller rank, and no other key changes |
| Ranking.PopulateEmpty | Item15.py:96-100 | filled into an empty mapping, the keys are the names in vote order |
| Ranking.TopVoted | Item15.py:97-98 | the first name in vote order has the most votes |
| Ranking.GetWinnerFirst | Item15.py:104-105 | `next(iter(ranks))` raises StopIteration exactly on an empty mapping and otherwise returns one of its keys |
| Ranking.GetWinnerByRank | Item15.py:171-174 | the answer is a key whose rank is 1, and None (no winner) exactly when no key has rank 1 |
| Ranking.FirstRankedOne | Item15.py:171-174 | the answer is a name of rank 1 when one exists, and "no winner" exactly when none does |
| Ranking.GetWinnerChecked | Item15.py:182-185 | the checked `get_winner` raises TypeError exactly for a SortedDict and otherwise returns the first key |
| Ranking.WinnerFromDict | Item15.py:104-113 | with a plain dict the first key is a name with the most votes, and its rank is 1 |
| Ranking.WinnerFromSortedDict | Item15.py:162-166 | with a SortedDict the first key is the alphabetically least name, whatever its votes |
| Ranking.WinnerByRankAnyOrder | Item15.py:171-177 | looking for rank 1 finds a name with the most votes in a dict and in a SortedDict alike |
| CustomContainers.Bump | Item43.py:57 | `counts[item] = counts.get(item, 0) + 1` raises the item's count by one, starting from 1, and changes no other count |
| CustomContainers.Frequency | Item43.py:51-58 | `frequency` maps exactly the list's members, each to the number of times it occurs |
| CustomContainers.BumpCounts | Item43.py:56-57 | one loop step turns the counts of a prefix into the counts of the prefix extended by one item |
| CustomContainers.BumpTotal | Item43.py:57 | each step raises the sum of all counts by one |
| CustomContainers.FrequencyTotal | Item43.py:51-58 | the counts add up to the length of the list |
| CustomContainers.Traverse | Item43.py:90-95 | `_traverse` visits every node once: as many values as nodes, and exactly the values the tree holds |
| CustomContainers.SearchTreeTraversalSorted | Item43.py:90-95 | for a binary search tree the traversal is ascending |
| CustomContainers.GetItem | Item43.py:97-101 | `tree[index]` is the value at that in-order position, and IndexError exactly for an index outside the tree |
| CustomContainers.Len | Item43.py:146-149 | `__len__` counts the nodes |
| CustomContainers.Index | Item43.py:195-212 | the derived `index(value)` is the first in-order position holding the value, and ValueError iff the tree lacks it |
| CustomContainers.Count | Item43.py:195-213 | the derived `count(value)` is the number of nodes holding the value |
| CustomContainers.ExampleTreeOrder | Item43.py:105-115 | the example tree traverses as 2, 5, 6, 7, 10, 11, 15 and is a search tree |
| CustomContainers.ExampleTreeIndexing | Item43.py:121-132 | index 0 is 2, index 1 is 5, index 100 raises IndexError, and the tree has 7 nodes |
| CustomContainers.ExampleTreeSearch | Item43.py:212-213 | 7 first occurs at index 3, and 10 occurs once |
| Factorize.Factorize | Item53.py:52-55 | the factors yielded are exactly the divisors between 1 and the number, in increasing order, from 1 up to the number itself; a number below 1 yields nothing |
| DescendingGcd.SearchDown | item64/my_module.py:41-43 | the downward search from i finds the largest common divisor not above i, and fails exactly when there is none |
| DescendingGcd.Gcd | item64/my_module.py:38-44 | for a pair with positive minimum the result is a common divisor that no larger integer beats (the greatest common divisor); 'Not reachable' exactly when the minimum is not positive |
| DescendingGcd.GcdSymmetric | item64/my_module.py:38-44 | the order of the pair does not matter |
| TracedFibonacci.Traced | Item26.py:12-27 | the decorated call returns the n-th Fibonacci number, and the last line it prints is its own, naming n and that number |
| TracedFibonacci.TracedLinesCorrect | Item26.py:12-27 | every printed line names an argument no larger than n and the correct Fibonacci number for it |
| TracedFibonacci.TracedCallCount | Item26.py:12-27 | a call with argument n prints 2 * fib(n + 1) - 1 lines, one per recursive call |
| TracedFibonacci.TracedLength | Item26.py:25-27 | the lines of `fibonacci(n)` are those of `fibonacci(n - 2)` and `fibonacci(n - 1)` plus its own |
| TracedFibonacci.FibonacciIterative | Item26.py:23-27 | iterating pairs of consecutive numbers computes the same value as the recurrence |
| Stats.Minimum | Item19.py:11 | `min` of a non-empty list is one of its elements and no element is smaller |
| Stats.Maximum | Item19.py:12 | `max` of a non-empty list is one of its elements and no element is larger |
| Stats.GetMinMax | Item19.py:10-13 | the first `get_stats` returns an element no larger than any and an element no smaller than any; an empty list raises |
| Stats.Average | Item19.py:55-56 | the average times the count is the sum |
| Stats.GetStats | Item19.py:52-67 | the second `get_stats` raises on an empty list and otherwise returns the count, the average, and a minimum and maximum that are elements bounding all the others |
| Stats.MedianOfAnySortedArrangement | Item19.py:58-65 | the median is the middle of any ascending arrangement of the numbers, the mean of the two middle ones for an even count |
| Stats.AverageAndMedianBetween | Item19.py:52-67 | the average and the median both lie between the minimum and the maximum |
| Stats.AverageBetween | Item19.py:55-56 | numbers within bounds average within the same bounds |
| Stats.MiddleBetween | Item19.py:58-65 | numbers within bounds have their median within the same bounds |
| Stats.OddCountExample | Item19.py:81-83 | `[1, 2, 3]` has median 2 and count 3 |
| Stats.LengthsAverage | Item19.py:15-76 | the ten example lengths average 67.5 |
| Stats.LengthsSum | Item19.py:15 | the ten example lengths sum to 675 |
| WordPatterns.Reverse | Item84.py:54 | `word[::-1]` has the word's length and holds its characters back to front |
| WordPatterns.Permutations | Item84.py:102-103 | the joined permutations include the word itself (PermutationsRearrange and RearrangementsArePermutations state the whole set) |
| WordPatterns.Palindrome | Item84.py:52-54 | a word is a palindrome iff each character equals the one at the mirrored position |
| WordPatterns.PalindromeExamples | Item84.py:56-57 | "tacocat" is a palindrome and "banana" is not |
| WordPatterns.PermutationsRearrange | Item84.py:102-103 | every joined permutation of the word uses exactly the word's letters |
| WordPatterns.RearrangementsArePermutations | Item84.py:102-103 | every string using exactly the word's letters is one of its permutations |
| WordPatterns.FindAnagrams | Item84.py:90-105 | the anagrams found are exactly the dictionary words that use the same letters as the word |
| WordPatterns.AnagramsExactly | Item84.py:102-104 | filtering the permutations through the dictionary keeps exactly the dictionary words with the word's letters |
| WordPatterns.AnagramExample | Item84.py:108 | the anagrams of "pancakes" in `['scanpeak']` are exactly "scanpeak" |
| WordIndex.WordStarts | Item30.py:15-17 | from position i on, the indices yielded are exactly the positions just after a space, in increasing order |
| WordIndex.IndexWordsIter | Item30.py:12-17 | `index_words_iter` yields 0 for a non-empty text and every position just after a space, each once and in increasing order, and nothing for an empty text |
| WordIndex.IndexWordsCount | Item30.py:12-17 | it yields one index per space, plus one for a non-empty text |
| WordIndex.AfterSpaces | Item30.py:35-38 | within one line the indices yielded follow the spaces, one per space, in increasing order and within the line's span |
| WordIndex.AfterSpacesIsWordStarts | Item30.py:35-38 | the per-letter loop of `index_file` yields the same positions as the `enumerate` loop of `index_words_iter` |
| WordIndex.IndexFile | Item30.py:30-38 | `index_file` yields non-decreasing offsets, all within the total length of the lines |
| WordIndex.AfterSpacesMember | Item30.py:35-38 | within one line an offset is yielded exactly when the letter before it is a space of the line |
| WordIndex.LineStartsMember | Item30.py:30-38 | one line yields exactly its word starts: its own offset if it is non-empty and every offset just after one of its spaces |
| WordIndex.IndexFileMembers | Item30.py:30-38 | an offset is yielded exactly when it is a word start of some line, that line measured from the starting offset plus the lengths of all earlier lines |
| WordIndex.IndexFileCount | Item30.py:30-38 | it yields one offset per non-empty line plus one per space |
| WordIndex.IndexFileOneLine | Item30.py:12-38 | on a single line, `index_file` yields what `index_words_iter` yields on that text |
| WordIndex.RepeatedOffset | Item30.py:30-38 | a line ending in a space followed by another line yields the same offset twice (`["a ", "b"]` gives 0, 2, 2) |
| Animation.Move | Item33.py:9-11 | `move(period, speed)` yields `speed` `period` times, and nothing for a period below 1 |
| Animation.Pause | Item33.py:13-15 | `pause(delay)` yields 0 `delay` times, and nothing for a delay below 1 |
| Animation.Relay | Item33.py:19-25 | re-yielding a generator value by value yields as many values as it, starting with its first |
| Animation.RelayIsDelegation | Item33.py:19-25 | re-yielding every value of a generator in a `for` loop yields the same sequence as `yield from` |
| Animation.AnimationsAgree | Item33.py:19-47 | `animate` and `animate_composed` yield the same deltas: four 5.0, three 0, two 3.0 |
| Animation.Child | Item33.py:56-58 | `child()` yields the million numbers 0 to 999999, each at its own position |
| Animation.Slow | Item33.py:60-64 | `slow()` yields a million values, starting with 0 |
| Animation.Fast | Item33.py:66-69 | `fast()` yields the million numbers 0 to 999999 |
| Animation.SlowIsFast | Item33.py:56-69 | `slow` and `fast` yield the same million values 0 to 999999 |
| ResettableTimer.NewTimer | Item35.py:95-97 | a new Timer starts with its count at the period |
| ResettableTimer.Reset | Item35.py:99-100 | `reset` sets the count back to the period and keeps the period |
| ResettableTimer.Countdown | Item35.py:54-61 | the countdown announces period - 1 down to 0, each once |
| ResettableTimer.GeneratorRun | Item35.py:54-88 | the throw-driven run announces at most one value per reset request; it runs out of requests exactly when every request announced a value; a Reset can escape only before the generator has started |
| ResettableTimer.GeneratorCountsDown | Item35.py:54-61 | without resets a generator at count c announces c - 1 down to 0 and finishes |
| ResettableTimer.ThrowWithoutResets | Item35.py:77-88 | with no reset requested, the throw-driven run announces period - 1 down to 0 |
| ResettableTimer.GeneratorValuesInRange | Item35.py:54-61 | every value the generator announces lies between 0 and period - 1 |
| ResettableTimer.ThrowRestartsCount | Item35.py:60-82 | a Reset thrown into a running generator makes it announce period - 1 next |
| ResettableTimer.ThrowBeforeStart | Item35.py:78-82 | a Reset thrown before the first `next` is raised out of `run` and nothing is announced |
| ResettableTimer.ClassValuesInRange | Item35.py:102-105 | every value the Timer class yields lies between 0 and period - 1 |
| ResettableTimer.ClassRun | Item35.py:102-117 | the class-driven run never lets a Reset escape, announces at most one value per request, and one per request when it runs out of them |
| ResettableTimer.ClassMatchesGenerator | Item35.py:102-117 | a class run that ends normally announces what the generator announces when one request is shifted, because the class polls after each value and the generator before the next |
| ResettableTimer.RunsAgree | Item35.py:77-117 | the two `run` functions agree on whole runs, given that shift of the requests |
| ResettableTimer.ClassCountsDown | Item35.py:102-105 | without resets the class also announces its count minus 1 down to 0 |
| ResettableTimer.ThrowExample | Item35.py:66-90 | Example 4's requests announce 3 2 1 3 2 3 2 1 0 |
| ResettableTimer.ClassExample | Item35.py:108-120 | Example 6's requests announce the same 3 2 1 3 2 3 2 1 0 |
| Combine.Combine | item_90_example_10.py:13-20 | `combine` is the left fold of `func` over the values, starting from the first; a single value is returned as is; an empty list fails the assertion |
| Combine.CombineAddIsSum | item_90_example_10.py:13-25 | folding `add` over integers gives their sum |
| Combine.Add | item_90_example_10.py:24-25 | `add(x, y)` is the sum of the two-element list, the reference the fold is compared with in CombineAddIsSum |
| Combine.FoldLast | item_90_example_10.py:17-18 | folding a list extended by one value applies `func` once more to the fold of the list and that value |
| Combine.AddComplex | item_90_example_10.py:24-25 | `add` on complex numbers adds real and imaginary parts separately |
| Combine.MixedInputsExample | item_90_example_10.py:27-29 | `[1, 2, 3, 4j]` combines to 6 + 4j, which is not the 10 the example's final assertion expects (the mixed input the type checker is meant to catch) |
| CountMissing.Missing | Item38.py:80-105 | the default factory returns 0 and counts one call |
| CountMissing.CallExample | Item38.py:126-127 | calling a fresh counter returns 0 and leaves it at 1 |
| CountMissing.IncrementKeys | Item38.py:86 | the keys incremented are exactly the first components of the increments |
| CountMissing.Increment | Item38.py:87 | `result[key] += amount` adds the amount to the key's value (0 for a missing key), changes no other key, and calls the factory exactly when the key was missing |
| CountMissing.ApplyIncrementsKeys | Item38.py:86-87 | after the loop the keys are the old keys and the incremented ones |
| CountMissing.ApplyIncrementsValues | Item38.py:86-87 | after the loop each key holds its old value (0 if absent) plus all of its amounts |
| CountMissing.ApplyIncrementsAdded | Item38.py:86-87 | the counter grows by the number of distinct incremented keys that were absent |
| CountMissing.IncrementWithReport | Item38.py:77-89 | `increment_with_report` returns the updated mapping and the number of distinct keys it had to add |
| CountMissing.AddedBounded | Item38.py:77-89 | at most one key is added per increment, and none when every key was already present |
| CountMissing.FourAbsentKeys | Item38.py:60-68 | for any six distinct key names shaped like the example, four keys are added |
| CountMissing.AddedExample | Item38.py:93-94 | the example adds four keys (red, orange, violet and white) |
| Visits.SetDefault | Item17.py:40 | `setdefault` returns the stored value, inserting the default only when the key is missing and changing nothing else |
| Visits.AddWithSetDefault | Item17.py:39-41 | after the `setdefault` version of `add` the country's set holds its old cities plus the new one (just the new one for a new country), and every other country is unchanged |
| Visits.AddWithDefaultDict | Item17.py:61-62 | adding a city through `defaultdict(set)` records it in the country's set, changes no other country, and appends a new country to the key order |
| Visits.VersionsAgree | Item17.py:39-62 | the `setdefault` version and the `defaultdict` version store the same data in the same key order |
| Visits.AddRecordsCity | Item17.py:39-41 | after `add` the city is recorded for the country, a first add records just that city, and other countries are unchanged |
| Visits.AddIdempotent | Item17.py:61-62 | adding the same city twice is the same as adding it once |
| Visits.VisitsExample | Item17.py:45-50 | the example's four adds give Russia with three cities and Tanzania with Zanzibar, in that key order |
| Batches.FloorDiv | Item29.py:15-16 | `//` rounds toward negative infinity: the quotient times the divisor is within one divisor of the dividend, on the side the divisor's sign gives; division by zero raises |
| Batches.GetBatches | Item29.py:15-16 | `count // size` is ZeroDivisionError iff the size is 0; for a positive size it is the number of whole batches, leaving a remainder in 0..size-1, and never negative for a non-negative count |
| Batches.BatchesOf | Item29.py:20-21 | the number of batches of 8 is the largest count of whole batches in the stock (0 for an unknown name) |
| Batches.FillOrder | Item29.py:18-23 | the loop only appends to `result`: the keys it had stay in front, in their order, and every key added is an ordered name |
| Batches.FillOrderContents | Item29.py:18-23 | the loop adds exactly the ordered names whose batch count is non-zero, each mapped to that count; a negative stock gives a negative count, which is kept; other keys keep their values |
| Batches.OrderResultContents | Item29.py:18-36 | the loop from an empty `result`, and the comprehensions `found` and `found_better` alike, map exactly the ordered names with a non-zero batch count, each to that count |
| Batches.FoundPairs | Item29.py:60-61 | the generator yields at most one pair per ordered name, each an ordered name with its batch count, which is non-zero |
| Batches.PairsAreBatches | Item29.py:60-61 | the generator yields exactly the pairs of an ordered name and its non-zero batch count |
| Batches.GeneratorMatchesResult | Item29.py:18-61 | the generator's pairs and the loop's dict hold the same names and counts |
| Batches.StockExample | Item29.py:6-23 | the example stock and order give 4 batches of screws, 1 of wingnuts and no clips |
| Grades.NewHomework | Item46.py:44-45 | a new Homework has grade 0 |
| Grades.SetHomeworkGrade | Item46.py:51-56 | the setter raises ValueError iff the value is outside 0..100, keeping the old grade, and otherwise stores the value |
| Grades.NewExam | Item46.py:67-69 | a new Exam has writing and math grades 0 |
| Grades.SetWritingGrade | Item46.py:71-86 | the writing setter validates through `_check_grade`, stores a valid value, keeps the old one on ValueError, and never touches the math grade |
| Grades.SetMathGrade | Item46.py:71-95 | the math setter validates the same way and never touches the writing grade |
| Grades.PropertyExamples | Item46.py:60-102 | Homework reads back 95, and Exam reads back writing 85 and math 99 |
| Grades.NewSharedGrade | Item46.py:141-142 | the Example 10 descriptor starts at 0 |
| Grades.SharedSet | Item46.py:147-151 | a valid assignment through the shared descriptor makes every instance read the new value; an invalid one raises ValueError and changes nothing |
| Grades.SharedGradeOverwrites | Item46.py:160-172 | after the first exam writes 82 and the second writes 75, both read 75 |
| Grades.NewInstanceGrade | Item46.py:202-204 | the per-instance descriptor reads 0 for every instance never assigned |
| Grades.InstanceGet | Item46.py:206-209 | `__get__` returns the descriptor itself exactly when accessed through the class, and 0 for an instance without a stored value |
| Grades.InstanceSet | Item46.py:211-215 | `__set__` raises ValueError iff the value is outside 0..100; a valid value is read back for that instance and every other instance reads what it read before |
| Grades.InstanceSetKeepsValid | Item46.py:206-215 | whatever is assigned, successful or not, the descriptor afterwards holds and reads back only grades in 0..100 |
| Grades.InstanceGradesSeparate | Item46.py:224-229 | after the first exam writes 82 and the second writes 75, each reads its own value |
| Grades.SetExamWriting | Item46.py:219-227 | writing an exam's writing grade leaves the class's math and science descriptors unchanged |
| Resistors.GetOhms | Item44.py:51-52 | setting back the value `get_ohms` returned leaves the resistor as it was |
| Resistors.SetOhms | Item44.py:51-55 | `get_ohms` after `set_ohms` returns the new value |
| Resistors.OldResistorExample | Item44.py:59-67 | setting 10000 and then subtracting 4000 reads back 6000 |
| Resistors.NewResistor | Item44.py:71-75 | a new Resistor has the given ohms and voltage and current 0 |
| Resistors.SetBoundedOhms | Item44.py:123-127 | the bounded setter raises ValueError iff the value is not positive, keeping the old value, and otherwise stores it |
| Resistors.NewBounded | Item44.py:72-127 | construction assigns through the validating setter, so a non-positive resistance raises ValueError and no object is made |
| Resistors.BoundedStaysPositive | Item44.py:115-127 | a BoundedResistance always holds a positive resistance, from construction through every assignment |
| Resistors.BoundedExamples | Item44.py:130-146 | `BoundedResistance(1e3)` succeeds, assigning 0 to it raises ValueError, and `BoundedResistance(-5)` raises ValueError |
| Resistors.SetFixedOhms | Item44.py:158-162 | the fixed setter raises AttributeError iff a resistance is already set, keeping it, and otherwise stores the value |
| Resistors.NewFixed | Item44.py:150-162 | construction stores the given resistance through the setter's first assignment |
| Resistors.FixedIsImmutable | Item44.py:158-162 | no sequence of later assignments changes a constructed FixedResistance |
| Resistors.FixedExample | Item44.py:165-172 | assigning 2e3 to `FixedResistance(1e3)` raises AttributeError and the resistance stays 1e3 |
| PyDict.Set | Item15.py:126-127 | storing a key makes it read back the value, leaves every other key alone, and appends a new key to the insertion order |
| PyDict.Delete | Item15.py:129-130 | `del` raises KeyError iff the key is absent and otherwise removes only that key; the remaining keys keep their insertion order, which is the old order with the deleted key's position cut out |
| PyDict.RemoveOnce | Item15.py:129-130 | taking out a key that occurs once in the insertion order leaves the keys before and after it, in order |
| PyDict.Len | Item15.py:138-139 | `len` is the number of stored keys |
| Common.BisectFrom | Item72.py:72-80 | each halving step of the binary search keeps the answer inside the remaining range, so on sorted data the result splits the values below the goal from the rest |
| Common.BisectLeft | Item72.py:72-80 | on sorted data `bisect_left` returns a position before which every value is below the goal and from which every value is not |
| Common.FirstNotBelow | Item72.py:72-80 | the reference answer: the first position whose value is not below the goal, found front to back |
| Common.BisectLeftIsFirstNotBelow | Item70.py:98-103 | on sorted data the binary search lands exactly on the first value not below the goal |
| Common.BisectLeftUnsorted | Item70.py:98-103 | on the unsorted `[3, 1, 2]` the binary search for 2 answers 2 while the first value not below 2 is at 0: the promise holds only for sorted lists |
| Common.LexLessTransitive | Item73.py:239-240 | string `<` on due dates is transitive |
| Common.LexLessTotal | Item73.py:239-240 | any two different due-date strings are ordered one way or the other |
| Text.ParseIntToString | Item61.py:133-136 | the decimal text a number is sent as parses back to the same number |
| Text.JoinSplit | Item61.py:104 | splitting a command on spaces and joining the words back gives the command |
| Text.SplitJoin | Item61.py:104 | words without spaces, joined by spaces, split back into the same words |
| Text.Join | Item61.py:171 | joining pieces with a separator starts with the first piece, is that piece alone for one piece, and otherwise continues with the separator (SplitJoin undoes it) |
| Text.IntToString | Item61.py:136 | the decimal text of a number is non-empty, holds no space, and starts with '-' iff the number is negative (ParseIntToString reads it back) |
| Text.Split | Item61.py:104 | `split(' ')` gives at least one piece, and no piece holds a space |
| Text.ParseInt | Item61.py:116-120 | `int()` raises ValueError on a blank text, and any text it accepts holds a digit |
| Text.ParseIntPadded | Item61.py:116-120 | whitespace before and after the number is ignored |
| Text.ParseIntSigned | Item61.py:116-120 | an explicit `+` or `-` in front of the digits is accepted and gives the sign |
| Text.ParseIntUnderscore | Item61.py:116-120 | an underscore between two digits does not change the value |
| Text.ParseIntGroups | Item61.py:116-120 | digits with single underscores between them parse to the value of the digits alone |
| Text.ParseIntExamples | Item61.py:116-120 | "42" parses to 42 and "-1" to -1 |
| Text.ParseIntPaddedExample | Item61.py:116-120 | " +7" followed by a tab parses to 7 |
| Text.ParseIntRejectsBlank | Item61.py:116-120 | the empty text, a lone space and a lone minus raise ValueError |
| Text.ParseIntRejectsUnderscores | Item61.py:116-120 | a doubled, leading or trailing underscore raises ValueError |
| Text.ParseIntRejectsMalformed | Item61.py:116-120 | a space after the sign or between digits, and a letter, raise ValueError |
| Polygons.InteriorAnglesGrow | Item48.py:90-92 | each added side adds 180 degrees to `interior_angles`, and every shape with three or more sides has at least 180 |
| Polygons.InteriorAnglesExamples | Item48.py:103-142 | triangle 180, rectangle 360, nonagon 1260, hexagon 720 |
| Polygons.CheckSidesInBody | Item48.py:83-84 | the `sides` check of a class body passes exactly when the body sets `sides` to 3 or more |
| Polygons.ValidatePolygon | Item48.py:79-85 | a class is created, unchanged, exactly when it has no bases (the root) or declares 3 or more sides |
| Polygons.ValidatePolygonRoot | Item48.py:188-194 | a class is created, unchanged, exactly when it is marked `is_root` or declares 3 or more sides |
| Polygons.ValidateFilledPolygon | Item48.py:200-206 | a non-root class is created exactly when its colour is red or green and it has 3 or more sides; a body without `color` raises KeyError and any other colour raises "Fill color must be supported", both before the sides are looked at |
| Polygons.BetterPolygonCheck | Item48.py:130-133 | `__init_subclass__` accepts exactly the subclasses with 3 or more sides, and one that leaves `sides = None` raises TypeError |
| Polygons.BetterPolygonSubclass | Item48.py:127-133 | a `BetterPolygon` subclass is created exactly when it has 3 or more sides |
| Polygons.FilledPolygonSubclass | Item48.py:248-254 | a `Filled, BetterPolygon` subclass is created, unchanged, exactly when it has 3 or more sides and its colour is red, green or blue |
| Polygons.CheckOrder | Item48.py:251-296 | for a class with too few sides and a bad colour, the composed hooks report the sides (the base hook runs first through `super()`) while the metaclass chain reports the colour (KeyError when none is set) |
| Polygons.ClassExamples | Item48.py:213-296 | GreenPentagon and RedTriangle are created; OrangePentagon, RedLine, BlueLine and BeigeSquare raise ValueError with the messages of their checks |
| Polygons.RejectedShapes | Item48.py:108-156 | Line (2 sides) and Point (1 side) raise "Polygons need 3+ sides", the root classes are created, and a non-root body without a colour raises KeyError |
| WeightErrors.HierarchyFacts | Item87.py:65-145 | every class is an Exception; exactly the module's own classes derive from `Error`; NegativeDensityError is an InvalidDensityError and InvalidVolumeError is not |
| WeightErrors.DetermineWeightV1 | Item87.py:51-53 | ValueError exactly when the density is not positive |
| WeightErrors.DetermineWeightV2 | Item87.py:74-80 | InvalidDensityError exactly for a negative density; otherwise InvalidVolumeError for a negative volume, ZeroDivisionError for a zero volume, and no error for a positive volume |
| WeightErrors.DetermineWeightV3 | Item87.py:148-150 | NegativeDensityError exactly for a negative density, no error otherwise |
| WeightErrors.ErrorCatchesModuleErrors | Item87.py:97-132 | `except Error` catches every error of the second version except the division by zero |
| WeightErrors.Handler | Item87.py:107-114 | the handling clause is the first one whose class the exception derives from, and none when no clause matches |
| WeightErrors.HandlerExamples | Item87.py:97-173 | Examples 1, 3, 4, 5 and 7 are handled by `ValueError`, `Error`, `Error`, `Exception` and `NegativeDensityError` respectively |
| Deprecation.Require | Item89.py:132-139 | a supplied value is returned with no warning; a missing one becomes the default with one DeprecationWarning naming the argument |
| Deprecation.MissingNames | Item89.py:91-108 | the arguments warned about are exactly the missing ones (speed_units, time_units, distance_units), in argument order |
| Deprecation.ResolveInline | Item89.py:91-108 | missing units default to mph, hours and miles; the i-th warning is the DeprecationWarning "<arg> required" for the i-th missing argument, in argument order |
| Deprecation.ResolveWithRequire | Item89.py:141-148 | each missing unit takes its default (mph, hours, miles) and a supplied one is kept; the i-th warning is the DeprecationWarning "<arg> will be required soon, update your code" for the i-th missing argument, in argument order |
| Deprecation.VersionsAgree | Item89.py:91-148 | the `require` version settles on the same units as the inline version, with as many DeprecationWarnings, and the i-th warning of both names the same argument |
| Deprecation.SuppliedUnitsKept | Item89.py:91-148 | when all units are given, both versions keep them and warn about nothing |
| Deprecation.MetersSecondsExample | Item89.py:161-165 | meters and seconds are kept and only the distance units default to miles, with one warning |
| Deprecation.RecordedWarningExample | Item89.py:218-229 | the recorded call returns "fake units" with one DeprecationWarning reading "my_arg will be required soon, update your code" |
| EmailQueue.Emails | Item71.py:73-84 | the emails a source yields are at most as many as its items |
| EmailQueue.TryReceive | Item71.py:73-84 | the next item of the source, or None (NoEmailError) when the source is exhausted |
| EmailQueue.ReadyCount | Item71.py:89-96 | the emails ready before the first gap are all present and the item after them is a gap |
| EmailQueue.Produce | Item71.py:89-96 | on a non-empty source every call consumes at least one item; on an empty one nothing changes |
| EmailQueue.ProduceTakesReady | Item71.py:89-96 | the queue gains exactly the ready emails in order and the source resumes after the first gap |
| EmailQueue.ConsumeOne | Item71.py:101-104 | an empty queue is left alone; otherwise the front email is removed and the rest keeps its order |
| EmailQueue.KeepRunning | Item71.py:117-126 | the closure answers True while its list can be popped, shrinking it by one |
| EmailQueue.TestEndAnswers | Item71.py:117-126 | successive calls answer True for exactly the first `count` calls and False after |
| EmailQueue.EmailsAppend | Item71.py:89-96 | the emails of two concatenated sources are the emails of each, in order |
| EmailQueue.ProduceKeepsEmails | Item71.py:89-96 | producing moves emails from the source to the queue without losing, adding or reordering any |
| EmailQueue.Loop | Item71.py:112-115 | `loop` runs one produce and one consume per True answer, so it consumes at most `count` emails, never grows the source, and does nothing when the first answer is False |
| EmailQueue.LoopIsFifo | Item71.py:112-115 | across the loop, consumed emails, then the queue, then the source's remaining emails are the original queue and source emails in order |
| EmailQueue.DrainQueue | Item71.py:112-115 | with an exhausted source and enough rounds, the queue is consumed front to back |
| EmailQueue.ExampleLoop | Item71.py:112-133 | `loop([], make_test_end())` over `get_emails()` consumes all seven emails in order |
| Zoo.FeedCalls | Item78.py:188-191 | the feeding calls are at most one per animal and all carry the round's `now` |
| Zoo.FeedCallsFeedDue | Item78.py:188-191 | every due animal is fed at `now`, and every call feeds a due animal |
| Zoo.FeedCallsCount | Item78.py:188-193 | there is one feeding call per due animal |
| Zoo.DoRounds | Item78.py:178-193 | the round asks for the food period, then for the animals, then makes `fed` feeding calls at `now` |
| Zoo.DoRoundsCounts | Item78.py:178-193 | the count returned is the number of due animals, and the food period and animals are each asked for once |
| Zoo.DoRoundsFeedsDue | Item78.py:178-193 | the round feeds exactly the due animals |
| Zoo.RulesDifferAtBoundary | Item79.py:62-73 | the `>=` rule feeds what the `>` rule feeds plus the animals fed exactly one period ago |
| Zoo.StrictExample | Item78.py:199-239 | with the mocks, the strict rule feeds Spot and Fluffy and returns 2, where `>=` would feed all three |
| Zoo.AtLeastExample | Item79.py:85-112 | with the mocks, the `>=` rule feeds Spot and Fluffy and returns 2 |
| Zoo.GetDatabase | Item79.py:125-131 | the global is set afterwards; an existing database is returned, otherwise the new one |
| Zoo.GetDatabaseOnce | Item79.py:125-131 | a second call returns the database of the first and leaves the global alone |
| Zoo.FedMessage | Item79.py:137 | the printed line starts with "Fed " and ends with "(s)" and a newline |
| Zoo.RunMain | Item79.py:133-138 | IndexError exactly when `argv` has no species, otherwise exit code 0; in both cases the global database is set first, to the existing instance if there was one |
| Zoo.FedMessageCount | Item79.py:137 | the count in the printed line reads back as the count, followed by the species |
| Zoo.MainReportsDue | Item79.py:133-138 | `main` prints the number of due animals of the species and keeps the database `get_database` returned |
| Zoo.MainExample | Item79.py:147-164 | with Spot fed 4.5 minutes ago and Fluffy and Jojo at least three hours ago, `main` prints "Fed 2 Meerkat(s)" |
| GameStateMigration.Construct | Item68.py:109-125 | TypeError exactly when a keyword is not a constructor parameter; otherwise the object has the constructor's fields, taking each from the keywords or the default |
| GameStateMigration.PickleUnversioned | Item68.py:117-119 | the pickled keyword arguments are exactly the object's attributes with their values |
| GameStateMigration.UnpickleUnversioned | Item68.py:124-125 | TypeError exactly when the data hold a field the class lacks; otherwise the object has the class's fields, with the given values where given |
| GameStateMigration.PickleVersioned | Item68.py:176-179 | the pickled keywords are the object's own attributes plus `version = 2`, and the object gains the tag too |
| GameStateMigration.UnpickleVersioned | Item68.py:184-188 | KeyError('lives') is raised exactly for untagged or version-1 data without `lives`; a built object has exactly the class's fields, and every given field other than the tag and `lives` keeps its given value |
| GameStateMigration.UnpickleVersionedMigrates | Item68.py:184-188 | untagged or version-1 data lose `lives` (KeyError without it) before construction; other versions lose only the tag |
| GameStateMigration.VersionedRoundTrip | Item68.py:176-188 | an object of the current class, pickled with a version, loads back as the same object |
| GameStateMigration.UnversionedRoundTrip | Item68.py:117-125 | without versions an object loads back only into a class with the same fields, and a field the class lost raises TypeError |
| GameStateMigration.UnversionedExamples | Item68.py:134-172 | the old data load with `magic = 5` filled in, and fail once `lives` is removed |
| GameStateMigration.VersionedExample | Item68.py:191-195 | untagged old data load into the class without `lives` as level 0, points 1000, magic 5 |
| PrioritySort.ExampleAsWritten | Item21.py:22-29 | with the group as written the helper finds no group member, so the example's assertion does not hold |
| PrioritySort.ExampleIntended | Item21.py:22-29 | with the group `{2, 3, 5, 7}` left in the comment, the helper sees a group member and the assertion holds |

## Left out

- Item55.py's threaded pipeline and the other concurrency (the threaded, pooled and asyncio Game of Life copies, locks, barriers, `FactorizeThread`, `run_parallel`): thread scheduling is outside a sequential model; the pure Game of Life functions they share are covered by `Life`.
- Sockets and async I/O of Item61.py (`ConnectionBase`, `run_server`, `run_client` and their async versions): a session reads its commands from a sequence of lines and its replies are the list of lines it would send.
- Text.ParseInt: only the ASCII digits 0 to 9 are read; Python's `int()` also accepts the other Unicode decimal digits, and from Python 3.11 on it rejects texts of more than 4300 digits. Neither is modelled.
- GuessNumber.ReportOutcome: distances are exact integers. The source takes them with `math.fabs`, a float, so beyond 2**53 two different distances can round to the same float and be reported UNSURE rather than WARMER or COLDER, and beyond the float range the conversion raises OverflowError; neither effect is modelled.
- BubbleSort.Sort: the list holds integers; the source's two calls sort lists of names with Python's string `<`. Both are total orders, so the passes do the same work, but the two name lists are not stated as examples.
- InsertionSort.InsertBisectPosition: the insertion position is promised for sorted lists only; on an unsorted list `bisect_left`'s answer depends on the path of the binary search, as `Common.BisectLeftUnsorted` shows.
- GuessNumber.NextGuess: `random.randint` is replaced by a nondeterministic choice of any number the contract allows (within the bounds and not guessed before), so which number is drawn is not modelled; once every number of the range has been guessed the source's `while True` never ends, and the model reports that as the `Diverges` fault.
- File I/O: the file opened for Item30.py's `index_file` (it works over a sequence of lines), Item68.py's file dump and load, and the other reading and writing snippets.
- Floating point: Item44.py's `VoltageResistance` and `MysteriousResistor`, Item89.py's `convert` and `localize` (the distance arithmetic of `print_distance`), Item19.py's `get_avg_ratio`, and the other float snippets. The averages and medians of Item19.py are exact rationals.
- Resistors: resistances are integers; the source writes floats such as `1e3` and `50e3`, whose values are whole numbers in every example.
- Stats.LengthsAverage: only the average 67.5 and the sum of the ten lengths are proved; their minimum 60, maximum 73 and median 68.5 are not stated as concrete lemmas.
- TracedFibonacci: `fibonacci` is defined for natural numbers only; a negative argument never reaches a base case in the source and recurses until Python's recursion limit.
- TracedFibonacci.Traced: the lines are recorded as (argument, result) pairs; the exact `print` format of the `trace` wrapper is not modelled.
- WordPatterns.FindAnagrams: the result is a set; the source returns a list, whose order is the order of `itertools.permutations` and is not modelled.
- Life.Set: reading and writing a cell need a positive height and width; with a zero dimension the source raises ZeroDivisionError, which the model does not reproduce. `simulate` and `__str__` never call `get` or `set` on such a grid, and Life.Simulate and Life.ToString accept it.
- GuessNumber: the `Client: <number> is <outcome>` lines `main` prints from the results of `run_client` are not modelled, because `main` and `run_client` are not (see the Sockets line above).
- Item46.py Example 5's descriptor with empty `__get__`/`__set__` is not modelled; it stores nothing.
- OverdueBooks: the heap is modelled by its contents (a multiset) together with the promise `heapq` gives about its first element; the heap's internal array layout and the benchmarks are not modelled.
- Item35.py Example 2's `my_generator` is not modelled; it only shows how `throw` re-raises.
- Item33.py: the generators are modelled as the sequences they yield; the timing of `slow` and `fast` is not modelled.
- Deprecation: warnings are a list in the order they are issued; the `stacklevel`, the warning filters (`simplefilter`, `resetwarnings`) and the logging of warnings are not modelled. The distance arithmetic (`convert`, `localize`) is left out with it, and so is the KeyError `CONVERSIONS[units]` raises for an unknown unit.
- Polygons: the metaclass mechanics (`type.__new__`, Example 7's metaclass conflict) and the diamond inheritance of Example 16 onwards are left out; only the validation rules are modelled.
- Zoo: the database argument of `do_rounds` is not modelled; the mocks become parameters and the calls become a trace; datetimes are whole seconds; Item78.py's `patch` demonstrations (Examples 15 to 17 and 19 onwards) are not modelled.
- GameStateMigration: dict order of the attributes, the wording of the TypeError, the pickle bytes, the `copyreg` registry and the class rename of Examples 21 to 25 are not modelled.
- EmailQueue: the emails are abstract records and `print` is left out; the list and deque versions of `consume_one_email` are one model because they remove the same element; the benchmarks are not modelled.
- EmailQueue.ExampleLoop: the count of rounds is symbolic (seven or more); `make_test_end` allows ten, which is covered by that bound.
- Combine.MixedInputsExample: the final assertion of item_90_example_10.py is deliberately wrong (a demonstration for a type checker), so it is stated as the value the fold really produces.
- Item90.py and the other typing demonstrations, the packaging and configuration items, the reflection and registration mixins, and the straight-line scripts with no reusable logic are not part of this model.

## Findings

| source | as written | input that shows it | evidently intended | confidence | as-written member | corrected member |
|---|---|---|---|---|---|---|
| Item21.py:22-29 | `group = {9, 10}`, so the sorter never sees a group member and `found` stays False, and the assertion that `found` is True fails | numbers `[8, 3, 1, 2, 5, 7, 4, 6]` with group `{9, 10}` | the group `{2, 3, 5, 7}` left in the line's comment, for which `found` becomes True | not executed | PrioritySort.ExampleAsWritten | PrioritySort.ExampleIntended |

=== FILE: animate.dfy ===
/** The generators of Item33.py, each modelled by the list of values it
    yields. Re-yielding another generator's values one by one
    (`for x in g: yield x`) and delegating to it (`yield from g`) are
    written as two separate functions and shown to agree. */
module Animation {

  /** `move(period, speed)`: `speed`, once per step of `range(period)`;
      nothing for a period that is not positive. */
  function Move(period: int, speed: real): (r: seq<real>)
    ensures |r| == (if period > 0 then period else 0)
    ensures forall i :: 0 <= i < |r| ==> r[i] == speed
    decreases period
  {
    if period <= 0 then [] else Move(period - 1, speed) + [speed]
  }

  /** `pause(delay)`: `delay` zeros. */
  function Pause(delay: int): (r: seq<real>)
    ensures |r| == (if delay > 0 then delay else 0)
    ensures forall i :: 0 <= i < |r| ==> r[i] == 0.0
    decreases delay
  {
    if delay <= 0 then [] else Pause(delay - 1) + [0.0]
  }

  /** `for delta in g: yield delta`, one value at a time. */
  function Relay<T>(g: seq<T>): (r: seq<T>)
    ensures |r| == |g|
    ensures |g| > 0 ==> r[0] == g[0]
    decreases |g|
  {
    if |g| == 0 then [] else [g[0]] + Relay(g[1..])
  }

  /** Re-yielding a generator's values passes on exactly its sequence. */
  lemma {:induction false} RelayIsDelegation<T>(g: seq<T>)
    ensures Relay(g) == g
    decreases |g|
  {
    if |g| > 0 {
      RelayIsDelegation(g[1..]);
      assert g == [g[0]] + g[1..];
    }
  }

  /** Example 2: `animate`, written with for/yield loops. */
  function Animate(): seq<real> {
    Relay(Move(4, 5.0)) + Relay(Pause(3)) + Relay(Move(2, 3.0))
  }

  /** Example 4: `animate_composed`, written with `yield from`. */
  function AnimateComposed(): seq<real> {
    Move(4, 5.0) + Pause(3) + Move(2, 3.0)
  }

  /** Both animations yield 5.0 four times, 0 three times and 3.0 twice. */
  lemma AnimationsAgree()
    ensures Animate() == AnimateComposed()
    ensures AnimateComposed() == [5.0, 5.0, 5.0, 5.0, 0.0, 0.0, 0.0, 3.0, 3.0]
  {
    RelayIsDelegation(Move(4, 5.0));
    RelayIsDelegation(Pause(3));
    RelayIsDelegation(Move(2, 3.0));
  }

  /** `child()`: the numbers of `range(1_000_000)`. */
  function Child(): (r: seq<int>)
    ensures |r| == 1_000_000
    ensures forall i :: 0 <= i < |r| ==> r[i] == i
  {
    seq(1_000_000, i => i)
  }

  /** `slow()` re-yields `child()` by hand, `fast()` delegates with
      `yield from`. */
  function Slow(): (r: seq<int>)
    ensures |r| == 1_000_000 && r[0] == 0
  {
    Relay(Child())
  }

  function Fast(): (r: seq<int>)
    ensures |r| == 1_000_000
    ensures forall i :: 0 <= i < |r| ==> r[i] == i
  {
    Child()
  }

  /** Both yield 0, 1, ..., 999999. */
  lemma SlowIsFast()
    ensures Slow() == Fast()
    ensures |Fast()| == 1_000_000 && forall i :: 0 <= i < 1_000_000 ==> Fast()[i] == i
  {
    RelayIsDelegation(Child());
  }
}

=== FILE: batches.dfy ===
/** The order-filling snippets of Item29.py: how many batches of 8 each
    ordered item's stock makes, keeping the items that make at least one.
    The loop, the two dictionary comprehensions and the generator all
    compute this; the loop is modelled as the dictionary it builds and the
    generator as the list of pairs it yields. */
module Batches {
  import opened Common
  import opened PyDict

  /** Python's `a // b`, rounding toward negative infinity; None where
      Python raises ZeroDivisionError. */
  function FloorDiv(a: int, b: int): (r: Option<int>)
    ensures r.None? <==> b == 0
    ensures r.Some? && b > 0 ==> b * r.value <= a < b * r.value + b
    ensures r.Some? && b < 0 ==> b * r.value >= a > b * r.value + b
  {
    if b == 0 then None
    else if b > 0 then Some(a / b)
    else Some((-a) / (-b))
  }

  /** `get_batches(count, size)`. */
  function GetBatches(count: int, size: int): (r: Option<int>)
    ensures r.None? <==> size == 0
    ensures r.Some? && size > 0 ==> 0 <= count - size * r.value < size
    ensures r.Some? && size > 0 && count >= 0 ==> r.value >= 0
  {
    FloorDiv(count, size)
  }

  /** The batch size the snippets use. */
  const BatchSize := 8

  /** `get_batches(stock.get(name, 0), 8)`. */
  function BatchesOf(stock: Dict<int>, name: string): (b: int)
    ensures b * 8 <= (if name in stock.values then stock.values[name] else 0) < b * 8 + 8
  {
    var count := if name in stock.values then stock.values[name] else 0;
    GetBatches(count, BatchSize).value
  }

  /** The `for name in order` loop filling `result` (and the comprehensions
      `found` and `found_better`, which insert in the same order). */
  function FillOrder(stock: Dict<int>, order: seq<string>, result: Dict<int>): (r: Dict<int>)
    requires Valid(result)
    ensures Valid(r)
    ensures |result.keys| <= |r.keys| && r.keys[..|result.keys|] == result.keys
    ensures forall i :: |result.keys| <= i < |r.keys| ==> r.keys[i] in order
    decreases |order|
  {
    if |order| == 0 then result
    else
      var batches := BatchesOf(stock, order[0]);
      var next := if batches != 0 then Set(result, order[0], batches) else result;
      var r := FillOrder(stock, order[1..], next);
      KeysExtended(result.keys, next.keys, r.keys, order);
      r
  }

  /** One step of the loop appends at most the first ordered name, and the
      rest of the loop appends later ones: together the old keys stay in
      front and every appended key is ordered. */
  lemma KeysExtended(a: seq<string>, b: seq<string>, c: seq<string>, order: seq<string>)
    requires |order| > 0
    requires b == a || b == a + [order[0]]
    requires |b| <= |c| && c[..|b|] == b
    requires forall i :: |b| <= i < |c| ==> c[i] in order[1..]
    ensures |a| <= |c| && c[..|a|] == a
    ensures forall i :: |a| <= i < |c| ==> c[i] in order
  {
    assert c[..|a|] == c[..|b|][..|a|];
    forall i | |a| <= i < |c|
      ensures c[i] in order
    {
      if i < |b| {
        assert c[i] == b[i] == order[0];
      } else {
        assert c[i] in order[1..];
      }
    }
  }

  /** `result` for an order, starting from `{}`. */
  function OrderResult(stock: Dict<int>, order: seq<string>): (r: Dict<int>)
    ensures Valid(r)
  {
    FillOrder(stock, order, Empty())
  }

  /** A name is kept iff it is ordered and its stock makes a non-zero number
      of batches, and it maps to that number; missing stock counts as 0
      and so is never kept. */
  lemma {:induction false} FillOrderContents(stock: Dict<int>, order: seq<string>, result: Dict<int>)
    requires Valid(result)
    ensures forall name :: Get(FillOrder(stock, order, result), name) == (if name in order && BatchesOf(stock, name) != 0 then Some(BatchesOf(stock, name)) else Get(result, name))
    decreases |order|
  {
    if |order| > 0 {
      var batches := BatchesOf(stock, order[0]);
      var next := if batches != 0 then Set(result, order[0], batches) else result;
      FillOrderContents(stock, order[1..], next);
      forall name ensures name in order <==> name == order[0] || name in order[1..] {
        assert order == [order[0]] + order[1..];
      }
    }
  }

  lemma OrderResultContents(stock: Dict<int>, order: seq<string>)
    ensures forall name :: Get(OrderResult(stock, order), name) == (if name in order && BatchesOf(stock, name) != 0 then Some(BatchesOf(stock, name)) else None)
  {
    FillOrderContents(stock, order, Empty());
  }

  /** The generator of Example 5: `(name, batches)` for each ordered name
      with a non-zero batch count, in order. */
  function FoundPairs(stock: Dict<int>, order: seq<string>): (r: seq<(string, int)>)
    ensures |r| <= |order|
    ensures forall i :: 0 <= i < |r| ==> r[i].0 in order && r[i].1 == BatchesOf(stock, r[i].0) && r[i].1 != 0
    decreases |order|
  {
    if |order| == 0 then []
    else
      var batches := BatchesOf(stock, order[0]);
      (if batches != 0 then [(order[0], batches)] else []) + FoundPairs(stock, order[1..])
  }

  /** The generator yields exactly the entries of `result`: every pair is
      one of its entries, and every entry is yielded. */
  lemma {:induction false} GeneratorMatchesResult(stock: Dict<int>, order: seq<string>)
    ensures forall p :: p in FoundPairs(stock, order) ==> Get(OrderResult(stock, order), p.0) == Some(p.1)
    ensures forall name :: name in OrderResult(stock, order).values ==>
      (name, OrderResult(stock, order).values[name]) in FoundPairs(stock, order)
  {
    OrderResultContents(stock, order);
    PairsAreBatches(stock, order);
  }

  lemma {:induction false} PairsAreBatches(stock: Dict<int>, order: seq<string>)
    ensures forall p :: p in FoundPairs(stock, order) <==> p.0 in order && p.1 == BatchesOf(stock, p.0) && p.1 != 0
    decreases |order|
  {
    if |order| > 0 {
      PairsAreBatches(stock, order[1..]);
      forall name ensures name in order <==> name == order[0] || name in order[1..] {
        assert order == [order[0]] + order[1..];
      }
    }
  }

  /** The example stock and order: `screws` (35) makes 4 batches and
      `wingnuts` (8) makes 1; `clips` is not stocked. */
  lemma StockExample()
    ensures var stock := Dict(["nails", "screws", "wingnuts", "washers"],
                              map["nails" := 125, "screws" := 35, "wingnuts" := 8, "washers" := 24]);
      var r := OrderResult(stock, ["screws", "wingnuts", "clips"]);
      Get(r, "screws") == Some(4) && Get(r, "wingnuts") == Some(1) && Get(r, "clips") == None
  {
    var stock := Dict(["nails", "screws", "wingnuts", "washers"],
                      map["nails" := 125, "screws" := 35, "wingnuts" := 8, "washers" := 24]);
    var order := ["screws", "wingnuts", "clips"];
    OrderResultContents(stock, order);
    assert BatchesOf(stock, "screws") == 4;
    assert BatchesOf(stock, "wingnuts") == 1;
    assert BatchesOf(stock, "clips") == 0;
  }
}

=== FILE: books.dfy ===
/** The overdue-book queue of Item73.py in its three forms: a list kept sorted
    by due date (latest first), a priority queue ordered by `Book.__lt__`, and
    the priority queue whose books carry a `returned` flag and are discarded
    lazily. Due dates are strings and are compared as strings. */
module OverdueBooks {
  import opened Common

  /** A `Book` object. The class defines no `__eq__`, so two books compare
      equal only when they are the same object: `id` stands for that
      identity, and every `Book(...)` call of the program makes a fresh one.
      Datatype equality on this record is therefore the identity test
      `list.remove` performs. */
  datatype Book = Book(id: nat, title: string, dueDate: string)

  /** `Book.__lt__`: the book due earlier (by string order) is smaller. */
  predicate BookLess(a: Book, b: Book) {
    LexLess(a.dueDate, b.dueDate)
  }

  /** `__lt__` is a strict order on due dates, total up to equal dates. */
  lemma BookLessIsStrictOrder(a: Book, b: Book, c: Book)
    ensures !BookLess(a, a)
    ensures BookLess(a, b) ==> !BookLess(b, a)
    ensures BookLess(a, b) && BookLess(b, c) ==> BookLess(a, c)
    ensures a.dueDate == b.dueDate || BookLess(a, b) || BookLess(b, a)
  {
    LexLessIrreflexive(a.dueDate);
    if BookLess(a, b) {
      LexLessAsymmetric(a.dueDate, b.dueDate);
      if BookLess(b, c) {
        LexLessTransitive(a.dueDate, b.dueDate, c.dueDate);
      }
    }
    LexLessTotal(a.dueDate, b.dueDate);
  }

  /** No due date in `q` is later than an earlier one: latest first, earliest
      at the end. */
  predicate SortedByDueDesc(q: seq<Book>) {
    forall i, j :: 0 <= i < j < |q| ==> !LexLess(q[i].dueDate, q[j].dueDate)
  }

  datatype Error = NoOverdueBooks | ValueError

  // ------------------------------------------------------------ list queue

  /** The stable placement of `b` into a queue sorted latest-first: after
      every book due no earlier than `b`. */
  function InsertDesc(q: seq<Book>, b: Book): (r: seq<Book>)
    ensures multiset(r) == multiset(q) + multiset{b}
    ensures |r| == |q| + 1
    decreases |q|
  {
    if |q| == 0 then [b]
    else if LexLess(q[0].dueDate, b.dueDate) then [b] + q
    else
      assert q == [q[0]] + q[1..];
      [q[0]] + InsertDesc(q[1..], b)
  }

  lemma {:induction false} InsertDescSorted(q: seq<Book>, b: Book)
    requires SortedByDueDesc(q)
    ensures SortedByDueDesc(InsertDesc(q, b))
    decreases |q|
  {
    if |q| > 0 {
      if LexLess(q[0].dueDate, b.dueDate) {
        PrependLater(q, b);
      } else {
        var rest := InsertDesc(q[1..], b);
        InsertDescSorted(q[1..], b);
        PrependNotEarlier(q, b, rest);
      }
    }
  }

  /** A book due later than the head of a sorted queue can go in front. */
  lemma PrependLater(q: seq<Book>, b: Book)
    requires SortedByDueDesc(q) && |q| > 0
    requires LexLess(q[0].dueDate, b.dueDate)
    ensures SortedByDueDesc([b] + q)
  {
    var r := [b] + q;
    forall i, j | 0 <= i < j < |r| ensures !LexLess(r[i].dueDate, r[j].dueDate) {
      if i == 0 {
        // b is due later than q[0], hence than every later book
        var x := r[j].dueDate;
        assert r[j] == q[j - 1];
        LexLessAsymmetric(q[0].dueDate, b.dueDate);
        LexLessTransitive(q[0].dueDate, b.dueDate, x);
        if j - 1 > 0 {
          assert !LexLess(q[0].dueDate, x);
        }
      } else {
        assert r[i] == q[i - 1] && r[j] == q[j - 1];
      }
    }
  }

  /** The head of a sorted queue, due no earlier than `b`, can stay in front
      of the sorted insertion of `b` into the rest. */
  lemma PrependNotEarlier(q: seq<Book>, b: Book, rest: seq<Book>)
    requires SortedByDueDesc(q) && |q| > 0
    requires !LexLess(q[0].dueDate, b.dueDate)
    requires SortedByDueDesc(rest) && multiset(rest) == multiset(q[1..]) + multiset{b}
    ensures SortedByDueDesc([q[0]] + rest)
  {
    forall j | 0 <= j < |rest| ensures !LexLess(q[0].dueDate, rest[j].dueDate) {
      assert rest[j] in multiset(q[1..]) + multiset{b} by {
        assert rest[j] in multiset(rest);
      }
      if rest[j] != b {
        assert rest[j] in q[1..];
        var k :| 0 <= k < |q[1..]| && q[1..][k] == rest[j];
        assert q[k + 1] == rest[j];
      }
    }
    var r := [q[0]] + rest;
    forall i, j | 0 <= i < j < |r| ensures !LexLess(r[i].dueDate, r[j].dueDate) {
      assert r[j] == rest[j - 1];
      if i > 0 {
        assert r[i] == rest[i - 1];
      }
    }
  }

  /** Python's stable `sort(key=due_date, reverse=True)`, written as an
      insertion sort. */
  function SortByDueDesc(q: seq<Book>): (r: seq<Book>)
    ensures multiset(r) == multiset(q)
    ensures SortedByDueDesc(r)
    decreases |q|
  {
    if |q| == 0 then []
    else
      var init := q[..|q| - 1];
      assert q == init + [q[|q| - 1]];
      InsertDescSorted(SortByDueDesc(init), q[|q| - 1]);
      InsertDesc(SortByDueDesc(init), q[|q| - 1])
  }

  lemma {:induction false} SortSortedIsIdentity(q: seq<Book>)
    requires SortedByDueDesc(q)
    ensures SortByDueDesc(q) == q
    decreases |q|
  {
    if |q| > 0 {
      var init := q[..|q| - 1];
      var last := q[|q| - 1];
      SortedSplitLast(q);
      SortSortedIsIdentity(init);
      InsertAfterAllNotLater(init, last);
      SortUnfold(q);
      calc {
        SortByDueDesc(q);
        InsertDesc(SortByDueDesc(init), last);
        InsertDesc(init, last);
        init + [last];
        q;
      }
    }
  }

  /** The sort of a non-empty queue inserts its last book into the sort of
      the rest. */
  lemma SortUnfold(q: seq<Book>)
    requires |q| > 0
    ensures SortByDueDesc(q) == InsertDesc(SortByDueDesc(q[..|q| - 1]), q[|q| - 1])
  {
  }

  /** A sorted queue without its last book is sorted, and that last book is
      due no later than any before it. */
  lemma SortedSplitLast(q: seq<Book>)
    requires SortedByDueDesc(q) && |q| > 0
    ensures SortedByDueDesc(q[..|q| - 1])
    ensures forall i :: 0 <= i < |q| - 1 ==> !LexLess(q[i].dueDate, q[|q| - 1].dueDate)
  {
    var init := q[..|q| - 1];
    forall i, j | 0 <= i < j < |init| ensures !LexLess(init[i].dueDate, init[j].dueDate) {
      assert init[i] == q[i] && init[j] == q[j];
    }
    forall i | 0 <= i < |init| ensures !LexLess(init[i].dueDate, q[|q| - 1].dueDate) {
      assert init[i] == q[i];
    }
  }

  lemma {:induction false} InsertAfterAllNotLater(q: seq<Book>, b: Book)
    requires forall i :: 0 <= i < |q| ==> !LexLess(q[i].dueDate, b.dueDate)
    ensures InsertDesc(q, b) == q + [b]
    decreases |q|
  {
    if |q| > 0 {
      InsertAfterAllNotLater(q[1..], b);
      assert q == [q[0]] + q[1..];
    }
  }

  /** List `add_book(queue, book)`: append, then sort latest-first. */
  function AddBook(queue: seq<Book>, book: Book): (r: seq<Book>)
    ensures multiset(r) == multiset(queue) + multiset{book}
    ensures SortedByDueDesc(r)
  {
    SortByDueDesc(queue + [book])
  }

  /** On a queue that is already sorted, `add_book` is the stable insertion:
      the new book goes after every book due no earlier. */
  lemma AddBookToSorted(queue: seq<Book>, book: Book)
    requires SortedByDueDesc(queue)
    ensures AddBook(queue, book) == InsertDesc(queue, book)
  {
    var q := queue + [book];
    assert q[..|q| - 1] == queue;
    SortSortedIsIdentity(queue);
  }

  datatype Taken = Taken(book: Book, rest: seq<Book>)

  /** List `next_overdue_book(queue, now)`: the last (earliest-due) book is
      popped and returned if it is due strictly before `now`; otherwise, or on
      an empty queue, NoOverdueBooks is raised and the queue is untouched. */
  function NextOverdueBook(queue: seq<Book>, now: string): (r: Result<Taken>)
    ensures r.Ok? <==> |queue| > 0 && LexLess(queue[|queue| - 1].dueDate, now)
    ensures r.Ok? ==> queue == r.value.rest + [r.value.book]
    ensures r.Err? ==> r.error == NoOverdueBooks
  {
    if |queue| > 0 then
      var book := queue[|queue| - 1];
      if LexLess(book.dueDate, now) then Ok(Taken(book, queue[..|queue| - 1]))
      else Err(NoOverdueBooks)
    else Err(NoOverdueBooks)
  }

  datatype Result<T> = Ok(value: T) | Err(error: Error)

  /** On a sorted queue the popped book is one of the earliest due, and no
      book is overdue when NoOverdueBooks is raised. */
  lemma NextOverdueOnSorted(queue: seq<Book>, now: string)
    requires SortedByDueDesc(queue)
    ensures var r := NextOverdueBook(queue, now);
      (r.Ok? ==> forall b :: b in queue ==> !LexLess(b.dueDate, r.value.book.dueDate))
      && (r.Err? ==> forall b :: b in queue ==> !LexLess(b.dueDate, now))
  {
    var r := NextOverdueBook(queue, now);
    if |queue| > 0 {
      var last := queue[|queue| - 1];
      LexLessIrreflexive(last.dueDate);
      forall b | b in queue
        ensures !LexLess(b.dueDate, last.dueDate)
        ensures r.Err? ==> !LexLess(b.dueDate, now)
      {
        var i :| 0 <= i < |queue| && queue[i] == b;
        LexLessTotal(b.dueDate, last.dueDate);
        LexLessTransitive(last.dueDate, b.dueDate, now);
      }
    }
  }

  /** The position of the first `book` in `queue`. */
  function IndexOf(queue: seq<Book>, book: Book): (i: nat)
    requires book in queue
    ensures i < |queue| && queue[i] == book && book !in queue[..i]
  {
    if queue[0] == book then 0
    else
      var k := IndexOf(queue[1..], book);
      assert queue[..k + 1] == [queue[0]] + queue[1..][..k];
      k + 1
  }

  /** List `return_book(queue, book)`: `list.remove` drops the first
      occurrence of the same book object, or raises ValueError when the
      object is not queued (even if an equal-looking book is). */
  function ReturnBook(queue: seq<Book>, book: Book): (r: Result<seq<Book>>)
    ensures r.Err? <==> book !in queue
    ensures r.Err? ==> r.error == ValueError
    ensures r.Ok? ==> multiset(r.value) == multiset(queue) - multiset{book}
    ensures r.Ok? ==> exists i :: (0 <= i < |queue| && queue[i] == book
      && book !in queue[..i] && r.value == queue[..i] + queue[i + 1..])
  {
    if book !in queue then Err(ValueError)
    else
      var i := IndexOf(queue, book);
      assert queue == queue[..i] + [book] + queue[i + 1..];
      Ok(queue[..i] + queue[i + 1..])
  }

  /** Returning a book keeps the queue sorted. */
  lemma ReturnBookKeepsSorted(queue: seq<Book>, book: Book)
    requires SortedByDueDesc(queue)
    requires book in queue
    ensures ReturnBook(queue, book).Ok? && SortedByDueDesc(ReturnBook(queue, book).value)
  {
    var i := IndexOf(queue, book);
    var r := queue[..i] + queue[i + 1..];
    assert ReturnBook(queue, book) == Ok(r);
    forall a, b | 0 <= a < b < |r| ensures !LexLess(r[a].dueDate, r[b].dueDate) {
      var a' := if a < i then a else a + 1;
      var b' := if b < i then b else b + 1;
      assert r[a] == queue[a'] && r[b] == queue[b'];
    }
  }

  /** The four books of Example 2. */
  function DonQuixote(): Book { Book(1, "Don Quixote", "2019-06-07") }
  function Frankenstein(): Book { Book(2, "Frankenstein", "2019-06-05") }
  function LesMiserables(): Book { Book(3, "Les Misérables", "2019-06-08") }
  function WarAndPeace(): Book { Book(4, "War and Peace", "2019-06-03") }

  /** The due dates of Example 2, earliest first. */
  lemma ExampleDatesAscend()
    ensures LexLess(WarAndPeace().dueDate, Frankenstein().dueDate)
    ensures LexLess(Frankenstein().dueDate, DonQuixote().dueDate)
    ensures LexLess(DonQuixote().dueDate, LesMiserables().dueDate)
  {
  }

  /** A book due earlier than the only queued one goes behind it. */
  lemma AddEarlierToOne(b: Book, c: Book)
    requires LexLess(c.dueDate, b.dueDate)
    ensures AddBook(AddBook([], b), c) == [b, c]
  {
    AddBookToSorted([], b);
    assert AddBook([], b) == [b];
    LexLessAsymmetric(c.dueDate, b.dueDate);
    AddBookToSorted([b], c);
    assert InsertDesc([b], c) == [b] + InsertDesc([], c);
  }

  /** A book due later than every queued one goes to the front. */
  lemma AddLatest(q: seq<Book>, d: Book)
    requires SortedByDueDesc(q) && |q| > 0
    requires LexLess(q[0].dueDate, d.dueDate)
    ensures AddBook(q, d) == [d] + q
  {
    AddBookToSorted(q, d);
  }

  /** A book due earlier than the last queued one goes to the back. */
  lemma AddEarliest(q: seq<Book>, a: Book)
    requires SortedByDueDesc(q) && |q| > 0
    requires LexLess(a.dueDate, q[|q| - 1].dueDate)
    ensures AddBook(q, a) == q + [a]
  {
    var last := q[|q| - 1].dueDate;
    forall i | 0 <= i < |q| ensures !LexLess(q[i].dueDate, a.dueDate) {
      LexLessTotal(q[i].dueDate, last);
      LexLessTransitive(a.dueDate, last, q[i].dueDate);
      LexLessAsymmetric(a.dueDate, q[i].dueDate);
    }
    AddBookToSorted(q, a);
    InsertAfterAllNotLater(q, a);
  }

  /** Adding four books whose due dates rise strictly, in the order
      b, c, d, a, keeps them latest-first. */
  lemma AddFourInOrder(a: Book, b: Book, c: Book, d: Book)
    requires LexLess(a.dueDate, c.dueDate) && LexLess(c.dueDate, b.dueDate)
    requires LexLess(b.dueDate, d.dueDate)
    ensures AddBook(AddBook(AddBook(AddBook([], b), c), d), a) == [d, b, c, a]
  {
    AddEarlierToOne(b, c);
    AddThenLatest(b, c, d);
    AddThenEarliest(a, b, c, d);
  }

  lemma AddThenLatest(b: Book, c: Book, d: Book)
    requires LexLess(c.dueDate, b.dueDate) && LexLess(b.dueDate, d.dueDate)
    ensures AddBook([b, c], d) == [d, b, c]
  {
    LexLessAsymmetric(c.dueDate, b.dueDate);
    AddLatest([b, c], d);
    assert [d] + [b, c] == [d, b, c];
  }

  lemma AddThenEarliest(a: Book, b: Book, c: Book, d: Book)
    requires LexLess(a.dueDate, c.dueDate) && LexLess(c.dueDate, b.dueDate)
    requires LexLess(b.dueDate, d.dueDate)
    ensures AddBook([d, b, c], a) == [d, b, c, a]
  {
    ThreeDescending(b, c, d);
    AddEarliest([d, b, c], a);
    assert [d, b, c] + [a] == [d, b, c, a];
  }

  lemma ThreeDescending(b: Book, c: Book, d: Book)
    requires LexLess(c.dueDate, b.dueDate) && LexLess(b.dueDate, d.dueDate)
    ensures SortedByDueDesc([d, b, c])
  {
    LexLessTransitive(c.dueDate, b.dueDate, d.dueDate);
    LexLessAsymmetric(c.dueDate, d.dueDate);
    LexLessAsymmetric(b.dueDate, d.dueDate);
    LexLessAsymmetric(c.dueDate, b.dueDate);
  }

  /** Example 2: adding the four books leaves them latest-first. */
  lemma ListQueueExampleOrder()
    ensures AddBook(AddBook(AddBook(AddBook([], DonQuixote()), Frankenstein()), LesMiserables()), WarAndPeace())
      == [LesMiserables(), DonQuixote(), Frankenstein(), WarAndPeace()]
  {
    ExampleDatesAscend();
    AddFourInOrder(WarAndPeace(), DonQuixote(), Frankenstein(), LesMiserables());
  }

  /** Popping from the end of a queue whose last book is overdue. */
  lemma PopExample(rest: seq<Book>, last: Book, now: string)
    requires LexLess(last.dueDate, now)
    ensures NextOverdueBook(rest + [last], now) == Ok(Taken(last, rest))
  {
    assert (rest + [last])[..|rest|] == rest;
  }

  /** Example 4: the first pop at '2019-06-10' takes War and Peace. */
  lemma ListQueueExampleFirstPop()
    ensures var dq, fr, lm, wp := DonQuixote(), Frankenstein(), LesMiserables(), WarAndPeace();
      NextOverdueBook([lm, dq, fr, wp], "2019-06-10") == Ok(Taken(wp, [lm, dq, fr]))
  {
    var dq, fr, lm, wp := DonQuixote(), Frankenstein(), LesMiserables(), WarAndPeace();
    assert [lm, dq, fr] + [wp] == [lm, dq, fr, wp];
    PopExample([lm, dq, fr], wp, "2019-06-10");
  }

  /** Example 4: the second pop at '2019-06-10' takes Frankenstein. */
  lemma ListQueueExampleSecondPop()
    ensures var dq, fr, lm := DonQuixote(), Frankenstein(), LesMiserables();
      NextOverdueBook([lm, dq, fr], "2019-06-10") == Ok(Taken(fr, [lm, dq]))
  {
    var dq, fr, lm := DonQuixote(), Frankenstein(), LesMiserables();
    assert [lm, dq] + [fr] == [lm, dq, fr];
    PopExample([lm, dq], fr, "2019-06-10");
  }

  /** Example 4, continued: '2019-6-6' has no leading zero, and as a string it
      is later than every '2019-06-..' date, so both remaining books count as
      overdue. */
  lemma ListQueueExampleLastPops()
    ensures var dq, lm := DonQuixote(), LesMiserables();
      NextOverdueBook([lm, dq], "2019-6-6") == Ok(Taken(dq, [lm]))
      && NextOverdueBook([lm], "2019-6-6") == Ok(Taken(lm, []))
  {
    var dq, lm := DonQuixote(), LesMiserables();
    assert [lm] + [dq] == [lm, dq];
    PopExample([lm], dq, "2019-6-6");
    assert [] + [lm] == [lm];
    PopExample([], lm, "2019-6-6");
  }

  /** Example 6: after the only book is returned, the queue is empty and
      asking for an overdue book raises NoOverdueBooks. */
  lemma ListQueueReturnExample()
    ensures var ti := Book(5, "Treasure Island", "2019-06-04");
      ReturnBook(AddBook([], ti), ti) == Ok([])
      && NextOverdueBook([], "2019-06-10") == Err(NoOverdueBooks)
  {
    var ti := Book(5, "Treasure Island", "2019-06-04");
    AddBookToSorted([], ti);
    assert AddBook([], ti) == [ti];
    assert IndexOf([ti], ti) == 0;
  }

  /** A second `Book('Treasure Island', '2019-06-04')` is a different object
      from the queued one: `queue.remove` does not find it and raises
      ValueError, although title and due date agree. */
  lemma ReturnEqualButDistinctBook()
    ensures var queued := Book(5, "Treasure Island", "2019-06-04");
      var other := Book(6, "Treasure Island", "2019-06-04");
      queued.title == other.title && queued.dueDate == other.dueDate
      && ReturnBook([queued], other) == Err(ValueError)
  {
    var queued := Book(5, "Treasure Island", "2019-06-04");
    var other := Book(6, "Treasure Island", "2019-06-04");
    assert other !in [queued];
  }

  // ------------------------------------------------------------ heap queue

  /** `x` is a first element of `heap` as `heapq` sees it: nothing in the
      heap has a strictly earlier key. */
  predicate IsEarliest<T>(x: T, heap: multiset<T>, key: T -> string) {
    x in heap && forall y :: y in heap ==> !LexLess(key(y), key(x))
  }

  /** A non-empty heap has an earliest element. */
  lemma {:induction false} EarliestExists<T>(heap: multiset<T>, key: T -> string)
    requires |heap| > 0
    ensures exists x :: IsEarliest(x, heap, key)
    decreases |heap|
  {
    var x :| x in heap;
    var rest := heap - multiset{x};
    LexLessIrreflexive(key(x));
    if |rest| == 0 {
      assert heap == multiset{x};
      assert IsEarliest(x, heap, key);
    } else {
      EarliestExists(rest, key);
      var m :| IsEarliest(m, rest, key);
      LexLessTotal(key(x), key(m));
      if LexLess(key(x), key(m)) {
        forall y | y in heap ensures !LexLess(key(y), key(x)) {
          if y != x {
            assert y in rest;
            LexLessTransitive(key(y), key(x), key(m));
          }
        }
        assert IsEarliest(x, heap, key);
      } else {
        forall y | y in heap ensures !LexLess(key(y), key(m)) {
          if y != x {
            assert y in rest;
          }
        }
        assert IsEarliest(m, heap, key);
      }
    }
  }

  function DueDate(b: Book): string {
    b.dueDate
  }

  /** Heap `add_book`: `heappush` adds the book to the priority queue. */
  function HeapAddBook(heap: multiset<Book>, book: Book): (r: multiset<Book>)
    ensures book in r && |r| == |heap| + 1
    ensures r - multiset{book} == heap
  {
    heap + multiset{book}
  }

  /** Heap `next_overdue_book(queue, now)`: an earliest-due book is popped and
      returned when it is due strictly before `now`; otherwise, or on an empty
      heap, NoOverdueBooks is raised and the heap is untouched. Which of
      several books with the same earliest date `heapq` yields is left open. */
  method HeapNextOverdueBook(heap: multiset<Book>, now: string)
    returns (r: Result<Book>, rest: multiset<Book>)
    ensures r.Ok? ==> (IsEarliest(r.value, heap, DueDate) && LexLess(r.value.dueDate, now)
      && rest == heap - multiset{r.value})
    ensures r.Err? ==> (r.error == NoOverdueBooks && rest == heap
      && forall b :: b in heap ==> !LexLess(b.dueDate, now))
  {
    if |heap| == 0 {
      return Err(NoOverdueBooks), heap;
    }
    EarliestExists(heap, DueDate);
    var book :| IsEarliest(book, heap, DueDate);
    if LexLess(book.dueDate, now) {
      return Ok(book), heap - multiset{book};
    }
    forall b | b in heap ensures !LexLess(b.dueDate, now) {
      assert !LexLess(DueDate(b), DueDate(book));
      LexLessTotal(b.dueDate, book.dueDate);
      LexLessTransitive(book.dueDate, b.dueDate, now);
    }
    return Err(NoOverdueBooks), heap;
  }

  // ------------------------------------------------- lazily returned books

  /** Example 21's book: the same record plus a `returned` flag. The heap holds
      references, so it is modelled as a multiset of book identities into a
      shelf that maps each identity to its current record. */
  datatype FlaggedBook = FlaggedBook(title: string, dueDate: string, returned: bool)

  type Shelf = map<nat, FlaggedBook>

  /** The due date of the book with identity `k` on `shelf`. */
  function DueOn(shelf: Shelf): nat -> string {
    k => if k in shelf then shelf[k].dueDate else ""
  }

  /** Example 23's `return_book(queue, book)`: only the book's flag is set;
      the heap of references is left as it is. */
  function ReturnFlagged(shelf: Shelf, id: nat): (r: Shelf)
    requires id in shelf
    ensures r.Keys == shelf.Keys
    ensures r[id].returned
    ensures r[id].title == shelf[id].title && r[id].dueDate == shelf[id].dueDate
    ensures forall k :: k in shelf && k != id ==> r[k] == shelf[k]
  {
    shelf[id := shelf[id].(returned := true)]
  }

  /** `k` is in the heap and its book has not been returned. */
  predicate Pending(k: nat, heap: multiset<nat>, shelf: Shelf)
    requires forall k :: k in heap ==> k in shelf
  {
    k in heap && !shelf[k].returned
  }

  /** Example 22's `next_overdue_book(queue, now)`: returned books at the
      front are popped and dropped; the first book not returned is popped and
      returned when overdue, and otherwise NoOverdueBooks is raised with that
      book still in the heap. So the result is an earliest-due book among
      those not returned, and NoOverdueBooks means none of them is overdue. */
  method LazyNextOverdueBook(heap: multiset<nat>, shelf: Shelf, now: string)
    returns (r: Result<nat>, rest: multiset<nat>)
    requires forall k :: k in heap ==> k in shelf
    ensures rest <= heap
    ensures forall k :: k in heap - rest ==> shelf[k].returned || (r.Ok? && k == r.value)
    ensures forall k :: Pending(k, heap, shelf) && (r.Err? || k != r.value) ==>
      rest[k] == heap[k]
    ensures r.Ok? ==> (Pending(r.value, heap, shelf) && LexLess(shelf[r.value].dueDate, now)
      && rest[r.value] == heap[r.value] - 1
      && forall k :: Pending(k, heap, shelf) ==> !LexLess(shelf[k].dueDate, shelf[r.value].dueDate))
    ensures r.Err? ==> (r.error == NoOverdueBooks
      && forall k :: Pending(k, heap, shelf) ==> !LexLess(shelf[k].dueDate, now))
  {
    rest := heap;
    while |rest| > 0
      invariant rest <= heap
      invariant forall k :: k in heap - rest ==> shelf[k].returned
      invariant forall k :: Pending(k, heap, shelf) ==> rest[k] == heap[k]
      decreases |rest|
    {
      EarliestExists(rest, DueOn(shelf));
      var id :| IsEarliest(id, rest, DueOn(shelf));
      if shelf[id].returned {
        rest := rest - multiset{id};
        continue;
      }
      // every pending book is still in `rest`, so `id` is earliest among them
      forall k | Pending(k, heap, shelf)
        ensures !LexLess(shelf[k].dueDate, shelf[id].dueDate)
      {
        assert k in rest;
        assert !LexLess(DueOn(shelf)(k), DueOn(shelf)(id));
      }
      if LexLess(shelf[id].dueDate, now) {
        assert Pending(id, heap, shelf) by { assert id in rest; }
        return Ok(id), rest - multiset{id};
      }
      forall k | Pending(k, heap, shelf) ensures !LexLess(shelf[k].dueDate, now) {
        LexLessTotal(shelf[k].dueDate, shelf[id].dueDate);
        LexLessTransitive(shelf[id].dueDate, shelf[k].dueDate, now);
      }
      return Err(NoOverdueBooks), rest;
    }
    return Err(NoOverdueBooks), rest;
  }
}

=== FILE: bubble.dfy ===
/** The bubble sort of Item06.py. Each of the `len(a)` passes walks the whole
    list, swapping a neighbouring pair whenever the later element is smaller.
    `bubble_sort2` differs only in writing the swap as a tuple assignment,
    so one method models both. */
module BubbleSort {
  import opened Common

  /** From position `k` on, the list is in ascending order. */
  predicate SortedFrom(a: seq<int>, k: nat) {
    forall i, j :: k <= i < j < |a| ==> a[i] <= a[j]
  }

  /** No element before position `k` exceeds an element from `k` on. */
  predicate Partitioned(a: seq<int>, k: nat) {
    forall i, j :: 0 <= i < k <= j < |a| ==> a[i] <= a[j]
  }

  /** Exchanging two neighbours keeps the elements. */
  function Swap(a: seq<int>, i: nat): (r: seq<int>)
    requires 1 <= i < |a|
    ensures |r| == |a| && r[i - 1] == a[i] && r[i] == a[i - 1]
    ensures forall j :: 0 <= j < |a| && j != i - 1 && j != i ==> r[j] == a[j]
    ensures multiset(r) == multiset(a)
  {
    a[i - 1 := a[i]][i := a[i - 1]]
  }

  /** One pass of the inner loop (`for i in range(1, len(a))`). Before the
      pass the last `|a| - k` places hold the largest elements in order;
      the pass carries the largest of the rest up to place `k - 1`. */
  method Pass(a0: seq<int>, k: nat) returns (a: seq<int>)
    requires 1 <= k <= |a0|
    requires SortedFrom(a0, k) && Partitioned(a0, k)
    ensures |a| == |a0| && multiset(a) == multiset(a0)
    ensures SortedFrom(a, k - 1) && Partitioned(a, k - 1)
  {
    a := a0;
    for i := 1 to |a|
      invariant |a| == |a0| && multiset(a) == multiset(a0)
      invariant SortedFrom(a, k) && Partitioned(a, k)
      invariant i <= k ==> forall j :: 0 <= j < i ==> a[j] <= a[i - 1]
      invariant i > k ==> forall j :: 0 <= j < k ==> a[j] <= a[k - 1]
    {
      if a[i] < a[i - 1] {
        a := Swap(a, i);
      }
    }
  }

  /** `bubble_sort(a)` and `bubble_sort2(a)`, returning the final list. The
      outcome is sorted and a permutation of the input, so it is the one
      sorted arrangement of those elements; in particular an already
      sorted list comes back unchanged. */
  method Sort(a0: seq<int>) returns (a: seq<int>)
    ensures |a| == |a0|
    ensures Sorted(a)
    ensures multiset(a) == multiset(a0)
    ensures Sorted(a0) ==> a == a0
  {
    a := a0;
    for p := 0 to |a0|
      invariant |a| == |a0| && multiset(a) == multiset(a0)
      invariant SortedFrom(a, |a| - p) && Partitioned(a, |a| - p)
    {
      a := Pass(a, |a| - p);
    }
    if Sorted(a0) {
      SortedPermutationsEqual(a, a0);
    }
  }
}

=== FILE: closest.dfy ===
/** `find_closest` of Item72.py: a linear scan for the first element strictly
    greater than the goal, and `bisect_left` as the specification it is
    compared with. The data are integers and the goal may be fractional, as
    in the example's `91234.56`. */
module FindClosest {
  import opened Common

  datatype Closest = Index(index: nat) | ValueError

  /** `find_closest(sequence, goal)`: the index of the first value with
      `goal < value`; ValueError ("out of bounds") when there is none. */
  function FindClosest(sequence: seq<int>, goal: real): (r: Closest)
    ensures r.Index? ==> r.index < |sequence| && goal < sequence[r.index] as real
    ensures r.Index? ==> forall j :: 0 <= j < r.index ==> sequence[j] as real <= goal
    ensures r.ValueError? <==> forall j :: 0 <= j < |sequence| ==> sequence[j] as real <= goal
    decreases |sequence|
  {
    if |sequence| == 0 then ValueError
    else if goal < sequence[0] as real then Index(0)
    else match FindClosest(sequence[1..], goal)
      case Index(i) => Index(i + 1)
      case ValueError => ValueError
  }

  /** On sorted data with a goal equal to none of the elements, the linear
      scan finds the bisect position; when that position is the end, it
      raises ValueError. */
  lemma FindClosestIsBisect(sequence: seq<int>, goal: real)
    requires Sorted(sequence)
    requires forall j :: 0 <= j < |sequence| ==> sequence[j] as real != goal
    ensures var b := BisectLeft(sequence, goal);
      FindClosest(sequence, goal) == (if b < |sequence| then Index(b) else ValueError)
  {
    var b := BisectLeft(sequence, goal);
    var r := FindClosest(sequence, goal);
    if b < |sequence| {
      assert goal < sequence[b] as real;
      assert r.Index?;
    }
  }

  /** `list(range(n))`. */
  function Range(n: nat): (r: seq<int>)
    ensures |r| == n && forall i :: 0 <= i < n ==> r[i] == i
  {
    seq(n, i => i)
  }

  /** Example 2: in `0..n-1`, the goal `k + f` with `0 < f < 1` lies just
      before index `k + 1` (91234.56 gives 91235), and a goal at or past
      the last element raises ValueError. */
  lemma FindClosestInRange(n: nat, goal: real)
    ensures var r := FindClosest(Range(n), goal);
      (0.0 <= goal < (n - 1) as real ==> r.Index? && (r.index - 1) as real <= goal < r.index as real)
      && (goal >= (n - 1) as real ==> r == ValueError)
  {
    var data := Range(n);
    var r := FindClosest(data, goal);
    if 0.0 <= goal < (n - 1) as real {
      assert goal < data[n - 1] as real;
      assert r.Index?;
      if r.index > 0 {
        assert data[r.index - 1] as real <= goal;
      }
    }
  }

  /** Example 3: `bisect_left` on `0..n-1` finds an exact match at its own
      index, and a fractional goal just after the integer part. */
  lemma BisectLeftInRange(n: nat, k: nat, f: real)
    requires k < n && 0.0 < f < 1.0
    ensures BisectLeft(Range(n), k as real) == k
    ensures k + 1 < n ==> BisectLeft(Range(n), k as real + f) == k + 1
  {
    var data := Range(n);
    assert Sorted(data);
    BisectLeftIsFirstNotBelow(data, k as real);
    FirstNotBelowUnique(data, k as real, k);
    if k + 1 < n {
      BisectLeftIsFirstNotBelow(data, k as real + f);
      FirstNotBelowUnique(data, k as real + f, k + 1);
    }
  }
}

=== FILE: combine.dfy ===
/** `combine` and `add` of item_90_example_10.py: a left fold of a binary
    function over a non-empty list. */
module Combine {
  import opened Common

  /** The left fold `f(...f(f(v0, v1), v2)..., vn)`, defined from the last
      element backwards. */
  function LeftFold<T>(f: (T, T) -> T, values: seq<T>): T
    requires |values| > 0
    decreases |values|
  {
    if |values| == 1 then values[0]
    else f(LeftFold(f, values[..|values| - 1]), values[|values| - 1])
  }

  /** `combine(func, values)`: start from the first value and fold in the
      rest in order. None where the source's `assert len(values) > 0`
      fails. */
  method Combine<T>(func: (T, T) -> T, values: seq<T>) returns (r: Option<T>)
    ensures r.None? <==> |values| == 0
    ensures r.Some? ==> r.value == LeftFold(func, values)
    ensures |values| == 1 ==> r == Some(values[0])
  {
    if |values| == 0 {
      return None;
    }
    var result := values[0];
    var i := 1;
    while i < |values|
      invariant 1 <= i <= |values|
      invariant result == LeftFold(func, values[..i])
      decreases |values| - i
    {
      assert values[..i + 1][..i] == values[..i];
      result := func(result, values[i]);
      i := i + 1;
    }
    assert values[..|values|] == values;
    return Some(result);
  }

  /** `add(x, y)`. */
  function Add(x: int, y: int): (r: int)
    ensures r == Sum([x, y])
  {
    assert [y][1..] == [] && Sum([y]) == y;
    assert [x, y][1..] == [y];
    x + y
  }

  /** Folding `add` over integers gives their sum. */
  lemma {:induction false} CombineAddIsSum(values: seq<int>)
    requires |values| > 0
    ensures LeftFold(Add, values) == Sum(values)
    decreases |values|
  {
    if |values| > 1 {
      var init := values[..|values| - 1];
      CombineAddIsSum(init);
      assert values == init + [values[|values| - 1]];
      SumAppend(init, [values[|values| - 1]]);
    } else {
      assert values == [values[0]];
    }
  }

  /** A complex number with integer parts, for the example's `4j`. */
  datatype Complex = Complex(re: int, im: int)

  function AddComplex(x: Complex, y: Complex): (r: Complex)
    ensures r.re == x.re + y.re && r.im == x.im + y.im
  {
    Complex(x.re + y.re, x.im + y.im)
  }

  /** One step of the fold: the last value folded into the fold of the
      others. */
  lemma FoldLast<T>(f: (T, T) -> T, init: seq<T>, last: T)
    requires |init| > 0
    ensures LeftFold(f, init + [last]) == f(LeftFold(f, init), last)
  {
    assert (init + [last])[..|init|] == init;
  }

  /** Folding `AddComplex` over four numbers adds the parts separately. */
  lemma FoldFourComplex(a: Complex, b: Complex, c: Complex, d: Complex)
    ensures LeftFold(AddComplex, [a, b, c, d]) == Complex(a.re + b.re + c.re + d.re, a.im + b.im + c.im + d.im)
  {
    FoldLast(AddComplex, [a], b);
    FoldLast(AddComplex, [a, b], c);
    FoldLast(AddComplex, [a, b, c], d);
    assert [a] + [b] == [a, b] && [a, b] + [c] == [a, b, c] && [a, b, c] + [d] == [a, b, c, d];
  }

  /** The example `[1, 2, 3, 4j]` adds up to `6+4j`, so the closing
      `assert result == 10` does not hold. */
  lemma MixedInputsExample()
    ensures LeftFold(AddComplex, [Complex(1, 0), Complex(2, 0), Complex(3, 0), Complex(0, 4)]) == Complex(6, 4)
    ensures Complex(6, 4) != Complex(10, 0)
  {
    FoldFourComplex(Complex(1, 0), Complex(2, 0), Complex(3, 0), Complex(0, 4));
  }
}

=== FILE: common.dfy ===
/** Definitions shared by several of the modelled examples: an optional value,
    sortedness of integer sequences, and Python's ordering of strings. */
module Common {

  /** A value that may be missing (Python's `None`). */
  datatype Option<+T> = None | Some(value: T)

  /** `s` is in ascending (non-decreasing) order. */
  predicate Sorted(s: seq<int>) {
    forall i, j :: 0 <= i < j < |s| ==> s[i] <= s[j]
  }

  /** `s` is in descending (non-increasing) order. */
  predicate SortedDesc(s: seq<int>) {
    forall i, j :: 0 <= i < j < |s| ==> s[i] >= s[j]
  }

  /** Two sorted sequences holding the same elements are equal: a sorted
      permutation is determined by its elements alone. */
  lemma {:induction false} SortedPermutationsEqual(a: seq<int>, b: seq<int>)
    requires Sorted(a) && Sorted(b)
    requires multiset(a) == multiset(b)
    ensures a == b
    decreases |a|
  {
    assert |a| == |multiset(a)| && |b| == |multiset(b)|;
    if |a| > 0 {
      SortedHeadIsMinimum(a, b);
      SortedHeadIsMinimum(b, a);
      HeadTailMultiset(a);
      HeadTailMultiset(b);
      SortedPermutationsEqual(a[1..], b[1..]);
      assert a == [a[0]] + a[1..] && b == [b[0]] + b[1..];
    }
  }

  lemma SortedHeadIsMinimum(a: seq<int>, b: seq<int>)
    requires Sorted(a) && |a| > 0 && |b| > 0
    requires multiset(a) == multiset(b)
    ensures a[0] <= b[0]
  {
    assert b[0] in multiset(b);
    var i :| 0 <= i < |a| && a[i] == b[0];
  }

  lemma HeadTailMultiset<T>(s: seq<T>)
    requires |s| > 0
    ensures multiset(s[1..]) == multiset(s) - multiset{s[0]}
  {
    assert s == [s[0]] + s[1..];
  }

  /** The first position whose element is not below `v`, found by scanning
      from the front, or `|a|` when every element is below it. Integer
      elements are compared with a real bound, as Python compares `int`
      with `float`. */
  function FirstNotBelow(a: seq<int>, v: real): (i: nat)
    ensures i <= |a|
    ensures forall j :: 0 <= j < i ==> (a[j] as real) < v
    ensures i < |a| ==> (a[i] as real) >= v
    decreases |a|
  {
    if |a| == 0 || (a[0] as real) >= v then 0 else 1 + FirstNotBelow(a[1..], v)
  }

  /** Only one position has every element before it below `v` and the
      element at it, if any, not below. */
  lemma {:induction false} FirstNotBelowUnique(a: seq<int>, v: real, i: nat)
    requires i <= |a|
    requires forall j :: 0 <= j < i ==> (a[j] as real) < v
    requires i < |a| ==> (a[i] as real) >= v
    ensures FirstNotBelow(a, v) == i
    decreases |a|
  {
    if |a| > 0 && (a[0] as real) < v {
      FirstNotBelowUnique(a[1..], v, i - 1);
    }
  }

  /** The loop of `bisect.bisect_left(a, v, lo, hi)`: the midpoint of
      `[lo, hi)` is compared with `v` and the half that cannot hold the
      answer is dropped, until the range is empty. On sorted data whose
      elements before `lo` are below `v` and from `hi` on are not, the
      result splits the data at `v`. */
  function BisectFrom(a: seq<int>, v: real, lo: nat, hi: nat): (i: nat)
    requires lo <= hi <= |a|
    ensures lo <= i <= hi
    ensures Sorted(a) && (forall j :: 0 <= j < lo ==> (a[j] as real) < v)
                      && (forall j :: hi <= j < |a| ==> (a[j] as real) >= v) ==>
      (forall j :: 0 <= j < i ==> (a[j] as real) < v) && (forall j :: i <= j < |a| ==> (a[j] as real) >= v)
    decreases hi - lo
  {
    if lo == hi then lo
    else
      var mid := (lo + hi) / 2;
      if (a[mid] as real) < v then BisectFrom(a, v, mid + 1, hi) else BisectFrom(a, v, lo, mid)
  }

  /** `bisect.bisect_left(a, v)`: a binary search over the whole list. On
      sorted data every element before the result is below `v` and every
      element from it on is not. */
  function BisectLeft(a: seq<int>, v: real): (i: nat)
    ensures i <= |a|
    ensures Sorted(a) ==> forall j :: 0 <= j < i ==> (a[j] as real) < v
    ensures Sorted(a) ==> forall j :: i <= j < |a| ==> (a[j] as real) >= v
  {
    BisectFrom(a, v, 0, |a|)
  }

  /** On sorted data the binary search finds the position the front-to-back
      scan finds. */
  lemma BisectLeftIsFirstNotBelow(a: seq<int>, v: real)
    requires Sorted(a)
    ensures BisectLeft(a, v) == FirstNotBelow(a, v)
  {
    FirstNotBelowUnique(a, v, BisectLeft(a, v));
  }

  /** On unsorted data the two differ: in `[3, 1, 2]` the search for 2
      first looks at the middle 1, moves right and answers 2, while the
      first element not below 2 is at 0. */
  lemma BisectLeftUnsorted()
    ensures BisectLeft([3, 1, 2], 2.0) == 2
    ensures FirstNotBelow([3, 1, 2], 2.0) == 0
  {
    assert BisectFrom([3, 1, 2], 2.0, 2, 2) == 2;
    assert BisectFrom([3, 1, 2], 2.0, 2, 3) == 2;
  }

  /** Python's `a < b` on `str`: code points compared left to right, and a
      proper prefix is smaller than the longer string. */
  predicate LexLess(a: string, b: string)
    decreases |a|
  {
    if |b| == 0 then false
    else if |a| == 0 then true
    else if a[0] != b[0] then a[0] < b[0]
    else LexLess(a[1..], b[1..])
  }

  /** Python's `a <= b` on `str`. */
  predicate LexLessEq(a: string, b: string) {
    LexLess(a, b) || a == b
  }

  lemma {:induction false} LexLessIrreflexive(a: string)
    ensures !LexLess(a, a)
    decreases |a|
  {
    if |a| > 0 {
      LexLessIrreflexive(a[1..]);
    }
  }

  lemma {:induction false} LexLessTransitive(a: string, b: string, c: string)
    ensures LexLess(a, b) && LexLess(b, c) ==> LexLess(a, c)
    decreases |a|
  {
    if LexLess(a, b) && LexLess(b, c) && |a| > 0 && a[0] == b[0] && b[0] == c[0] {
      LexLessTransitive(a[1..], b[1..], c[1..]);
    }
  }

  /** Any two distinct strings are ordered one way or the other. */
  lemma {:induction false} LexLessTotal(a: string, b: string)
    ensures a == b || LexLess(a, b) || LexLess(b, a)
    decreases |a|
  {
    if |a| > 0 && |b| > 0 && a[0] == b[0] {
      LexLessTotal(a[1..], b[1..]);
      if a[1..] == b[1..] {
        assert a == [a[0]] + a[1..] && b == [b[0]] + b[1..];
      }
    }
  }

  lemma {:induction false} LexLessAsymmetric(a: string, b: string)
    ensures LexLess(a, b) ==> !LexLess(b, a)
    decreases |a|
  {
    if LexLess(a, b) && |a| > 0 && a[0] == b[0] {
      LexLessAsymmetric(a[1..], b[1..]);
    }
  }

  /** Strings that are not below one another are equal. */
  lemma LexNotLessBothWays(a: string, b: string)
    ensures !LexLess(a, b) && !LexLess(b, a) ==> a == b
  {
    LexLessTotal(a, b);
  }

  /** `!LexLess` is transitive, which is what sortedness arguments chain. */
  lemma LexNotLessTransitive(a: string, b: string, c: string)
    ensures !LexLess(a, b) && !LexLess(b, c) ==> !LexLess(a, c)
  {
    LexLessTotal(a, b);
    LexLessTotal(b, c);
    LexLessTransitive(c, b, a);
    LexLessTransitive(c, a, b);
    LexLessTransitive(b, c, a);
    LexLessAsymmetric(a, c);
  }

  /** No element of `s` occurs twice. */
  predicate Distinct<T(==)>(s: seq<T>) {
    forall i, j :: 0 <= i < j < |s| ==> s[i] != s[j]
  }

  /** The tail of a list without repeats has none either, and lacks the
      head. */
  lemma DistinctTail<T>(s: seq<T>)
    requires Distinct(s) && |s| > 0
    ensures Distinct(s[1..]) && s[0] !in s[1..]
  {
    forall i, j | 0 <= i < j < |s[1..]| ensures s[1..][i] != s[1..][j] {
      assert s[1..][i] == s[i + 1] && s[1..][j] == s[j + 1];
    }
    forall k | 0 <= k < |s[1..]| ensures s[1..][k] != s[0] {
      assert s[1..][k] == s[k + 1];
    }
  }

  /** In a list without repeats every element occurs at most once. */
  lemma {:induction false} DistinctCountsAtMostOne<T>(s: seq<T>, x: T)
    requires Distinct(s)
    ensures multiset(s)[x] <= 1
    decreases |s|
  {
    if |s| > 0 {
      assert s == [s[0]] + s[1..];
      DistinctTail(s);
      DistinctCountsAtMostOne(s[1..], x);
    }
  }

  /** Rearranging a list without repeats gives a list without repeats. */
  lemma PermutationKeepsDistinct<T>(a: seq<T>, b: seq<T>)
    requires Distinct(a) && multiset(a) == multiset(b)
    ensures Distinct(b)
  {
    forall i, j | 0 <= i < j < |b| ensures b[i] != b[j] {
      DistinctCountsAtMostOne(a, b[i]);
      assert b == b[..i] + [b[i]] + b[i + 1..j] + [b[j]] + b[j + 1..];
    }
  }

  /** Lists without repeats holding the same elements are rearrangements of
      one another. */
  lemma DistinctSameElements<T>(a: seq<T>, b: seq<T>)
    requires Distinct(a) && Distinct(b)
    requires forall x :: x in a <==> x in b
    ensures multiset(a) == multiset(b)
  {
    forall x ensures multiset(a)[x] == multiset(b)[x] {
      DistinctCountsAtMostOne(a, x);
      DistinctCountsAtMostOne(b, x);
      assert (x in a) == (x in b);
    }
  }

  /** Number of occurrences of `x` in `s`. */
  function CountOf<T(==)>(s: seq<T>, x: T): (n: nat)
    ensures n <= |s|
    ensures n == multiset(s)[x]
  {
    if |s| == 0 then 0
    else
      assert s == [s[0]] + s[1..];
      (if s[0] == x then 1 else 0) + CountOf(s[1..], x)
  }

  /** Sum of an integer sequence. */
  function Sum(s: seq<int>): int {
    if |s| == 0 then 0 else s[0] + Sum(s[1..])
  }

  lemma {:induction false} SumAppend(a: seq<int>, b: seq<int>)
    ensures Sum(a + b) == Sum(a) + Sum(b)
    decreases |a|
  {
    if |a| == 0 {
      assert a + b == b;
    } else {
      assert (a + b)[1..] == a[1..] + b;
      SumAppend(a[1..], b);
    }
  }
}

=== FILE: containers.dfy ===
/** The custom containers of Item43.py: `FrequencyList.frequency`, which
    counts the members of a list into a dict, and the binary tree whose
    `__getitem__` indexes its values in order (left subtree, node, right
    subtree), with `__len__` (`SequenceNode`) and the `index`/`count`
    methods that `collections.abc.Sequence` derives from `__getitem__`
    (`BetterNode`). */
module CustomContainers {
  import opened Common
  import opened PyDict

  // ------------------------------------------------------------ frequency

  /** `counts[item] = counts.get(item, 0) + 1`. */
  function Bump(counts: Dict<nat>, item: string): (r: Dict<nat>)
    requires Valid(counts)
    ensures Valid(r)
    ensures Get(r, item) == Some(if item in counts.values then counts.values[item] + 1 else 1)
    ensures forall k :: k != item ==> Get(r, k) == Get(counts, k)
  {
    var old_count := match Get(counts, item) case Some(c) => c case None => 0;
    Set(counts, item, old_count + 1)
  }

  /** `FrequencyList(xs).frequency()`: each member mapped to the number of
      times it occurs, and nothing else in the dict. */
  function Frequency(xs: seq<string>): (r: Dict<nat>)
    ensures Valid(r)
    ensures forall x :: Get(r, x) == (if x in xs then Some(multiset(xs)[x]) else None)
    decreases |xs|
  {
    if |xs| == 0 then Empty()
    else
      var init := xs[..|xs| - 1];
      BumpCounts(Frequency(init), init, xs[|xs| - 1]);
      assert xs == init + [xs[|xs| - 1]];
      Bump(Frequency(init), xs[|xs| - 1])
  }

  /** Counting one more element keeps the counts exact. */
  lemma BumpCounts(d: Dict<nat>, s: seq<string>, x: string)
    requires Valid(d)
    requires forall y :: Get(d, y) == (if y in s then Some(multiset(s)[y]) else None)
    ensures forall y :: Get(Bump(d, x), y) == (if y in s + [x] then Some(multiset(s + [x])[y]) else None)
  {
    assert multiset(s + [x]) == multiset(s) + multiset{x};
    forall y ensures Get(Bump(d, x), y) == (if y in s + [x] then Some(multiset(s + [x])[y]) else None) {
      assert y in s + [x] <==> y in s || y == x;
      if y != x {
        assert Get(Bump(d, x), y) == Get(d, y);
      } else {
        assert x in s <==> x in d.values;
      }
    }
  }

  /** The sum of the values stored under `keys`. */
  function Total(keys: seq<string>, m: map<string, nat>): nat
    requires forall k :: k in keys ==> k in m
  {
    if |keys| == 0 then 0 else m[keys[0]] + Total(keys[1..], m)
  }

  lemma {:induction false} TotalAppend(keys: seq<string>, k: string, m: map<string, nat>)
    requires forall x :: x in keys ==> x in m
    requires k in m
    ensures Total(keys + [k], m) == Total(keys, m) + m[k]
    decreases |keys|
  {
    if |keys| > 0 {
      assert (keys + [k])[1..] == keys[1..] + [k];
      TotalAppend(keys[1..], k, m);
    }
  }

  /** Changing the map outside `keys` does not change the total. */
  lemma {:induction false} TotalOnlyReadsKeys(keys: seq<string>, m: map<string, nat>, m': map<string, nat>)
    requires forall x :: x in keys ==> x in m && x in m' && m[x] == m'[x]
    ensures Total(keys, m) == Total(keys, m')
    decreases |keys|
  {
    if |keys| > 0 {
      TotalOnlyReadsKeys(keys[1..], m, m');
    }
  }

  /** Adding one under a key listed once adds one to the total. */
  lemma {:induction false} TotalBump(keys: seq<string>, m: map<string, nat>, k: string)
    requires Distinct(keys) && k in keys
    requires forall x :: x in keys ==> x in m
    ensures Total(keys, m[k := m[k] + 1]) == Total(keys, m) + 1
    decreases |keys|
  {
    DistinctTail(keys);
    if keys[0] == k {
      TotalOnlyReadsKeys(keys[1..], m, m[k := m[k] + 1]);
    } else {
      TotalBump(keys[1..], m, k);
    }
  }

  /** One more count adds one to the total. */
  lemma BumpTotal(d: Dict<nat>, x: string)
    requires Valid(d)
    ensures forall k :: k in Bump(d, x).keys ==> k in Bump(d, x).values
    ensures Total(Bump(d, x).keys, Bump(d, x).values) == Total(d.keys, d.values) + 1
  {
    var r := Bump(d, x);
    if x in d.values {
      assert r.keys == d.keys && r.values == d.values[x := d.values[x] + 1];
      TotalBump(d.keys, d.values, x);
    } else {
      assert r.keys == d.keys + [x] && r.values == d.values[x := 1];
      TotalOnlyReadsKeys(d.keys, d.values, r.values);
      TotalAppend(d.keys, x, r.values);
    }
  }

  /** The counts add up to the length of the list. */
  lemma {:induction false} FrequencyTotal(xs: seq<string>)
    ensures forall k :: k in Frequency(xs).keys ==> k in Frequency(xs).values
    ensures Total(Frequency(xs).keys, Frequency(xs).values) == |xs|
    decreases |xs|
  {
    if |xs| > 0 {
      var init := xs[..|xs| - 1];
      var d := Frequency(init);
      FrequencyTotal(init);
      assert Frequency(xs) == Bump(d, xs[|xs| - 1]);
      BumpTotal(d, xs[|xs| - 1]);
    }
  }

  // ------------------------------------------------------------ tree

  /** `BinaryNode(value, left=None, right=None)`: a node always exists, its
      children may be missing. */
  datatype Node = Node(value: int, left: Option<Node>, right: Option<Node>)

  /** The number of nodes, counted structurally. */
  function Size(t: Node): nat {
    1 + (match t.left case Some(l) => Size(l) case None => 0)
      + (match t.right case Some(r) => Size(r) case None => 0)
  }

  /** Whether some node holds `v`. */
  predicate Contains(t: Node, v: int) {
    t.value == v
    || (match t.left case Some(l) => Contains(l, v) case None => false)
    || (match t.right case Some(r) => Contains(r, v) case None => false)
  }

  /** The values `_traverse` visits, depth first and in order. */
  function Traverse(t: Node): (r: seq<int>)
    ensures |r| == Size(t)
    ensures forall v :: v in r <==> Contains(t, v)
  {
    (match t.left case Some(l) => Traverse(l) case None => [])
      + [t.value]
      + (match t.right case Some(r) => Traverse(r) case None => [])
  }

  /** Every value in the left subtree is below the node's and every value in
      the right subtree is not, recursively. */
  predicate SearchTree(t: Node) {
    (match t.left
     case Some(l) => SearchTree(l) && forall v :: v in Traverse(l) ==> v < t.value
     case None => true)
    && (match t.right
        case Some(r) => SearchTree(r) && forall v :: v in Traverse(r) ==> t.value <= v
        case None => true)
  }

  /** An ascending run below a pivot, the pivot, and an ascending run not
      below it ascend together. */
  lemma SortedAroundPivot(ls: seq<int>, p: int, rs: seq<int>)
    requires Sorted(ls) && Sorted(rs)
    requires forall v :: v in ls ==> v < p
    requires forall v :: v in rs ==> p <= v
    ensures Sorted(ls + [p] + rs)
  {
    var s := ls + [p] + rs;
    forall i, j | 0 <= i < j < |s| ensures s[i] <= s[j] {
      if j < |ls| {
        assert s[i] == ls[i] && s[j] == ls[j];
      } else if i > |ls| {
        assert s[i] == rs[i - |ls| - 1] && s[j] == rs[j - |ls| - 1];
      } else if i == |ls| {
        assert s[j] == rs[j - |ls| - 1] && s[j] in rs;
      } else if j == |ls| {
        assert s[i] == ls[i] && s[i] in ls;
      } else {
        assert s[i] == ls[i] && s[i] in ls;
        assert s[j] == rs[j - |ls| - 1] && s[j] in rs;
      }
    }
  }

  /** The in-order walk of a search tree ascends. */
  lemma {:induction false} SearchTreeTraversalSorted(t: Node)
    requires SearchTree(t)
    ensures Sorted(Traverse(t))
  {
    var ls := match t.left case Some(l) => Traverse(l) case None => [];
    var rs := match t.right case Some(r) => Traverse(r) case None => [];
    if t.left.Some? {
      SearchTreeTraversalSorted(t.left.value);
    }
    if t.right.Some? {
      SearchTreeTraversalSorted(t.right.value);
    }
    assert Traverse(t) == ls + [t.value] + rs;
    SortedAroundPivot(ls, t.value, rs);
  }

  datatype Item = Value(v: int) | IndexError

  /** The `for i, item in enumerate(...)` scan of `__getitem__`, resumed at
      position `i`. */
  function Scan(s: seq<int>, index: int, i: nat): (r: Item)
    requires i <= |s|
    ensures r == (if i <= index < |s| then Value(s[index]) else IndexError)
    decreases |s| - i
  {
    if i == |s| then IndexError
    else if i == index then Value(s[i])
    else Scan(s, index, i + 1)
  }

  /** `tree[index]`: the value at in-order position `index`; IndexError
      beyond the last node and for every negative index, which no
      enumeration count ever equals. */
  function GetItem(t: Node, index: int): (r: Item)
    ensures 0 <= index < Size(t) ==> r == Value(Traverse(t)[index])
    ensures r.IndexError? <==> index < 0 || index >= Size(t)
  {
    Scan(Traverse(t), index, 0)
  }

  /** `SequenceNode.__len__`: the last count of `enumerate(..., 1)`. A node
      always visits itself, so the count is always bound. */
  method Len(t: Node) returns (count: nat)
    ensures count == Size(t)
  {
    var s := Traverse(t);
    count := 0;
    for i := 0 to |s|
      invariant count == i
    {
      count := i + 1;
    }
  }

  datatype Position = At(i: nat) | ValueError

  /** `BetterNode.index(value)`, as `Sequence.index` derives it: read
      `self[i]` for i = 0, 1, ... until a match (its position) or
      IndexError (ValueError). */
  method Index(t: Node, value: int) returns (r: Position)
    ensures r.At? ==> r.i < Size(t) && Traverse(t)[r.i] == value
    ensures r.At? ==> forall j :: 0 <= j < r.i ==> Traverse(t)[j] != value
    ensures r.ValueError? <==> !Contains(t, value)
  {
    var i := 0;
    while true
      invariant i <= Size(t)
      invariant forall j :: 0 <= j < i ==> Traverse(t)[j] != value
      decreases Size(t) - i
    {
      var item := GetItem(t, i);
      if item.IndexError? {
        return ValueError;
      }
      if item.v == value {
        return At(i);
      }
      i := i + 1;
    }
  }

  /** `BetterNode.count(value)`: `Sequence.count` iterates with
      `Sequence.__iter__`, which reads `self[i]` until IndexError, and
      counts the matches. */
  method Count(t: Node, value: int) returns (n: nat)
    ensures n == multiset(Traverse(t))[value]
  {
    var s := Traverse(t);
    var i := 0;
    n := 0;
    while true
      invariant i <= Size(t)
      invariant n == CountOf(s[..i], value)
      decreases Size(t) - i
    {
      var item := GetItem(t, i);
      if item.IndexError? {
        assert s[..i] == s;
        return;
      }
      assert s[..i + 1] == s[..i] + [item.v];
      CountOfAppend(s[..i], item.v, value);
      if item.v == value {
        n := n + 1;
      }
      i := i + 1;
    }
  }

  lemma CountOfAppend(s: seq<int>, x: int, v: int)
    ensures CountOf(s + [x], v) == CountOf(s, v) + (if x == v then 1 else 0)
  {
    assert multiset(s + [x]) == multiset(s) + multiset{x};
  }

  /** Example 7: the tree 10 with 5 (2, 6 (-, 7)) on the left and 15 (11)
      on the right. */
  function ExampleTree(): Node {
    Node(10,
         Some(Node(5, Some(Node(2, None, None)), Some(Node(6, None, Some(Node(7, None, None)))))),
         Some(Node(15, Some(Node(11, None, None)), None)))
  }

  /** Example 8: the values in order are 2 5 6 7 10 11 15, so the tree is
      a search tree. */
  lemma ExampleTreeOrder()
    ensures Traverse(ExampleTree()) == [2, 5, 6, 7, 10, 11, 15]
    ensures SearchTree(ExampleTree())
  {
    var l := Node(5, Some(Node(2, None, None)), Some(Node(6, None, Some(Node(7, None, None)))));
    var r := Node(15, Some(Node(11, None, None)), None);
    assert Traverse(l) == [2, 5, 6, 7];
    assert Traverse(r) == [11, 15];
  }

  /** Examples 8 and 11: `tree[0]` is 2, `tree[1]` is 5, `tree[100]` raises
      IndexError and the length is 7. */
  lemma ExampleTreeIndexing()
    ensures GetItem(ExampleTree(), 0) == Value(2) && GetItem(ExampleTree(), 1) == Value(5)
    ensures GetItem(ExampleTree(), 100) == IndexError
    ensures Size(ExampleTree()) == 7
  {
    ExampleTreeOrder();
  }

  /** Example 14: 7 first appears at index 3, and 10 occurs once, at
      index 4. */
  lemma ExampleTreeSearch()
    ensures var s := Traverse(ExampleTree());
      s[3] == 7 && (forall j :: 0 <= j < 3 ==> s[j] != 7)
      && s[4] == 10 && (forall j :: 0 <= j < |s| && j != 4 ==> s[j] != 10)
  {
    ExampleTreeOrder();
  }
}

=== FILE: deprecation.dfy ===
/** The unit defaulting of Item89.py's `print_distance` versions and the
    `require` helper. Warnings are collected in the order they are issued
    instead of going to `warnings.warn`; the distance arithmetic itself is
    not modelled. */
module Deprecation {
  import opened Common

  datatype Category = DeprecationWarning
  datatype Warning = Warning(message: string, category: Category)

  /** The message `require` warns with. */
  function RequireMessage(name: string): string {
    name + " will be required soon, update your code"
  }

  /** `require(name, value, default)`: a supplied value is returned with no
      warning; a missing one is replaced by `default`, with exactly one
      DeprecationWarning naming the argument. */
  function Require(name: string, value: Option<string>, default: string): (r: (string, seq<Warning>))
    ensures value.Some? ==> r == (value.value, [])
    ensures value.None? ==> r.0 == default && r.1 == [Warning(RequireMessage(name), DeprecationWarning)]
  {
    match value
    case Some(v) => (v, [])
    case None => (default, [Warning(RequireMessage(name), DeprecationWarning)])
  }

  /** The units `print_distance` ends up using. */
  datatype Units = Units(speed: string, time: string, distance: string)

  function OrElse(value: Option<string>, default: string): string {
    if value.Some? then value.value else default
  }

  /** The names of the missing unit arguments, in argument order: the
      arguments each version warns about. */
  function MissingNames(speedUnits: Option<string>, timeUnits: Option<string>, distanceUnits: Option<string>): (r: seq<string>)
    ensures |r| == (if speedUnits.None? then 1 else 0) + (if timeUnits.None? then 1 else 0) + (if distanceUnits.None? then 1 else 0)
    ensures "speed_units" in r <==> speedUnits.None?
    ensures "time_units" in r <==> timeUnits.None?
    ensures "distance_units" in r <==> distanceUnits.None?
  {
    (if speedUnits.None? then ["speed_units"] else [])
      + (if timeUnits.None? then ["time_units"] else [])
      + (if distanceUnits.None? then ["distance_units"] else [])
  }

  /** The message of Example 5's inline warnings. */
  function InlineMessage(name: string): string {
    name + " required"
  }

  /** Example 5: each missing unit gets its own inline warning,
      `'<arg> required'`, and its default. */
  function ResolveInline(speedUnits: Option<string>, timeUnits: Option<string>, distanceUnits: Option<string>): (r: (Units, seq<Warning>))
    ensures r.0 == Units(OrElse(speedUnits, "mph"), OrElse(timeUnits, "hours"), OrElse(distanceUnits, "miles"))
    ensures |r.1| == (if speedUnits.None? then 1 else 0) + (if timeUnits.None? then 1 else 0) + (if distanceUnits.None? then 1 else 0)
    ensures |r.1| == |MissingNames(speedUnits, timeUnits, distanceUnits)|
    ensures forall i :: 0 <= i < |r.1| ==>
      r.1[i] == Warning(InlineMessage(MissingNames(speedUnits, timeUnits, distanceUnits)[i]), DeprecationWarning)
  {
    var w1 := if speedUnits.None? then [Warning(InlineMessage("speed_units"), DeprecationWarning)] else [];
    var w2 := if timeUnits.None? then [Warning(InlineMessage("time_units"), DeprecationWarning)] else [];
    var w3 := if distanceUnits.None? then [Warning(InlineMessage("distance_units"), DeprecationWarning)] else [];
    (Units(if speedUnits.None? then "mph" else speedUnits.value,
           if timeUnits.None? then "hours" else timeUnits.value,
           if distanceUnits.None? then "miles" else distanceUnits.value),
     w1 + w2 + w3)
  }

  /** Example 7: the same defaults, through `require`. */
  function ResolveWithRequire(speedUnits: Option<string>, timeUnits: Option<string>, distanceUnits: Option<string>): (r: (Units, seq<Warning>))
    ensures r.0 == Units(OrElse(speedUnits, "mph"), OrElse(timeUnits, "hours"), OrElse(distanceUnits, "miles"))
    ensures |r.1| == (if speedUnits.None? then 1 else 0) + (if timeUnits.None? then 1 else 0) + (if distanceUnits.None? then 1 else 0)
    ensures forall i :: 0 <= i < |r.1| ==> r.1[i].category == DeprecationWarning
    ensures |r.1| == |MissingNames(speedUnits, timeUnits, distanceUnits)|
    ensures forall i :: 0 <= i < |r.1| ==>
      r.1[i] == Warning(RequireMessage(MissingNames(speedUnits, timeUnits, distanceUnits)[i]), DeprecationWarning)
  {
    var (s, w1) := Require("speed_units", speedUnits, "mph");
    var (t, w2) := Require("time_units", timeUnits, "hours");
    var (d, w3) := Require("distance_units", distanceUnits, "miles");
    (Units(s, t, d), w1 + w2 + w3)
  }

  /** Both versions settle on the same units and warn once per missing
      unit, in argument order: the i-th warning of each names the same
      argument, with the version's own wording. */
  lemma VersionsAgree(speedUnits: Option<string>, timeUnits: Option<string>, distanceUnits: Option<string>)
    ensures ResolveWithRequire(speedUnits, timeUnits, distanceUnits).0 == ResolveInline(speedUnits, timeUnits, distanceUnits).0
    ensures |ResolveWithRequire(speedUnits, timeUnits, distanceUnits).1| == |ResolveInline(speedUnits, timeUnits, distanceUnits).1|
    ensures forall i :: 0 <= i < |ResolveWithRequire(speedUnits, timeUnits, distanceUnits).1| ==>
      ResolveWithRequire(speedUnits, timeUnits, distanceUnits).1[i].category == DeprecationWarning
    ensures forall i :: 0 <= i < |ResolveInline(speedUnits, timeUnits, distanceUnits).1| ==>
      exists name ::
        ResolveInline(speedUnits, timeUnits, distanceUnits).1[i].message == InlineMessage(name)
        && ResolveWithRequire(speedUnits, timeUnits, distanceUnits).1[i].message == RequireMessage(name)
  {
    var names := MissingNames(speedUnits, timeUnits, distanceUnits);
    forall i | 0 <= i < |ResolveInline(speedUnits, timeUnits, distanceUnits).1|
      ensures exists name ::
        ResolveInline(speedUnits, timeUnits, distanceUnits).1[i].message == InlineMessage(name)
        && ResolveWithRequire(speedUnits, timeUnits, distanceUnits).1[i].message == RequireMessage(name)
    {
      var name := names[i];
      assert ResolveInline(speedUnits, timeUnits, distanceUnits).1[i].message == InlineMessage(name);
    }
  }

  /** Supplied units are kept as they are and cause no warning. */
  lemma SuppliedUnitsKept(s: string, t: string, d: string)
    ensures ResolveWithRequire(Some(s), Some(t), Some(d)) == (Units(s, t, d), [])
    ensures ResolveInline(Some(s), Some(t), Some(d)) == (Units(s, t, d), [])
  {
    var none: seq<Warning> := [];
    assert none + none + none == none;
  }

  /** Examples 6 and 8: meters and seconds are given, so only the distance
      units default to miles, with one warning. */
  lemma MetersSecondsExample()
    ensures ResolveWithRequire(Some("meters"), Some("seconds"), None)
      == (Units("meters", "seconds", "miles"), [Warning(RequireMessage("distance_units"), DeprecationWarning)])
  {
    var none: seq<Warning> := [];
    var w := [Warning(RequireMessage("distance_units"), DeprecationWarning)];
    assert none + none + w == w;
  }

  /** Examples 12 and 13: one warning, a DeprecationWarning, whose message
      is `'my_arg will be required soon, update your code'`. */
  lemma RecordedWarningExample()
    ensures Require("my_arg", None, "fake units").0 == "fake units"
    ensures |Require("my_arg", None, "fake units").1| == 1
    ensures Require("my_arg", None, "fake units").1[0].category == DeprecationWarning
    ensures Require("my_arg", None, "fake units").1[0].message[..6] == "my_arg"
    ensures Require("my_arg", None, "fake units").1[0].message[6..] == " will be required soon, update your code"
  {
    var m := RequireMessage("my_arg");
    assert m[..6] == "my_arg";
    assert m[6..] == " will be required soon, update your code";
  }
}

=== FILE: emails.dfy ===
/** The email pipeline of Item71.py: `produce_emails` drains the source
    into a FIFO queue until the source has nothing ready, and
    `consume_one_email` takes one email off the front. The list version
    (`append` / `pop(0)`) and the deque version (`append` / `popleft`)
    have the same effect on the queue, so one model serves both. The
    source is the remaining output of `get_emails()`, where None marks a
    moment with no email ready. */
module EmailQueue {
  import opened Common

  datatype Email = Email(sender: string, receiver: string, message: string)

  /** The emails of a source, without the None gaps. */
  function Emails(source: seq<Option<Email>>): (r: seq<Email>)
    ensures |r| <= |source|
    decreases |source|
  {
    if |source| == 0 then []
    else (if source[0].Some? then [source[0].value] else []) + Emails(source[1..])
  }

  /** `try_receive_email()`: the next email and the rest of the source;
      None (NoEmailError) when the next item is None or the source is
      exhausted. */
  function TryReceive(source: seq<Option<Email>>): (r: (Option<Email>, seq<Option<Email>>))
    ensures |source| == 0 ==> r == (None, source)
    ensures |source| > 0 ==> r == (source[0], source[1..])
  {
    if |source| == 0 then (None, source) else (source[0], source[1..])
  }

  /** How many emails are ready before the first gap. */
  function ReadyCount(source: seq<Option<Email>>): (k: nat)
    ensures k <= |source|
    ensures forall i :: 0 <= i < k ==> source[i].Some?
    ensures k < |source| ==> source[k].None?
    decreases |source|
  {
    if |source| == 0 || source[0].None? then 0 else 1 + ReadyCount(source[1..])
  }

  /** `produce_emails(queue)`: receive and append until the first
      NoEmailError, which ends the call having consumed the gap that caused
      it. Every call takes at least one item off a non-empty source. */
  function Produce(source: seq<Option<Email>>, queue: seq<Email>): (r: (seq<Option<Email>>, seq<Email>))
    ensures |source| == 0 ==> r == (source, queue)
    ensures |source| > 0 ==> |r.0| < |source|
    decreases |source|
  {
    var (email, rest) := TryReceive(source);
    if email.None? then (rest, queue)
    else Produce(rest, queue + [email.value])
  }

  /** The emails appended are exactly the ready ones, in order; the source
      resumes just after the first gap. */
  lemma {:induction false} ProduceTakesReady(source: seq<Option<Email>>, queue: seq<Email>)
    ensures Produce(source, queue).1 == queue + Emails(source[..ReadyCount(source)])
    ensures Produce(source, queue).0 == if ReadyCount(source) < |source| then source[ReadyCount(source) + 1..] else []
    decreases |source|
  {
    if |source| > 0 && source[0].Some? {
      var rest := source[1..];
      ProduceTakesReady(rest, queue + [source[0].value]);
      assert source[..ReadyCount(source)] == [source[0]] + rest[..ReadyCount(rest)];
      assert Emails(source[..ReadyCount(source)]) == [source[0].value] + Emails(rest[..ReadyCount(rest)]);
    } else if |source| > 0 {
      assert source[..ReadyCount(source)] == [];
    }
  }

  /** `consume_one_email(queue)`: nothing on an empty queue; otherwise the
      front email is removed (and archived). */
  function ConsumeOne(queue: seq<Email>): (r: (Option<Email>, seq<Email>))
    ensures |queue| == 0 ==> r == (None, queue)
    ensures |queue| > 0 ==> r.0 == Some(queue[0]) && [queue[0]] + r.1 == queue
  {
    if |queue| == 0 then (None, queue) else (Some(queue[0]), queue[1..])
  }

  /** `make_test_end()`'s closure, holding the length of its `count`
      list: True while the list can be popped, False afterwards. */
  function KeepRunning(count: nat): (r: (bool, nat))
    ensures r.0 <==> count > 0
    ensures r.1 == if count > 0 then count - 1 else 0
  {
    if count > 0 then (true, count - 1) else (false, 0)
  }

  /** The answers of `n` successive calls. */
  function Answers(count: nat, n: nat): seq<bool>
    decreases n
  {
    if n == 0 then [] else [KeepRunning(count).0] + Answers(KeepRunning(count).1, n - 1)
  }

  /** The closure from `make_test_end()` answers True exactly ten times,
      then False forever. */
  lemma {:induction false} TestEndAnswers(count: nat, n: nat)
    ensures |Answers(count, n)| == n
    ensures forall i :: 0 <= i < n ==> (Answers(count, n)[i] <==> i < count)
    decreases n
  {
    if n > 0 {
      TestEndAnswers(KeepRunning(count).1, n - 1);
      var rest := Answers(KeepRunning(count).1, n - 1);
      forall i | 1 <= i < n ensures Answers(count, n)[i] == rest[i - 1] { }
    }
  }

  /** `loop(queue, keep_running)` with `make_test_end()`: one produce and
      one consume per True. The result is the source left over, the
      queue, and the emails consumed in order. */
  function Loop(source: seq<Option<Email>>, queue: seq<Email>, count: nat): (r: (seq<Option<Email>>, seq<Email>, seq<Email>))
    ensures |r.2| <= count
    ensures count == 0 ==> r == (source, queue, [])
    ensures |r.0| <= |source|
    decreases count
  {
    var (running, count1) := KeepRunning(count);
    if !running then (source, queue, [])
    else
      var (source1, queue1) := Produce(source, queue);
      var (email, queue2) := ConsumeOne(queue1);
      var (source2, queue3, consumed) := Loop(source1, queue2, count1);
      ((source2, queue3, (if email.Some? then [email.value] else []) + consumed))
  }

  lemma {:induction false} EmailsAppend(a: seq<Option<Email>>, b: seq<Option<Email>>)
    ensures Emails(a + b) == Emails(a) + Emails(b)
    decreases |a|
  {
    if |a| > 0 {
      assert (a + b)[1..] == a[1..] + b;
      EmailsAppend(a[1..], b);
    } else {
      assert a + b == b;
    }
  }

  /** One round of producing keeps every email, in order. */
  lemma {:induction false} ProduceKeepsEmails(source: seq<Option<Email>>, queue: seq<Email>)
    ensures Produce(source, queue).1 + Emails(Produce(source, queue).0) == queue + Emails(source)
    decreases |source|
  {
    if |source| > 0 {
      if source[0].Some? {
        ProduceKeepsEmails(source[1..], queue + [source[0].value]);
      }
    }
  }

  /** Nothing is lost or reordered: the consumed emails, then the queue,
      then the source's remaining emails are the queue's and the source's
      emails at the start. */
  lemma {:induction false} LoopIsFifo(source: seq<Option<Email>>, queue: seq<Email>, count: nat)
    ensures Loop(source, queue, count).2 + Loop(source, queue, count).1 + Emails(Loop(source, queue, count).0)
      == queue + Emails(source)
    decreases count
  {
    if count > 0 {
      var p := Produce(source, queue);
      var c := ConsumeOne(p.1);
      ProduceKeepsEmails(source, queue);
      LoopIsFifo(p.0, c.1, count - 1);
      var l := Loop(p.0, c.1, count - 1);
      var front := if c.0.Some? then [c.0.value] else [];
      LoopUnfold(source, queue, count);
      assert front + c.1 == p.1;
      SeqAssoc(front, l.2, l.1, Emails(l.0));
    }
  }

  /** One round of `loop`, unfolded. */
  lemma LoopUnfold(source: seq<Option<Email>>, queue: seq<Email>, count: nat)
    requires count > 0
    ensures var p := Produce(source, queue);
      var c := ConsumeOne(p.1);
      var l := Loop(p.0, c.1, count - 1);
      Loop(source, queue, count) == (l.0, l.1, (if c.0.Some? then [c.0.value] else []) + l.2)
  {
  }

  lemma SeqAssoc<T>(a: seq<T>, b: seq<T>, c: seq<T>, d: seq<T>)
    ensures (a + b) + c + d == a + (b + c + d)
  {
  }

  /** With nothing left to receive, each round consumes one email until
      the queue is empty. */
  lemma {:induction false} DrainQueue(queue: seq<Email>, count: nat)
    requires count >= |queue|
    ensures Loop([], queue, count) == ([], [], queue)
    decreases count
  {
    if count > 0 {
      var none: seq<Option<Email>> := [];
      assert Produce(none, queue) == (none, queue);
      if |queue| > 0 {
        DrainQueue(queue[1..], count - 1);
        assert [queue[0]] + queue[1..] == queue;
      } else {
        DrainQueue(queue, count - 1);
        assert ConsumeOne(queue) == (None, queue);
        assert queue == [] && [] + queue == queue;
      }
    }
  }

  /** A gap ends a round of producing. */
  lemma ProduceGap(rest: seq<Option<Email>>, queue: seq<Email>)
    ensures Produce([None] + rest, queue) == (rest, queue)
  {
    assert ([None] + rest)[1..] == rest;
  }

  /** A ready email is appended and producing goes on. */
  lemma ProduceReady(e: Email, rest: seq<Option<Email>>, queue: seq<Email>)
    ensures Produce([Some(e)] + rest, queue) == Produce(rest, queue + [e])
  {
    assert ([Some(e)] + rest)[1..] == rest;
  }

  /** Two ready emails and a gap. */
  lemma ProduceTwo(a: Email, b: Email, rest: seq<Option<Email>>, queue: seq<Email>)
    ensures Produce([Some(a), Some(b), None] + rest, queue) == (rest, queue + [a, b])
  {
    assert [Some(a), Some(b), None] + rest == [Some(a)] + ([Some(b)] + ([None] + rest));
    ProduceReady(a, [Some(b)] + ([None] + rest), queue);
    ProduceReady(b, [None] + rest, queue + [a]);
    ProduceGap(rest, queue + [a] + [b]);
    assert queue + [a] + [b] == queue + [a, b];
  }

  /** A round that produces to a non-empty queue consumes its front, and
      the remaining rounds finish the rest. */
  lemma LoopRound(source: seq<Option<Email>>, queue: seq<Email>, count: nat, source1: seq<Option<Email>>, queue1: seq<Email>, tail: seq<Email>)
    requires count > 0 && |queue1| > 0
    requires Produce(source, queue) == (source1, queue1)
    requires Loop(source1, queue1[1..], count - 1) == ([], [], tail)
    ensures Loop(source, queue, count) == ([], [], [queue1[0]] + tail)
  {
  }

  /** Example 5, the fourth round onwards: `e7` arrives behind `e4`, `e5`,
      `e6`, and the rounds drain the queue. */
  lemma ExampleFromFourthRound(e4: Email, e5: Email, e6: Email, e7: Email, count: nat)
    requires count >= 4
    ensures Loop([Some(e7), None], [e4, e5, e6], count) == ([], [], [e4, e5, e6, e7])
  {
    var rest: seq<Option<Email>> := [];
    ProduceReady(e7, [None], [e4, e5, e6]);
    ProduceGap(rest, [e4, e5, e6] + [e7]);
    assert [None] + rest == [None];
    assert [e4, e5, e6] + [e7] == [e4, e5, e6, e7];
    assert [e4, e5, e6, e7][1..] == [e5, e6, e7];
    DrainQueue([e5, e6, e7], count - 1);
    LoopRound([Some(e7), None], [e4, e5, e6], count, rest, [e4, e5, e6, e7], [e5, e6, e7]);
  }

  lemma ExampleFromThirdRound(e3: Email, e4: Email, e5: Email, e6: Email, e7: Email, count: nat)
    requires count >= 5
    ensures Loop([Some(e5), Some(e6), None, Some(e7), None], [e3, e4], count) == ([], [], [e3, e4, e5, e6, e7])
  {
    var s7 := [Some(e7), None];
    ProduceTwo(e5, e6, s7, [e3, e4]);
    assert [Some(e5), Some(e6), None] + s7 == [Some(e5), Some(e6), None, Some(e7), None];
    assert [e3, e4] + [e5, e6] == [e3, e4, e5, e6];
    assert [e3, e4, e5, e6][1..] == [e4, e5, e6];
    ExampleFromFourthRound(e4, e5, e6, e7, count - 1);
    LoopRound([Some(e5), Some(e6), None, Some(e7), None], [e3, e4], count, s7, [e3, e4, e5, e6], [e4, e5, e6, e7]);
    assert [e3] + [e4, e5, e6, e7] == [e3, e4, e5, e6, e7];
  }

  lemma ExampleFromSecondRound(e2: Email, e3: Email, e4: Email, e5: Email, e6: Email, e7: Email, count: nat)
    requires count >= 6
    ensures Loop([Some(e3), Some(e4), None, Some(e5), Some(e6), None, Some(e7), None], [e2], count)
      == ([], [], [e2, e3, e4, e5, e6, e7])
  {
    var s5 := [Some(e5), Some(e6), None, Some(e7), None];
    ProduceTwo(e3, e4, s5, [e2]);
    assert [Some(e3), Some(e4), None] + s5 == [Some(e3), Some(e4), None, Some(e5), Some(e6), None, Some(e7), None];
    assert [e2] + [e3, e4] == [e2, e3, e4];
    assert [e2, e3, e4][1..] == [e3, e4];
    ExampleFromThirdRound(e3, e4, e5, e6, e7, count - 1);
    LoopRound([Some(e3), Some(e4), None, Some(e5), Some(e6), None, Some(e7), None], [e2], count, s5, [e2, e3, e4], [e3, e4, e5, e6, e7]);
    assert [e2] + [e3, e4, e5, e6, e7] == [e2, e3, e4, e5, e6, e7];
  }

  /** Example 5: the seven emails of `get_emails()`, with its four gaps,
      all come out, in the order they were sent, of any run of at least
      seven rounds (the example runs ten). */
  lemma ExampleLoop(e1: Email, e2: Email, e3: Email, e4: Email, e5: Email, e6: Email, e7: Email, count: nat)
    requires count >= 7
    ensures Loop([Some(e1), Some(e2), None, Some(e3), Some(e4), None, Some(e5), Some(e6), None, Some(e7), None], [], count)
      == ([], [], [e1, e2, e3, e4, e5, e6, e7])
  {
    var s3 := [Some(e3), Some(e4), None, Some(e5), Some(e6), None, Some(e7), None];
    var none: seq<Email> := [];
    ProduceTwo(e1, e2, s3, none);
    assert [Some(e1), Some(e2), None] + s3 == [Some(e1), Some(e2), None, Some(e3), Some(e4), None, Some(e5), Some(e6), None, Some(e7), None];
    assert none + [e1, e2] == [e1, e2];
    assert [e1, e2][1..] == [e2];
    ExampleFromSecondRound(e2, e3, e4, e5, e6, e7, count - 1);
    LoopRound([Some(e1), Some(e2), None, Some(e3), Some(e4), None, Some(e5), Some(e6), None, Some(e7), None], none, count, s3, [e1, e2], [e2, e3, e4, e5, e6, e7]);
    assert [e1] + [e2, e3, e4, e5, e6, e7] == [e1, e2, e3, e4, e5, e6, e7];
  }
}

=== FILE: factorize.dfy ===
/** `factorize` of Item53.py: the divisors of `number` from 1 up to
    `number`, yielded in ascending order. The generator is modelled by the
    list of values it yields. */
module Factorize {

  /** `i` divides `number`, with Python's `%` (the same as Dafny's for a
      positive divisor). */
  predicate Divides(i: int, number: int)
    requires i > 0
  {
    number % i == 0
  }

  /** `list(factorize(number))`: the loop over `range(1, number + 1)`. */
  method Factorize(number: int) returns (factors: seq<int>)
    ensures forall i :: i in factors <==> 1 <= i <= number && Divides(i, number)
    ensures forall j, k :: 0 <= j < k < |factors| ==> factors[j] < factors[k]
    ensures number >= 1 ==> |factors| > 0 && factors[0] == 1 && factors[|factors| - 1] == number
    ensures number <= 0 ==> factors == []
  {
    factors := [];
    var i := 1;
    while i < number + 1
      invariant 1 <= i && (number >= 0 ==> i <= number + 1)
      invariant forall x :: x in factors <==> 1 <= x < i && x <= number && Divides(x, number)
      invariant forall j, k :: 0 <= j < k < |factors| ==> factors[j] < factors[k]
      invariant forall j :: 0 <= j < |factors| ==> factors[j] < i
      invariant i > 1 ==> |factors| > 0 && factors[0] == 1
      invariant i == 1 ==> factors == []
      invariant number <= 0 ==> i == 1
      invariant |factors| > 0 ==> factors[|factors| - 1] < i
      decreases number + 1 - i
    {
      if number % i == 0 {
        factors := factors + [i];
      }
      i := i + 1;
    }
    if number >= 1 {
      assert number in factors;
      var k :| 0 <= k < |factors| && factors[k] == number;
    }
  }
}

=== FILE: fibonacci.dfy ===
/** The `@trace`-decorated `fibonacci` of Item26.py. The decorator's wrapper
    calls the wrapped function, prints one line naming the arguments and
    the result, and returns the result. Because the decorated name is also
    what the recursion calls, every recursive call is traced too. Printed
    lines are modelled as a log of (argument, result) records appended in
    the order the lines appear. */
module TracedFibonacci {

  /** The undecorated recurrence. A negative `n` never reaches a base case
      (Python recurses until RecursionError), so `n` is a `nat`. */
  function Fibonacci(n: nat): nat {
    if n == 0 || n == 1 then n else Fibonacci(n - 2) + Fibonacci(n - 1)
  }

  /** One traced line: `fibonacci ((n,)), {}) -> result`. */
  datatype TraceLine = TraceLine(arg: nat, result: nat)

  /** The decorated function: result and the lines its call prints. The
      inner calls print first (`fibonacci(n - 2)` before
      `fibonacci(n - 1)`), and the wrapper prints its own line last. */
  function Traced(n: nat): (r: (nat, seq<TraceLine>))
    ensures r.0 == Fibonacci(n)
    ensures |r.1| > 0 && r.1[|r.1| - 1] == TraceLine(n, Fibonacci(n))
  {
    if n == 0 || n == 1 then (n, [TraceLine(n, n)])
    else
      var (a, la) := Traced(n - 2);
      var (b, lb) := Traced(n - 1);
      (a + b, la + lb + [TraceLine(n, a + b)])
  }

  /** Every printed line shows a smaller or equal argument and the right
      Fibonacci number for it. */
  lemma {:induction false} TracedLinesCorrect(n: nat)
    ensures forall i :: 0 <= i < |Traced(n).1| ==> Traced(n).1[i].arg <= n
    ensures forall i :: 0 <= i < |Traced(n).1| ==> Traced(n).1[i].result == Fibonacci(Traced(n).1[i].arg)
  {
    if n >= 2 {
      TracedLinesCorrect(n - 2);
      TracedLinesCorrect(n - 1);
      var la, lb := Traced(n - 2).1, Traced(n - 1).1;
      var log := Traced(n).1;
      assert log == la + lb + [TraceLine(n, Fibonacci(n))];
      forall i | 0 <= i < |log| ensures log[i].arg <= n && log[i].result == Fibonacci(log[i].arg) {
        if i < |la| {
          assert log[i] == la[i];
        } else if i < |la| + |lb| {
          assert log[i] == lb[i - |la|];
        } else {
          assert log[i] == TraceLine(n, Fibonacci(n));
        }
      }
    }
  }

  /** Tracing prints one line per call, and the recursion makes
      `2 * fibonacci(n + 1) - 1` calls. */
  lemma {:induction false} TracedCallCount(n: nat)
    ensures |Traced(n).1| + 1 == Fibonacci(n + 1) + Fibonacci(n + 1)
  {
    if n >= 2 {
      TracedCallCount(n - 2);
      TracedCallCount(n - 1);
      TracedLength(n);
    }
  }

  lemma TracedLength(n: nat)
    requires n >= 2
    ensures |Traced(n).1| == |Traced(n - 2).1| + |Traced(n - 1).1| + 1
  {
  }

  /** Iterating the pair `(fib(i), fib(i + 1))` gives the same numbers as the
      recurrence. */
  method FibonacciIterative(n: nat) returns (f: nat)
    ensures f == Fibonacci(n)
  {
    var a, b := 0, 1;
    for i := 0 to n
      invariant a == Fibonacci(i) && b == Fibonacci(i + 1)
    {
      a, b := b, a + b;
    }
    f := a;
  }
}

=== FILE: gamestate.dfy ===
/** The `copyreg` migration of Item68.py: `pickle_game_state` serializes a
    `GameState` as the keyword arguments of `unpickle_game_state`, which
    calls the constructor of the class as it is defined at load time. An
    object's attributes and the keyword arguments are maps from names to
    integers (every field of the game state is an integer); a constructor
    is the map of its parameters to their defaults. */
module GameStateMigration {
  import opened Common

  type Attributes = map<string, int>

  /** `GameState.__init__(**kwargs)`: the object, or TypeError for a keyword
      the constructor does not accept. */
  datatype Built = Built(state: Attributes) | TypeError | KeyError(key: string)

  /** Example 9: `level=0, lives=4, points=0`. */
  function WithLives(): Attributes {
    map["level" := 0, "lives" := 4, "points" := 0]
  }

  /** Example 14: a new field `magic=5`. */
  function WithMagic(): Attributes {
    map["level" := 0, "lives" := 4, "points" := 0, "magic" := 5]
  }

  /** Example 16: `lives` removed. */
  function WithoutLives(): Attributes {
    map["level" := 0, "points" := 0, "magic" := 5]
  }

  /** Calling a constructor whose parameters and defaults are `defaults`
      with the keyword arguments `kwargs`. */
  function Construct(defaults: Attributes, kwargs: Attributes): (r: Built)
    ensures !r.KeyError?
    ensures r.TypeError? <==> exists k :: k in kwargs && k !in defaults
    ensures r.Built? ==> r.state.Keys == defaults.Keys
    ensures r.Built? ==> forall k :: k in defaults ==> r.state[k] == if k in kwargs then kwargs[k] else defaults[k]
  {
    if exists k :: k in kwargs && k !in defaults then TypeError
    else
      Built(map k | k in defaults :: if k in kwargs then kwargs[k] else defaults[k])
  }

  /** Example 10: the keyword arguments are the object's attributes. */
  function PickleUnversioned(state: Attributes): (r: Attributes)
    ensures r.Keys == state.Keys
    ensures forall k :: k in state ==> r[k] == state[k]
  {
    state
  }

  /** Example 11: `GameState(**kwargs)`. */
  function UnpickleUnversioned(defaults: Attributes, kwargs: Attributes): (r: Built)
    ensures r.TypeError? <==> exists k :: k in kwargs && k !in defaults
    ensures !r.KeyError?
    ensures r.Built? ==> r.state.Keys == defaults.Keys
    ensures r.Built? ==> forall k :: k in kwargs ==> k in r.state && r.state[k] == kwargs[k]
  {
    Construct(defaults, kwargs)
  }

  /** Example 18: `kwargs` is the object's own `__dict__`, so tagging it
      with `version = 2` also adds the attribute to the object. The result
      is the object after the call and the arguments pickled. */
  function PickleVersioned(state: Attributes): (r: (Attributes, Attributes))
    ensures r.0 == r.1
    ensures "version" in r.1 && r.1["version"] == 2
    ensures r.1.Keys == state.Keys + {"version"}
    ensures forall k :: k in state && k != "version" ==> r.1[k] == state[k]
  {
    var kwargs := state["version" := 2];
    (kwargs, kwargs)
  }

  /** Example 19: the `version` key is popped (a missing one means 1), and
      version-1 data lose `lives`, which raises KeyError if it is absent,
      before the constructor is called. */
  function UnpickleVersioned(defaults: Attributes, kwargs: Attributes): (r: Built)
    ensures r.KeyError? <==> ("version" !in kwargs || kwargs["version"] == 1) && "lives" !in kwargs
    ensures r.KeyError? ==> r.key == "lives"
    ensures r.Built? ==> r.state.Keys == defaults.Keys
    ensures r.Built? ==> forall k :: k in kwargs && k != "version" && k != "lives" ==> k in r.state && r.state[k] == kwargs[k]
  {
    var version := if "version" in kwargs then kwargs["version"] else 1;
    var rest := kwargs - {"version"};
    if version == 1 then
      if "lives" in rest then Construct(defaults, rest - {"lives"}) else KeyError("lives")
    else Construct(defaults, rest)
  }

  /** What the versioned loader does: data without a version, or with
      version 1, are constructed without `lives`; any other version is
      constructed from everything but the tag. */
  lemma UnpickleVersionedMigrates(defaults: Attributes, kwargs: Attributes)
    ensures var version := if "version" in kwargs then kwargs["version"] else 1;
      && (version == 1 && "lives" !in kwargs ==> UnpickleVersioned(defaults, kwargs) == KeyError("lives"))
      && (version == 1 && "lives" in kwargs ==> UnpickleVersioned(defaults, kwargs) == Construct(defaults, kwargs - {"version", "lives"}))
      && (version != 1 ==> UnpickleVersioned(defaults, kwargs) == Construct(defaults, kwargs - {"version"}))
  {
    var rest := kwargs - {"version"};
    assert rest - {"lives"} == kwargs - {"version", "lives"};
  }

  /** The fields of an object built by `defaults`. */
  predicate Fields(defaults: Attributes, state: Attributes) {
    state.Keys == defaults.Keys
  }

  /** An object of the current class survives the versioned round trip,
      as long as the class has no `version` field. */
  lemma VersionedRoundTrip(defaults: Attributes, state: Attributes)
    requires Fields(defaults, state) && "version" !in defaults
    ensures UnpickleVersioned(defaults, PickleVersioned(state).1) == Built(state)
  {
    var kwargs := PickleVersioned(state).1;
    assert kwargs - {"version"} == state;
  }

  /** Without versions the round trip holds only while the class is
      unchanged: an object of an older class with a field the new one lacks
      fails to load. */
  lemma UnversionedRoundTrip(defaults: Attributes, state: Attributes)
    ensures Fields(defaults, state) ==> UnpickleUnversioned(defaults, PickleUnversioned(state)) == Built(state)
    ensures (exists k :: k in state && k !in defaults) ==> UnpickleUnversioned(defaults, PickleUnversioned(state)).TypeError?
  {
  }

  /** Example 13: a fresh `GameState()` with 1000 points, as serialized by
      the unversioned pickler. */
  function Serialized(): Attributes {
    map["level" := 0, "lives" := 4, "points" := 1000]
  }

  /** Example 15: loading it after `magic` was added fills in `magic = 5`;
      Example 17: loading it after `lives` was removed raises TypeError. */
  lemma UnversionedExamples()
    ensures UnpickleUnversioned(WithMagic(), Serialized()) == Built(map["level" := 0, "lives" := 4, "points" := 1000, "magic" := 5])
    ensures UnpickleUnversioned(WithoutLives(), Serialized()) == TypeError
  {
    var built := UnpickleUnversioned(WithMagic(), Serialized());
    assert built.Built? by {
      forall k | k in Serialized() ensures k in WithMagic() { }
    }
    assert built.state == map["level" := 0, "lives" := 4, "points" := 1000, "magic" := 5];
    assert "lives" in Serialized() && "lives" !in WithoutLives();
  }

  /** Example 20: the same old data have no version, so they are treated as
      version 1, lose `lives`, and load into the class without it. */
  lemma VersionedExample()
    ensures UnpickleVersioned(WithoutLives(), Serialized()) == Built(map["level" := 0, "points" := 1000, "magic" := 5])
  {
    var rest := Serialized() - {"version"} - {"lives"};
    assert rest == map["level" := 0, "points" := 1000];
    var built := Construct(WithoutLives(), rest);
    assert built.Built?;
    assert built.state == map["level" := 0, "points" := 1000, "magic" := 5];
  }
}

=== FILE: gcd.dfy ===
/** `gcd` of item64/my_module.py: the greatest common divisor of a pair,
    found by trying every candidate from `min(a, b)` down to 1. A pair
    whose minimum is not positive makes the loop empty and reaches the
    `assert False, 'Not reachable'` after it. */
module DescendingGcd {

  predicate CommonDivisor(k: int, a: int, b: int)
    requires k > 0
  {
    a % k == 0 && b % k == 0
  }

  datatype GcdResult = Divisor(d: nat) | NotReachable

  /** The loop `for i in range(i, 0, -1)` from a given `i`. */
  function SearchDown(a: int, b: int, i: int): (r: GcdResult)
    ensures r.Divisor? ==> 1 <= r.d <= i && CommonDivisor(r.d, a, b)
    ensures r.Divisor? ==> forall k :: r.d < k <= i ==> !CommonDivisor(k, a, b)
    ensures r.NotReachable? <==> forall k :: 1 <= k <= i ==> !CommonDivisor(k, a, b)
    decreases i
  {
    if i <= 0 then NotReachable
    else if CommonDivisor(i, a, b) then Divisor(i)
    else SearchDown(a, b, i - 1)
  }

  function Min(a: int, b: int): int {
    if a <= b then a else b
  }

  /** A positive number has no divisor above itself. */
  lemma NoDivisorAbove(a: int, k: int)
    requires 0 < a < k
    ensures a % k != 0
  {
  }

  /** `gcd((a, b))`: for a positive pair, a common divisor of both that
      no larger integer beats; AssertionError ('Not reachable') exactly
      when `min(a, b) <= 0`. */
  function Gcd(a: int, b: int): (r: GcdResult)
    ensures r.NotReachable? <==> Min(a, b) <= 0
    ensures r.Divisor? ==> 1 <= r.d <= Min(a, b) && CommonDivisor(r.d, a, b)
    ensures r.Divisor? ==> forall k :: k > r.d ==> !CommonDivisor(k, a, b)
  {
    AboveMin(a, b);
    SearchDown(a, b, Min(a, b))
  }

  /** For a positive pair, 1 divides both and nothing above the minimum
      does. */
  lemma AboveMin(a: int, b: int)
    ensures Min(a, b) > 0 ==> CommonDivisor(1, a, b)
    ensures Min(a, b) > 0 ==> forall k :: k > Min(a, b) ==> !CommonDivisor(k, a, b)
  {
    if Min(a, b) > 0 {
      forall k | k > Min(a, b) ensures !CommonDivisor(k, a, b) {
        if a <= b {
          NoDivisorAbove(a, k);
        } else {
          NoDivisorAbove(b, k);
        }
      }
    }
  }

  /** The order of the pair does not matter. */
  lemma GcdSymmetric(a: int, b: int)
    ensures Gcd(a, b) == Gcd(b, a)
  {
    var r, s := Gcd(a, b), Gcd(b, a);
    if r.Divisor? {
      assert CommonDivisor(r.d, b, a) && CommonDivisor(s.d, a, b);
      assert !(r.d < s.d) && !(s.d < r.d);
    }
  }
}

=== FILE: grades.dfy ===
/** The validated grade attributes of Item46.py: a `@property` setter on
    `Homework` and `Exam`, and the `Grade` descriptor in its shared-value
    (Example 10) and per-instance (Examples 13 and 14) versions. A grade
    must lie in 0..100; an assignment outside that range raises ValueError
    and leaves everything as it was. */
module Grades {
  import opened Common

  /** `0 <= value <= 100`, the check every setter makes. */
  predicate ValidGrade(value: int) {
    0 <= value <= 100
  }

  /** The state after an assignment, and whether it raised ValueError. */
  datatype Assigned<T> = Assigned(after: T, valueError: bool)

  /** `Homework`, with `_grade` starting at 0. */
  datatype Homework = Homework(grade: int)

  function NewHomework(): (h: Homework)
    ensures h.grade == 0
  {
    Homework(0)
  }

  /** `homework.grade = value`. */
  function SetHomeworkGrade(h: Homework, value: int): (r: Assigned<Homework>)
    ensures r.valueError <==> !ValidGrade(value)
    ensures r.valueError ==> r.after == h
    ensures !r.valueError ==> r.after.grade == value
  {
    if !ValidGrade(value) then Assigned(h, true) else Assigned(Homework(value), false)
  }

  /** The property-based `Exam` of Examples 3 and 4. */
  datatype Exam = Exam(writingGrade: int, mathGrade: int)

  function NewExam(): (e: Exam)
    ensures e.writingGrade == 0 && e.mathGrade == 0
  {
    Exam(0, 0)
  }

  /** `exam.writing_grade = value`: the math grade is untouched. */
  function SetWritingGrade(e: Exam, value: int): (r: Assigned<Exam>)
    ensures r.valueError <==> !ValidGrade(value)
    ensures r.valueError ==> r.after == e
    ensures !r.valueError ==> r.after.writingGrade == value
    ensures r.after.mathGrade == e.mathGrade
  {
    if !ValidGrade(value) then Assigned(e, true) else Assigned(e.(writingGrade := value), false)
  }

  /** `exam.math_grade = value`: the writing grade is untouched. */
  function SetMathGrade(e: Exam, value: int): (r: Assigned<Exam>)
    ensures r.valueError <==> !ValidGrade(value)
    ensures r.valueError ==> r.after == e
    ensures !r.valueError ==> r.after.mathGrade == value
    ensures r.after.writingGrade == e.writingGrade
  {
    if !ValidGrade(value) then Assigned(e, true) else Assigned(e.(mathGrade := value), false)
  }

  /** Examples 2 and 4: the assigned grades read back. */
  lemma PropertyExamples()
    ensures SetHomeworkGrade(NewHomework(), 95).after.grade == 95
    ensures var e := SetMathGrade(SetWritingGrade(NewExam(), 85).after, 99).after;
      e.writingGrade == 85 && e.mathGrade == 99
  {
  }

  /** An exam object, identified by its identity. */
  type Instance = nat

  /** The descriptor of Example 10: one `_value` for the whole class. */
  datatype SharedGrade = SharedGrade(value: int)

  function NewSharedGrade(): (g: SharedGrade)
    ensures g.value == 0
  {
    SharedGrade(0)
  }

  /** `Grade.__get__`: the same value whatever the instance. */
  function SharedGet(g: SharedGrade, instance: Instance): int {
    g.value
  }

  /** `Grade.__set__`. */
  function SharedSet(g: SharedGrade, instance: Instance, value: int): (r: Assigned<SharedGrade>)
    ensures r.valueError <==> !ValidGrade(value)
    ensures r.valueError ==> r.after == g
    ensures !r.valueError ==> forall other :: SharedGet(r.after, other) == value
  {
    if !ValidGrade(value) then Assigned(g, true) else Assigned(SharedGrade(value), false)
  }

  /** Example 12: the second exam's writing grade overwrites the first's,
      which then reads 75 instead of 82. */
  lemma SharedGradeOverwrites(first: Instance, second: Instance)
    requires first != second
    ensures var g := SharedSet(SharedSet(NewSharedGrade(), first, 82).after, second, 75).after;
      SharedGet(g, first) == 75 && SharedGet(g, second) == 75
  {
  }

  /** The descriptor of Examples 13 and 14: a value per instance, 0 for an
      instance never assigned. */
  datatype InstanceGrade = InstanceGrade(values: map<Instance, int>)

  function NewInstanceGrade(): (g: InstanceGrade)
    ensures forall i :: InstanceGet(g, Some(i)) == Value(0)
  {
    InstanceGrade(map[])
  }

  /** What attribute access yields: the descriptor itself, for access
      through the class, or a grade. */
  datatype Access = Descriptor(grade: InstanceGrade) | Value(value: int)

  /** `Grade.__get__(instance, owner)`; `instance` is None for access
      through the class. */
  function InstanceGet(g: InstanceGrade, instance: Option<Instance>): (r: Access)
    ensures instance.None? <==> r == Descriptor(g)
    ensures instance.Some? && instance.value !in g.values ==> r == Value(0)
  {
    match instance
    case None => Descriptor(g)
    case Some(i) => Value(if i in g.values then g.values[i] else 0)
  }

  /** `Grade.__set__(instance, value)`: only this instance's grade changes. */
  function InstanceSet(g: InstanceGrade, instance: Instance, value: int): (r: Assigned<InstanceGrade>)
    ensures r.valueError <==> !ValidGrade(value)
    ensures r.valueError ==> r.after == g
    ensures !r.valueError ==> InstanceGet(r.after, Some(instance)) == Value(value)
    ensures forall other :: other != instance ==> InstanceGet(r.after, Some(other)) == InstanceGet(g, Some(other))
  {
    if !ValidGrade(value) then Assigned(g, true)
    else Assigned(InstanceGrade(g.values[instance := value]), false)
  }

  /** Every stored grade is a valid one. */
  predicate AllValid(g: InstanceGrade) {
    forall i :: i in g.values ==> ValidGrade(g.values[i])
  }

  /** Whatever is assigned, successful or not, the descriptor only ever
      reads back grades in 0..100. */
  lemma InstanceSetKeepsValid(g: InstanceGrade, instance: Instance, value: int)
    requires AllValid(g)
    ensures AllValid(InstanceSet(g, instance, value).after)
    ensures forall i :: 0 <= InstanceGet(InstanceSet(g, instance, value).after, Some(i)).value <= 100
  {
  }

  /** The three descriptors of the `Exam` class of Example 15. */
  datatype ExamClass = ExamClass(mathGrade: InstanceGrade, writingGrade: InstanceGrade, scienceGrade: InstanceGrade)

  /** Example 15: with per-instance storage each exam keeps its own
      writing grade. */
  lemma InstanceGradesSeparate(first: Instance, second: Instance)
    requires first != second
    ensures var g := InstanceSet(InstanceSet(NewInstanceGrade(), first, 82).after, second, 75).after;
      InstanceGet(g, Some(first)) == Value(82) && InstanceGet(g, Some(second)) == Value(75)
  {
  }

  /** Writing one exam's grade leaves the other descriptors of the class
      alone. */
  function SetExamWriting(c: ExamClass, instance: Instance, value: int): (r: Assigned<ExamClass>)
    ensures r.valueError <==> !ValidGrade(value)
    ensures r.after.mathGrade == c.mathGrade && r.after.scienceGrade == c.scienceGrade
    ensures !r.valueError ==> InstanceGet(r.after.writingGrade, Some(instance)) == Value(value)
  {
    var w := InstanceSet(c.writingGrade, instance, value);
    Assigned(c.(writingGrade := w.after), w.valueError)
  }
}

=== FILE: guess.dfy ===
/** The guess-the-number game of Item61.py with its sockets taken away: the
    server `Session` that answers PARAMS / NUMBER / REPORT commands, and the
    `Client` that decides warmer / colder / correct. Every line a side sends is
    appended to its `sent` list instead of being written to a connection,
    every line it prints to its `printed` list, and incoming lines are passed
    in as a sequence. */
module GuessNumber {
  import opened Common
  import opened Text

  datatype Decision = Warmer | Colder | Unsure | Correct

  /** The constants WARMER, COLDER, UNSURE and CORRECT. */
  function DecisionName(d: Decision): string {
    match d
    case Warmer => "Warmer"
    case Colder => "Colder"
    case Unsure => "Unsure"
    case Correct => "Correct"
  }

  /** What a step of either side can raise. `Diverges` stands for the
      `while True` of `next_guess` spinning forever once every number of the
      range has been guessed. */
  datatype Fault =
    | UnknownCommandError(command: string)
    | AssertionError
    | ValueError
    | TypeError
    | IndexError
    | EofError
    | Diverges

  datatype Outcome<T> = Ok(value: T) | Fail(fault: Fault)

  // ---------------------------------------------------------------- server

  /** The server's per-connection state; `None` is Python's `None`. */
  datatype Session = Session(
    lower: Option<int>, upper: Option<int>, secret: Option<int>,
    guesses: seq<int>, sent: seq<string>, printed: seq<string>)

  /** `_clear_state(lower, upper)`: new bounds, no secret, no guesses. */
  function ClearState(s: Session, lower: Option<int>, upper: Option<int>): (r: Session)
    ensures r.lower == lower && r.upper == upper
    ensures r.secret.None? && r.guesses == []
    ensures r.sent == s.sent && r.printed == s.printed
  {
    Session(lower, upper, None, [], s.sent, s.printed)
  }

  /** A fresh `Session`: `_clear_state(None, None)` and nothing sent. */
  function NewSession(): (s: Session)
    ensures s.lower.None? && s.upper.None? && s.secret.None?
    ensures s.guesses == [] && s.sent == [] && s.printed == []
  {
    ClearState(Session(None, None, None, [], [], []), None, None)
  }

  /** `set_params(parts)`: exactly three parts, the last two integers, which
      become the new bounds of a cleared session. */
  function SetParams(s: Session, parts: seq<string>): (r: Outcome<Session>)
    ensures |parts| != 3 ==> r == Fail(AssertionError)
    ensures |parts| == 3 && (ParseInt(parts[1]).None? || ParseInt(parts[2]).None?) ==>
      r == Fail(ValueError)
    ensures r.Ok? ==> (|parts| == 3 && ParseInt(parts[1]).Some? && ParseInt(parts[2]).Some?
      && r.value == ClearState(s, ParseInt(parts[1]), ParseInt(parts[2])))
  {
    if |parts| != 3 then Fail(AssertionError)
    else
      match (ParseInt(parts[1]), ParseInt(parts[2]))
      case (Some(lo), Some(hi)) => Ok(ClearState(s, Some(lo), Some(hi)))
      case _ => Fail(ValueError)
  }

  /** Some integer of [lower, upper] has not been guessed yet. */
  predicate HasFresh(lower: int, upper: int, guesses: seq<int>) {
    exists g :: lower <= g <= upper && g !in guesses
  }

  /** `next_guess()`: the secret once it is known; otherwise any number of
      [lower, upper] not guessed before (the source draws at random until it
      finds one). `randint` on missing bounds raises TypeError and on an
      empty range ValueError. */
  method NextGuess(s: Session) returns (r: Outcome<int>)
    ensures s.secret.Some? ==> r == Ok(s.secret.value)
    ensures s.secret.None? && (s.lower.None? || s.upper.None?) ==> r == Fail(TypeError)
    ensures s.secret.None? && s.lower.Some? && s.upper.Some? ==>
      if s.lower.value > s.upper.value then r == Fail(ValueError)
      else if !HasFresh(s.lower.value, s.upper.value, s.guesses) then r == Fail(Diverges)
      else r.Ok? && s.lower.value <= r.value <= s.upper.value && r.value !in s.guesses
    ensures r.Fail? ==> r.fault in {TypeError, ValueError, Diverges}
  {
    if s.secret.Some? {
      return Ok(s.secret.value);
    }
    if s.lower.None? || s.upper.None? {
      return Fail(TypeError);
    }
    var lo, hi := s.lower.value, s.upper.value;
    if lo > hi {
      return Fail(ValueError);
    }
    if !HasFresh(lo, hi, s.guesses) {
      return Fail(Diverges);
    }
    var g :| lo <= g <= hi && g !in s.guesses;
    return Ok(g);
  }

  /** The outcomes `send_number()` may have: the secret once it is known,
      else a fault for missing bounds, an empty range or an exhausted one,
      else any fresh number of the range; the number is remembered and sent
      in decimal. */
  predicate NumberSent(s: Session, r: Outcome<Session>) {
    if s.secret.Some? then
      r == Ok(s.(guesses := s.guesses + [s.secret.value], sent := s.sent + [IntToString(s.secret.value)]))
    else if s.lower.None? || s.upper.None? then r == Fail(TypeError)
    else if s.lower.value > s.upper.value then r == Fail(ValueError)
    else if !HasFresh(s.lower.value, s.upper.value, s.guesses) then r == Fail(Diverges)
    else r.Ok? && exists g :: (s.lower.value <= g <= s.upper.value && g !in s.guesses
      && r.value == s.(guesses := s.guesses + [g], sent := s.sent + [IntToString(g)]))
  }

  /** `send_number()`: the chosen guess is remembered and sent in decimal. */
  method SendNumber(s: Session) returns (r: Outcome<Session>)
    ensures NumberSent(s, r)
    ensures r.Fail? ==> r.fault in {TypeError, ValueError, Diverges}
  {
    var guess := NextGuess(s);
    match guess
    case Fail(f) => return Fail(f);
    case Ok(g) =>
      r := Ok(s.(guesses := s.guesses + [g], sent := s.sent + [IntToString(g)]));
  }

  /** The line `f'Server: {last} is {decision}'`. */
  function ServerLine(last: int, decision: string): string {
    "Server: " + IntToString(last) + " is " + decision
  }

  /** The server's printed line names the guess it judged and the decision:
      split on spaces it gives back both, and the number reads back as the
      guess. */
  lemma ServerLineRoundTrip(last: int, decision: string)
    requires ' ' !in decision
    ensures Split(ServerLine(last, decision), ' ') == ["Server:", IntToString(last), "is", decision]
    ensures ParseInt(Split(ServerLine(last, decision), ' ')[1]) == Some(last)
  {
    var parts := ["Server:", IntToString(last), "is", decision];
    ServerLineIsJoin(last, decision);
    SplitJoin(parts, ' ');
    ParseIntToString(last);
  }

  lemma ServerLineIsJoin(last: int, decision: string)
    ensures ServerLine(last, decision) == Join(["Server:", IntToString(last), "is", decision], ' ')
  {
    var parts := ["Server:", IntToString(last), "is", decision];
    assert Join(parts[3..], ' ') == decision;
    assert Join(parts[2..], ' ') == "is " + decision;
    assert Join(parts[1..], ' ') == IntToString(last) + " is " + decision;
  }

  /** `receive_report(parts)`: exactly two parts; the last guess (IndexError
      when there is none) becomes the secret when the decision is CORRECT,
      and the server prints the guess with the decision it was given. */
  function ReceiveReport(s: Session, parts: seq<string>): (r: Outcome<Session>)
    ensures |parts| != 2 ==> r == Fail(AssertionError)
    ensures |parts| == 2 && s.guesses == [] ==> r == Fail(IndexError)
    ensures r.Ok? ==> (|parts| == 2 && |s.guesses| > 0
      && r.value.guesses == s.guesses && r.value.sent == s.sent
      && r.value.lower == s.lower && r.value.upper == s.upper
      && r.value.secret == (if parts[1] == DecisionName(Correct)
                            then Some(s.guesses[|s.guesses| - 1]) else s.secret)
      && r.value.printed == s.printed + [ServerLine(s.guesses[|s.guesses| - 1], parts[1])])
    ensures r.Fail? <==> |parts| != 2 || s.guesses == []
  {
    if |parts| != 2 then Fail(AssertionError)
    else if |s.guesses| == 0 then Fail(IndexError)
    else
      var last := s.guesses[|s.guesses| - 1];
      var shown := s.(printed := s.printed + [ServerLine(last, parts[1])]);
      if parts[1] == DecisionName(Correct) then Ok(shown.(secret := Some(last))) else Ok(shown)
  }

  /** Once the secret is known it is also the last number guessed. */
  predicate SecretIsLastGuess(s: Session) {
    s.secret.Some? ==> |s.guesses| > 0 && s.guesses[|s.guesses| - 1] == s.secret.value
  }

  /** The outcomes one command may have in `loop`: PARAMS, NUMBER and
      REPORT go to their handlers, and any other first word raises
      UnknownCommandError. */
  predicate Handled(s: Session, command: string, r: Outcome<Session>) {
    var parts := Split(command, ' ');
    if parts[0] == "PARAMS" then r == SetParams(s, parts)
    else if parts[0] == "NUMBER" then NumberSent(s, r)
    else if parts[0] == "REPORT" then r == ReceiveReport(s, parts)
    else r == Fail(UnknownCommandError(command))
  }

  /** One iteration of `loop`: dispatch on the first word of the command. */
  method Dispatch(s: Session, command: string) returns (r: Outcome<Session>)
    ensures Handled(s, command, r)
    ensures var parts := Split(command, ' ');
      if parts[0] == "PARAMS" then r == SetParams(s, parts)
      else if parts[0] == "REPORT" then r == ReceiveReport(s, parts)
      else if parts[0] == "NUMBER" then
        (s.secret.Some? ==> r.Ok? && r.value.guesses == s.guesses + [s.secret.value])
        && (r.Ok? ==> |r.value.guesses| == |s.guesses| + 1 && |r.value.sent| == |s.sent| + 1)
      else r == Fail(UnknownCommandError(command))
    ensures (r.Fail? && r.fault.UnknownCommandError?) <==>
      Split(command, ' ')[0] !in ["PARAMS", "NUMBER", "REPORT"]
    ensures SecretIsLastGuess(s) && r.Ok? ==> SecretIsLastGuess(r.value)
  {
    var parts := Split(command, ' ');
    if parts[0] == "PARAMS" {
      r := SetParams(s, parts);
    } else if parts[0] == "NUMBER" {
      r := SendNumber(s);
    } else if parts[0] == "REPORT" {
      r := ReceiveReport(s, parts);
    } else {
      r := Fail(UnknownCommandError(command));
    }
  }

  /** How `loop` ends: on an empty line (the walrus condition is false), when
      the input runs out (`receive` raises EOFError, which the connection
      handler swallows), or by an exception from a command. */
  datatype LoopEnd = EmptyLine | ConnectionClosed | Raised(fault: Fault)

  /** `loop()` over the lines the connection delivers: commands are handled in
      order until an empty line, the end of the input or the first exception;
      the last-guess invariant of the secret survives all of it. `states`
      lists the session before each handled command and after the last:
      each step is the command's outcome, and a raised fault is the outcome
      of the command that stopped the loop. */
  method Loop(s: Session, lines: seq<string>) returns (r: Session, end: LoopEnd, handled: nat, states: seq<Session>)
    ensures handled <= |lines|
    ensures |states| == handled + 1 && states[0] == s && states[handled] == r
    ensures forall k :: 0 <= k < handled ==> Handled(states[k], lines[k], Ok(states[k + 1]))
    ensures end.Raised? ==> handled < |lines| && Handled(r, lines[handled], Fail(end.fault))
    ensures forall k :: 0 <= k < handled ==> lines[k] != ""
    ensures end == EmptyLine <==> handled < |lines| && lines[handled] == ""
    ensures end == ConnectionClosed <==> handled == |lines|
    ensures end.Raised? ==> handled < |lines| && lines[handled] != ""
    ensures (end.Raised? && end.fault.UnknownCommandError?) <==>
      handled < |lines| && lines[handled] != "" &&
      Split(lines[handled], ' ')[0] !in ["PARAMS", "NUMBER", "REPORT"]
    ensures end.Raised? && end.fault.UnknownCommandError? ==> end.fault.command == lines[handled]
    ensures SecretIsLastGuess(s) ==> SecretIsLastGuess(r)
  {
    r := s;
    handled := 0;
    states := [s];
    while handled < |lines|
      invariant handled <= |lines|
      invariant |states| == handled + 1 && states[0] == s && states[handled] == r
      invariant forall k :: 0 <= k < handled ==> Handled(states[k], lines[k], Ok(states[k + 1]))
      invariant forall k :: 0 <= k < handled ==> lines[k] != ""
      invariant SecretIsLastGuess(s) ==> SecretIsLastGuess(r)
    {
      var command := lines[handled];
      if command == "" {
        return r, EmptyLine, handled, states;
      }
      var next := Dispatch(r, command);
      match next
      case Fail(f) =>
        return r, Raised(f), handled, states;
      case Ok(n) =>
        r := n;
      states := states + [r];
      handled := handled + 1;
    }
    end := ConnectionClosed;
  }

  /** After the client reports CORRECT, the server's secret is the number it
      guessed last, so every later NUMBER command sends that number again. */
  lemma ReportCorrectFixesSecret(s: Session)
    requires |s.guesses| > 0
    ensures ReceiveReport(s, ["REPORT", "Correct"]).Ok?
    ensures var r := ReceiveReport(s, ["REPORT", "Correct"]).value;
      r.secret == Some(s.guesses[|s.guesses| - 1]) && SecretIsLastGuess(r)
  {
  }

  // ---------------------------------------------------------------- client

  /** The client's state: the secret of the running session and the distance
      of the previous guess. */
  datatype Client = Client(secret: Option<int>, lastDistance: Option<nat>, sent: seq<string>,
    printed: seq<string>)

  /** `Client._clear_state()`. */
  function ClearClient(c: Client): (r: Client)
    ensures r.secret.None? && r.lastDistance.None? && r.sent == c.sent && r.printed == c.printed
  {
    Client(None, None, c.sent, c.printed)
  }

  function Abs(x: int): nat {
    if x < 0 then -x else x
  }

  /** The line `f'PARAMS {lower} {upper}'`. */
  function ParamsLine(lower: int, upper: int): string {
    "PARAMS " + IntToString(lower) + " " + IntToString(upper)
  }

  /** The greeting `session` prints, secret included. */
  function Greeting(lower: int, upper: int, secret: int): string {
    "Guess a number between " + IntToString(lower) + " and " + IntToString(upper)
      + "! Shhhhh, it's " + IntToString(secret) + "."
  }

  /** Entering `session(lower, upper, secret)`: the greeting is printed, the
      secret is stored and the bounds are sent to the server. */
  function BeginSession(c: Client, lower: int, upper: int, secret: int): (r: Client)
    ensures r.secret == Some(secret) && r.lastDistance == c.lastDistance
    ensures r.sent == c.sent + [ParamsLine(lower, upper)]
    ensures r.printed == c.printed + [Greeting(lower, upper, secret)]
  {
    Client(Some(secret), c.lastDistance, c.sent + [ParamsLine(lower, upper)],
      c.printed + [Greeting(lower, upper, secret)])
  }

  /** Leaving `session(...)` (the `finally` block): the state is cleared and
      the server is told the empty range 0..-1. */
  function EndSession(c: Client): (r: Client)
    ensures r.secret.None? && r.lastDistance.None?
    ensures r.sent == c.sent + [ParamsLine(0, -1)] && r.printed == c.printed
  {
    var cleared := ClearClient(c);
    cleared.(sent := cleared.sent + [ParamsLine(0, -1)])
  }

  /** The server understands the client's PARAMS line: splitting it on spaces
      and handing it to `set_params` installs exactly the client's bounds. */
  lemma ParamsLineRoundTrip(s: Session, lower: int, upper: int)
    ensures SetParams(s, Split(ParamsLine(lower, upper), ' ')) ==
      Ok(ClearState(s, Some(lower), Some(upper)))
  {
    var parts := ["PARAMS", IntToString(lower), IntToString(upper)];
    assert ParamsLine(lower, upper) == Join(parts, ' ') by {
      assert Join(parts[2..], ' ') == IntToString(upper);
    }
    SplitJoin(parts, ' ');
    ParseIntToString(lower);
    ParseIntToString(upper);
  }

  /** After `session()` ends, a NUMBER from the server would fail: the client's
      closing PARAMS line leaves it with the empty range 0..-1. */
  lemma ClosingParamsEmptyRange(s: Session)
    ensures SetParams(s, Split(ParamsLine(0, -1), ' ')).Ok?
    ensures var r := SetParams(s, Split(ParamsLine(0, -1), ' ')).value;
      r.lower == Some(0) && r.upper == Some(-1) && !HasFresh(0, -1, r.guesses)
  {
    ParamsLineRoundTrip(s, 0, -1);
  }

  /** `report_outcome(number)`: CORRECT on a hit; otherwise UNSURE for the
      first guess, WARMER when strictly closer than the previous guess, COLDER
      when strictly farther, UNSURE when equally far. The new distance is
      remembered and `REPORT <decision>` is sent. Without a running session
      the subtraction from `None` raises TypeError. */
  function ReportOutcome(c: Client, number: int): (r: Outcome<(Decision, Client)>)
    ensures c.secret.None? ==> r == Fail(TypeError)
    ensures c.secret.Some? ==> r.Ok?
    ensures r.Ok? ==>
      var (d, c') := r.value;
      var dist := Abs(number - c.secret.value);
      && (d == Correct <==> number == c.secret.value)
      && (number != c.secret.value && c.lastDistance.None? ==> d == Unsure)
      && (number != c.secret.value && c.lastDistance.Some? ==>
            (d == Warmer <==> dist < c.lastDistance.value)
            && (d == Colder <==> dist > c.lastDistance.value)
            && (d == Unsure <==> dist == c.lastDistance.value))
      && c'.lastDistance == Some(dist) && c'.secret == c.secret
      && c'.sent == c.sent + ["REPORT " + DecisionName(d)] && c'.printed == c.printed
  {
    if c.secret.None? then Fail(TypeError)
    else
      var newDistance := Abs(number - c.secret.value);
      var decision :=
        if newDistance == 0 then Correct
        else if c.lastDistance.None? then Unsure
        else if newDistance < c.lastDistance.value then Warmer
        else if newDistance > c.lastDistance.value then Colder
        else Unsure;
      Ok((decision, c.(lastDistance := Some(newDistance), sent := c.sent + ["REPORT " + DecisionName(decision)])))
  }

  /** Two reports in a row compare the two guesses: the second is WARMER
      exactly when it is strictly closer to the secret than the first, and
      COLDER exactly when strictly farther (and not itself a hit). */
  lemma ConsecutiveReports(c: Client, first: int, second: int)
    requires c.secret.Some?
    requires second != c.secret.value
    ensures ReportOutcome(c, first).Ok?
    ensures var c1 := ReportOutcome(c, first).value.1;
      var d := ReportOutcome(c1, second).value.0;
      (d == Warmer <==> Abs(second - c.secret.value) < Abs(first - c.secret.value))
      && (d == Colder <==> Abs(second - c.secret.value) > Abs(first - c.secret.value))
  {
  }

  /** The lines the client sends for rounds that completed: `NUMBER`, then
      `REPORT <decision>`, round after round. */
  function RoundLines(results: seq<(int, Decision)>): (r: seq<string>)
    ensures |r| == 2 * |results|
    decreases |results|
  {
    if |results| == 0 then []
    else
      var init := results[..|results| - 1];
      var last := results[|results| - 1];
      RoundLines(init) + ["NUMBER", "REPORT " + DecisionName(last.1)]
  }

  /** What `report_outcome` decides about a miss, stated against the
      previous distance: UNSURE with no previous guess or an equal distance,
      WARMER when strictly closer, COLDER when strictly farther. */
  predicate JudgedAgainst(d: Decision, previous: Option<nat>, distance: nat) {
    && (previous.None? ==> d == Unsure)
    && (previous.Some? ==>
          (d == Warmer <==> distance < previous.value)
          && (d == Colder <==> distance > previous.value)
          && (d == Unsure <==> distance == previous.value))
  }

  /** The distance a client compares the round-`k` guess with: the one it
      started with for the first round, the previous round's guess after. */
  function PreviousDistance(c: Client, results: seq<(int, Decision)>, k: nat): Option<nat>
    requires c.secret.Some? && k <= |results|
  {
    if k == 0 then c.lastDistance else Some(Abs(results[k - 1].0 - c.secret.value))
  }

  /** What the client holds after the rounds in `results` completed:
      each guess is CORRECT exactly on the
      secret, every miss judged against the previous distance, the sent
      lines are those of the rounds, and the last distance is remembered.
      (Which reply each guess was parsed from is kept separately.) */
  predicate Rounds(c: Client, replies: seq<string>, results: seq<(int, Decision)>, r: Client)
    requires c.secret.Some?
  {
    && |results| <= |replies|
    && r.secret == c.secret
    && (forall k :: 0 <= k < |results| ==>
          (results[k].1 == Correct <==> results[k].0 == c.secret.value))
    && (forall k :: 0 <= k < |results| && results[k].1 != Correct ==>
          JudgedAgainst(results[k].1, PreviousDistance(c, results, k), Abs(results[k].0 - c.secret.value)))
    && r.sent == c.sent + RoundLines(results)
    && r.lastDistance == PreviousDistance(c, results, |results|)
  }

  /** A further round leaves the earlier rounds' previous distances alone,
      and its own distance becomes the next round's previous one. */
  lemma {:induction false} PreviousDistanceExtend(c: Client, results: seq<(int, Decision)>, x: (int, Decision))
    requires c.secret.Some?
    ensures forall k :: 0 <= k <= |results| ==>
      PreviousDistance(c, results + [x], k) == PreviousDistance(c, results, k)
    ensures PreviousDistance(c, results + [x], |results| + 1) == Some(Abs(x.0 - c.secret.value))
  {
    var extended := results + [x];
    forall k | 0 <= k <= |results|
      ensures PreviousDistance(c, extended, k) == PreviousDistance(c, results, k)
    {
      if k > 0 {
        assert extended[k - 1] == results[k - 1];
      }
    }
  }

  lemma RoundLinesExtend(results: seq<(int, Decision)>, x: (int, Decision))
    ensures RoundLines(results + [x]) == RoundLines(results) + ["NUMBER", "REPORT " + DecisionName(x.1)]
  {
    var extended := results + [x];
    assert extended[..|extended| - 1] == results;
  }

  /** `report_outcome` on a client in a session, as the facts a round
      needs. */
  lemma ReportFacts(r: Client, number: int, d: Decision, next: Client)
    requires ReportOutcome(r, number) == Ok((d, next))
    ensures next.secret == r.secret && r.secret.Some?
    ensures next.lastDistance == Some(Abs(number - r.secret.value))
    ensures next.sent == r.sent + ["REPORT " + DecisionName(d)] && next.printed == r.printed
    ensures d == Correct <==> number == r.secret.value
    ensures d != Correct ==> JudgedAgainst(d, r.lastDistance, Abs(number - r.secret.value))
  {
  }

  /** One completed round: NUMBER sent, the reply parsed, the outcome
      reported. */
  lemma RoundStep(c: Client, replies: seq<string>, results: seq<(int, Decision)>, r: Client,
                  number: int, d: Decision, next: Client)
    requires c.secret.Some? && Rounds(c, replies, results, r)
    requires |results| < |replies|
    requires ReportOutcome(r.(sent := r.sent + ["NUMBER"]), number) == Ok((d, next))
    ensures Rounds(c, replies, results + [(number, d)], next)
    ensures next.printed == r.printed
  {
    ReportFacts(r.(sent := r.sent + ["NUMBER"]), number, d, next);
    PreviousDistanceExtend(c, results, (number, d));
    RoundLinesExtend(results, (number, d));
    CorrectExtend(c, results, number, d);
    JudgedExtend(c, results, number, d);
  }

  /** A further round is CORRECT exactly on the secret, like the earlier
      ones. */
  lemma CorrectExtend(c: Client, results: seq<(int, Decision)>, number: int, d: Decision)
    requires c.secret.Some?
    requires forall k :: 0 <= k < |results| ==>
      (results[k].1 == Correct <==> results[k].0 == c.secret.value)
    requires d == Correct <==> number == c.secret.value
    ensures forall k :: 0 <= k < |results| + 1 ==>
      ((results + [(number, d)])[k].1 == Correct <==> (results + [(number, d)])[k].0 == c.secret.value)
  {
    var extended := results + [(number, d)];
    forall k | 0 <= k < |extended|
      ensures extended[k].1 == Correct <==> extended[k].0 == c.secret.value
    {
      if k < |results| {
        assert extended[k] == results[k];
      }
    }
  }

  /** The misses recorded so far stay judged against their previous
      distances when one more round, judged against the last distance, is
      added. */
  lemma JudgedExtend(c: Client, results: seq<(int, Decision)>, number: int, d: Decision)
    requires c.secret.Some?
    requires forall k :: 0 <= k < |results| && results[k].1 != Correct ==>
      JudgedAgainst(results[k].1, PreviousDistance(c, results, k), Abs(results[k].0 - c.secret.value))
    requires d != Correct ==>
      JudgedAgainst(d, PreviousDistance(c, results, |results|), Abs(number - c.secret.value))
    ensures forall k :: 0 <= k < |results| + 1 && (results + [(number, d)])[k].1 != Correct ==>
      JudgedAgainst((results + [(number, d)])[k].1, PreviousDistance(c, results + [(number, d)], k),
        Abs((results + [(number, d)])[k].0 - c.secret.value))
  {
    var extended := results + [(number, d)];
    PreviousDistanceExtend(c, results, (number, d));
    forall k | 0 <= k < |extended|
      ensures extended[k].1 != Correct ==>
        JudgedAgainst(extended[k].1, PreviousDistance(c, extended, k), Abs(extended[k].0 - c.secret.value))
    {
      if k < |results| {
        assert extended[k] == results[k];
      } else {
        assert extended[k] == (number, d);
      }
    }
  }

  /** A further parsed reply extends the record of which reply each guess
      came from. */
  lemma ParsedExtend(replies: seq<string>, results: seq<(int, Decision)>, x: (int, Decision))
    requires |results| < |replies|
    requires forall k :: 0 <= k < |results| ==> Some(results[k].0) == ParseInt(replies[k])
    requires Some(x.0) == ParseInt(replies[|results|])
    ensures forall k :: 0 <= k < |results| + 1 ==> Some((results + [x])[k].0) == ParseInt(replies[k])
  {
    var extended := results + [x];
    forall k | 0 <= k < |results| + 1 ensures Some(extended[k].0) == ParseInt(replies[k]) {
      if k < |results| {
        assert extended[k] == results[k];
      }
    }
  }

  /** The rounds of `request_numbers(count)` up to the one that ends them:
      `results` holds the completed rounds and `r` the client after them;
      `fault` is the reason a further round could not complete. */
  method PlayRounds(c: Client, count: int, replies: seq<string>)
    returns (r: Client, results: seq<(int, Decision)>, fault: Option<Fault>)
    requires c.secret.Some?
    ensures Rounds(c, replies, results, r)
    ensures (count <= 0 ==> results == []) && (count > 0 ==> |results| <= count)
    ensures forall k :: 0 <= k < |results| ==> Some(results[k].0) == ParseInt(replies[k])
    ensures forall k :: 0 <= k < |results| - 1 ==> results[k].1 != Correct
    ensures fault.None? && |results| < count && count > 0 ==>
      |results| > 0 && results[|results| - 1].1 == Correct
    ensures fault.Some? ==> fault == Some(EofError) || fault == Some(ValueError)
    ensures fault == Some(EofError) ==> |results| == |replies| < count
    ensures fault == Some(ValueError) ==>
      |results| < |replies| && |results| < count && ParseInt(replies[|results|]).None?
    ensures r.printed == c.printed
  {
    r := c;
    results := [];
    assert c.sent + RoundLines([]) == c.sent;
    while |results| < count
      invariant |results| == 0 || |results| <= count
      invariant Rounds(c, replies, results, r)
      invariant forall k :: 0 <= k < |results| ==> Some(results[k].0) == ParseInt(replies[k])
      invariant forall k :: 0 <= k < |results| ==> results[k].1 != Correct
      invariant r.printed == c.printed
      decreases count - |results|
    {
      if |results| >= |replies| {
        return r, results, Some(EofError);
      }
      var number := ParseInt(replies[|results|]);
      if number.None? {
        return r, results, Some(ValueError);
      }
      var reported := ReportOutcome(r.(sent := r.sent + ["NUMBER"]), number.value);
      var (decision, next) := reported.value;
      RoundStep(c, replies, results, r, number.value, decision, next);
      ParsedExtend(replies, results, (number.value, decision));
      r := next;
      results := results + [(number.value, decision)];
      if r.lastDistance == Some(0) {
        return r, results, None;
      }
    }
    fault := None;
  }

  /** `request_numbers(count)` driven the way `run_client` drives it: each
      round sends NUMBER, reads the server's reply, parses it, and reports on
      it; the rounds stop after `count`, or right after a correct guess. The
      replies are the server's lines in order; running out of them is the
      EOFError of `receive`, and a reply `int()` cannot read is its
      ValueError. */
  method RequestAndReport(c: Client, count: int, replies: seq<string>)
    returns (r: Client, results: seq<(int, Decision)>, fault: Option<Fault>)
    requires c.secret.Some?
    ensures |results| <= |replies| && (count <= 0 ==> results == [])
    ensures count > 0 ==> |results| <= count
    ensures forall k :: 0 <= k < |results| ==> Some(results[k].0) == ParseInt(replies[k])
    ensures forall k :: 0 <= k < |results| - 1 ==> results[k].1 != Correct
    ensures forall k :: 0 <= k < |results| ==> (results[k].1 == Correct <==> results[k].0 == c.secret.value)
    ensures forall k :: 0 <= k < |results| && results[k].1 != Correct ==>
      JudgedAgainst(results[k].1, PreviousDistance(c, results, k), Abs(results[k].0 - c.secret.value))
    ensures fault.None? && |results| < count && count > 0 ==>
      |results| > 0 && results[|results| - 1].1 == Correct
    ensures fault.Some? ==> fault == Some(EofError) || fault == Some(ValueError)
    ensures fault == Some(EofError) ==> |results| == |replies| < count
    ensures fault == Some(ValueError) ==>
      |results| < |replies| && |results| < count && ParseInt(replies[|results|]).None?
    ensures r.sent == c.sent + RoundLines(results) + (if fault.Some? then ["NUMBER"] else [])
    ensures r.lastDistance == PreviousDistance(c, results, |results|)
    ensures r.secret == c.secret && r.printed == c.printed
  {
    r, results, fault := PlayRounds(c, count, replies);
    if fault.Some? {
      // the NUMBER request went out before the reply failed
      r := r.(sent := r.sent + ["NUMBER"]);
    }
  }
}

=== FILE: insertion.dfy ===
/** The insertion sort of Item70.py, with both versions of `insert_value`: a
    linear scan for the first larger element, and `bisect_left`. Python
    rebinds `insert_value` between the two examples, so `insertion_sort`
    uses whichever is current; here the version is an explicit argument. */
module InsertionSort {
  import opened Common

  /** The position the linear `insert_value` stops at: the first element
      strictly greater than `value`, or the end. */
  function FirstGreater(arr: seq<int>, value: int): (i: nat)
    ensures i <= |arr|
    ensures forall j :: 0 <= j < i ==> arr[j] <= value
    ensures i < |arr| ==> arr[i] > value
    decreases |arr|
  {
    if |arr| == 0 || arr[0] > value then 0 else 1 + FirstGreater(arr[1..], value)
  }

  /** `arr[..i] + [value] + arr[i..]`, what `list.insert(i, value)`
      leaves behind. */
  function InsertAt(arr: seq<int>, i: nat, value: int): (r: seq<int>)
    requires i <= |arr|
    ensures |r| == |arr| + 1 && r[i] == value
    ensures r[..i] == arr[..i] && r[i + 1..] == arr[i..]
    ensures multiset(r) == multiset(arr) + multiset{value}
  {
    assert arr == arr[..i] + arr[i..];
    arr[..i] + [value] + arr[i..]
  }

  /** Example 2: insert before the first strictly greater element, or
      append. */
  function InsertLinear(arr: seq<int>, value: int): (r: seq<int>)
    ensures |r| == |arr| + 1
    ensures multiset(r) == multiset(arr) + multiset{value}
  {
    InsertAt(arr, FirstGreater(arr, value), value)
  }

  /** The linear version puts `value` at the one position where everything
      before is not greater and the element after, if any, is greater. */
  lemma InsertLinearPosition(arr: seq<int>, value: int, i: nat)
    requires i <= |arr|
    requires forall j :: 0 <= j < i ==> arr[j] <= value
    requires i < |arr| ==> arr[i] > value
    ensures InsertLinear(arr, value) == InsertAt(arr, i, value)
  {
  }

  /** Example 6: insert at `bisect_left(arr, value)`. */
  function InsertBisect(arr: seq<int>, value: int): (r: seq<int>)
    ensures |r| == |arr| + 1
    ensures multiset(r) == multiset(arr) + multiset{value}
  {
    InsertAt(arr, BisectLeft(arr, value as real), value)
  }

  /** On a sorted arr the bisect version puts `value` at the one position
      where everything before is smaller and the element after, if any, is
      not. */
  lemma InsertBisectPosition(arr: seq<int>, value: int, i: nat)
    requires Sorted(arr) && i <= |arr|
    requires forall j :: 0 <= j < i ==> arr[j] < value
    requires i < |arr| ==> arr[i] >= value
    ensures InsertBisect(arr, value) == InsertAt(arr, i, value)
  {
  }

  /** Inserting at a position that splits a sorted arr into the elements
      not above and the elements not below the value keeps it sorted. */
  lemma InsertAtSorted(arr: seq<int>, i: nat, value: int)
    requires Sorted(arr) && i <= |arr|
    requires forall j :: 0 <= j < i ==> arr[j] <= value
    requires forall j :: i <= j < |arr| ==> arr[j] >= value
    ensures Sorted(InsertAt(arr, i, value))
  {
    var r := InsertAt(arr, i, value);
    forall a, b | 0 <= a < b < |r| ensures r[a] <= r[b] {
      if a < i && b > i {
        assert r[a] == arr[a] && r[b] == arr[b - 1];
      } else if a < i {
        assert r[a] == arr[a];
      } else if a == i {
        assert r[b] == arr[b - 1];
      } else {
        assert r[a] == arr[a - 1] && r[b] == arr[b - 1];
      }
    }
  }

  /** On a sorted arr the linear `insert_value` keeps it sorted. */
  lemma InsertLinearSorted(arr: seq<int>, value: int)
    requires Sorted(arr)
    ensures Sorted(InsertLinear(arr, value))
  {
    InsertAtSorted(arr, FirstGreater(arr, value), value);
  }

  /** On a sorted arr the bisect `insert_value` keeps it sorted. */
  lemma InsertBisectSorted(arr: seq<int>, value: int)
    requires Sorted(arr)
    ensures Sorted(InsertBisect(arr, value))
  {
    InsertAtSorted(arr, BisectLeft(arr, value as real), value);
  }

  /** On a sorted arr both versions give the same list: one inserts after
      the equal elements and the other before them, which cannot be told
      apart. */
  lemma InsertVersionsAgree(arr: seq<int>, value: int)
    requires Sorted(arr)
    ensures InsertLinear(arr, value) == InsertBisect(arr, value)
  {
    InsertLinearSorted(arr, value);
    InsertBisectSorted(arr, value);
    SortedPermutationsEqual(InsertLinear(arr, value), InsertBisect(arr, value));
  }

  datatype Version = Linear | Bisect

  function InsertValue(version: Version, arr: seq<int>, value: int): seq<int> {
    match version
    case Linear => InsertLinear(arr, value)
    case Bisect => InsertBisect(arr, value)
  }

  lemma InsertValueSorted(version: Version, arr: seq<int>, value: int)
    requires Sorted(arr)
    ensures Sorted(InsertValue(version, arr, value))
    ensures multiset(InsertValue(version, arr, value)) == multiset(arr) + multiset{value}
  {
    match version {
      case Linear => InsertLinearSorted(arr, value);
      case Bisect => InsertBisectSorted(arr, value);
    }
  }

  /** `insertion_sort(data)`: insert each value, in order, into a fresh
      result list. The answer is sorted and holds exactly the input's
      elements, which determines it (SortedPermutationsEqual), so both
      versions return the same list. */
  method InsertionSortMethod(data: seq<int>, version: Version) returns (result: seq<int>)
    ensures Sorted(result)
    ensures multiset(result) == multiset(data)
  {
    result := [];
    for k := 0 to |data|
      invariant Sorted(result)
      invariant multiset(result) == multiset(data[..k])
    {
      var value := data[k];
      assert data[..k + 1] == data[..k] + [value];
      assert multiset(data[..k + 1]) == multiset(data[..k]) + multiset{value};
      InsertValueSorted(version, result, value);
      result := InsertValue(version, result, value);
    }
    assert data[..|data|] == data;
  }

  /** The sort as a function, for stating facts across several calls. */
  function InsertionSort(data: seq<int>): (r: seq<int>)
    ensures |r| == |data|
    decreases |data|
  {
    if |data| == 0 then []
    else InsertLinear(InsertionSort(data[..|data| - 1]), data[|data| - 1])
  }

  lemma {:induction false} InsertionSortSortsAndPermutes(data: seq<int>)
    ensures Sorted(InsertionSort(data))
    ensures multiset(InsertionSort(data)) == multiset(data)
    decreases |data|
  {
    if |data| > 0 {
      var init, last := data[..|data| - 1], data[|data| - 1];
      InsertionSortSortsAndPermutes(init);
      InsertLinearSorted(InsertionSort(init), last);
      LastSplit(data);
    }
  }

  lemma LastSplit(data: seq<int>)
    requires |data| > 0
    ensures multiset(data) == multiset(data[..|data| - 1]) + multiset{data[|data| - 1]}
  {
    assert data == data[..|data| - 1] + [data[|data| - 1]];
  }

  /** Sorting an already sorted list gives it back, and sorting twice is
      sorting once. */
  lemma InsertionSortIdempotent(data: seq<int>)
    ensures Sorted(data) ==> InsertionSort(data) == data
    ensures InsertionSort(InsertionSort(data)) == InsertionSort(data)
  {
    InsertionSortSortsAndPermutes(data);
    InsertionSortSortsAndPermutes(InsertionSort(data));
    if Sorted(data) {
      SortedPermutationsEqual(InsertionSort(data), data);
    }
    SortedPermutationsEqual(InsertionSort(InsertionSort(data)), InsertionSort(data));
  }
}

=== FILE: life.dfy ===
/** Conway's Game of Life on a toroidal grid (Item56.py): the grid with
    wrap-around addressing, the neighbour count, the birth/death rule, one cell
    step and one whole-grid generation. */
module Life {
  import opened Common

  /** A cell is ALIVE (`'*'`) or EMPTY (`'-'`). */
  datatype Cell = Alive | Empty

  function Symbol(c: Cell): char {
    match c
    case Alive => '*'
    case Empty => '-'
  }

  /** The grid as the source stores it: its dimensions and its rows of cells. */
  datatype Grid = Grid(height: int, width: int, rows: seq<seq<Cell>>)

  /** `rows` holds `height` rows of `width` cells each. */
  predicate Shaped(g: Grid) {
    |g.rows| == g.height && forall i :: 0 <= i < |g.rows| ==> |g.rows[i]| == g.width
  }

  /** A dimension as `range` and `[EMPTY] * n` read it: a negative count is none. */
  function Dim(n: int): nat {
    if n < 0 then 0 else n
  }

  /** The layout every grid of the source has: `Dim(height)` rows of
      `Dim(width)` cells each. Only `set` writes to a grid, and it replaces a
      cell, never a row's length. */
  predicate Laid(g: Grid) {
    |g.rows| == Dim(g.height) && forall i :: 0 <= i < |g.rows| ==> |g.rows[i]| == Dim(g.width)
  }

  /** A grid every integer coordinate can be addressed in: `y % height` and
      `x % width` need non-zero dimensions. */
  type Board = g: Grid | Shaped(g) && g.height > 0 && g.width > 0
    witness Grid(1, 1, [[Empty]])

  /** `Grid(height, width)`: `height` rows of `width` EMPTY cells (a negative
      count gives no rows, or empty rows, as Python's `range` and `*` do). */
  function NewGrid(height: int, width: int): (g: Grid)
    ensures g.height == height && g.width == width
    ensures |g.rows| == if height < 0 then 0 else height
    ensures forall i :: 0 <= i < |g.rows| ==> |g.rows[i]| == if width < 0 then 0 else width
    ensures forall i, j :: 0 <= i < |g.rows| && 0 <= j < |g.rows[i]| ==> g.rows[i][j] == Empty
    ensures Laid(g)
    ensures height > 0 && width > 0 ==> Shaped(g)
  {
    var h := if height < 0 then 0 else height;
    var w := if width < 0 then 0 else width;
    Grid(height, width, seq(h, _ => seq(w, _ => Empty)))
  }

  /** `get(y, x)`: the cell at `rows[y mod height][x mod width]`. Python's `%`
      with a positive divisor is Dafny's Euclidean `%`. */
  function Get(g: Board, y: int, x: int): (r: Cell)
    ensures 0 <= y < g.height && 0 <= x < g.width ==> r == g.rows[y][x]
  {
    ModInRange(y, g.height);
    ModInRange(x, g.width);
    g.rows[y % g.height][x % g.width]
  }

  /** `set(y, x, state)`: the same grid with only the addressed cell replaced. */
  function Set(g: Board, y: int, x: int, state: Cell): (r: Board)
    ensures r.height == g.height && r.width == g.width
    ensures Get(r, y, x) == state
    ensures forall i, j ::
      0 <= i < g.height && 0 <= j < g.width && (i != y % g.height || j != x % g.width) ==>
        r.rows[i][j] == g.rows[i][j]
  {
    var i := y % g.height;
    Grid(g.height, g.width, g.rows[i := g.rows[i][x % g.width := state]])
  }

  /** Addressing wraps: shifting a coordinate by whole grid sizes, in either
      direction, reaches the same cell, so every integer coordinate (including
      -1) lands on the torus. */
  lemma GetWrapsAround(g: Board, y: int, x: int, a: int, b: int)
    ensures Get(g, y + a * g.height, x + b * g.width) == Get(g, y, x)
    ensures 0 <= y % g.height < g.height && 0 <= x % g.width < g.width
  {
    ModShift(y, a, g.height);
    ModShift(x, b, g.width);
  }

  /** `a % m` and `a / m` are the only remainder and quotient of `a` by `m`. */
  lemma ModUnique(a: int, m: int, q: int, r: int)
    requires m > 0 && a == q * m + r && 0 <= r < m
    ensures a % m == r && a / m == q
  {
    var q', r' := a / m, a % m;
    assert a == q' * m + r';
    assert (q - q') * m == r' - r;
    if q > q' {
      MulAtLeast(q - q', m);
      assert false;
    } else if q < q' {
      MulAtLeast(q' - q, m);
      assert false;
    }
  }

  lemma MulAtLeast(k: int, m: int)
    requires k >= 1 && m > 0
    ensures k * m >= m
  {
    assert k * m == (k - 1) * m + m;
    assert (k - 1) * m >= 0;
  }

  /** A value already in `[0, m)` is its own remainder. */
  lemma ModInRange(v: int, m: int)
    requires m > 0
    ensures 0 <= v < m ==> v % m == v
  {
    if 0 <= v < m {
      ModUnique(v, m, 0, v);
    }
  }

  lemma ModShift(v: int, k: int, m: int)
    requires m > 0
    ensures (v + k * m) % m == v % m
  {
    var q := v / m;
    assert v == q * m + v % m;
    assert v + k * m == (q + k) * m + v % m;
    ModUnique(v + k * m, m, q + k, v % m);
  }

  /** A `get` after a `set` sees the new state at the same wrapped position and
      the old state everywhere else. */
  lemma SetThenGet(g: Board, y: int, x: int, state: Cell, y': int, x': int)
    ensures Get(Set(g, y, x, state), y', x') ==
      if y' % g.height == y % g.height && x' % g.width == x % g.width
      then state else Get(g, y', x')
  {
  }

  /** The eight positions `count_neighbors` reads, in the source's order
      N, NE, E, SE, S, SW, W, NW. */
  function Neighbors(y: int, x: int): seq<(int, int)> {
    [(y - 1, x), (y - 1, x + 1), (y, x + 1), (y + 1, x + 1),
     (y + 1, x), (y + 1, x - 1), (y, x - 1), (y - 1, x - 1)]
  }

  /** How many of the positions in `ps` are ALIVE according to `get`. */
  function CountAlive(ps: seq<(int, int)>, get: (int, int) -> Cell): (n: nat)
    ensures n <= |ps|
  {
    if |ps| == 0 then 0
    else (if get(ps[0].0, ps[0].1) == Alive then 1 else 0) + CountAlive(ps[1..], get)
  }

  /** The positions of `ps` that `get` reports ALIVE. */
  ghost function AliveAmong(ps: seq<(int, int)>, get: (int, int) -> Cell): set<(int, int)> {
    set p | p in ps && get(p.0, p.1) == Alive
  }

  lemma {:induction false} CountAliveIsSetSize(ps: seq<(int, int)>, get: (int, int) -> Cell)
    requires Distinct(ps)
    ensures CountAlive(ps, get) == |AliveAmong(ps, get)|
    decreases |ps|
  {
    if |ps| > 0 {
      var rest := ps[1..];
      assert Distinct(rest) by {
        forall i, j | 0 <= i < j < |rest| ensures rest[i] != rest[j] {
          assert rest[i] == ps[i + 1] && rest[j] == ps[j + 1];
        }
      }
      CountAliveIsSetSize(rest, get);
      assert ps[0] !in rest by {
        forall k | 0 <= k < |rest| ensures rest[k] != ps[0] {
          assert rest[k] == ps[k + 1];
        }
      }
      if get(ps[0].0, ps[0].1) == Alive {
        assert AliveAmong(ps, get) == AliveAmong(rest, get) + {ps[0]};
      } else {
        assert AliveAmong(ps, get) == AliveAmong(rest, get);
      }
    }
  }

  /** `count_neighbors(y, x, get)`: the number of ALIVE cells among the eight
      surrounding positions, hence at most 8. */
  function CountNeighbors(y: int, x: int, get: (int, int) -> Cell): (n: nat)
    ensures n <= 8
    ensures n == |AliveAmong(Neighbors(y, x), get)|
  {
    CountAliveIsSetSize(Neighbors(y, x), get);
    CountAlive(Neighbors(y, x), get)
  }

  /** The count reads nothing but the eight surrounding positions: two `get`
      functions that agree there give the same count. */
  lemma {:induction false} CountNeighborsReadsOnlyNeighbors(
    y: int, x: int, get1: (int, int) -> Cell, get2: (int, int) -> Cell)
    requires forall p :: p in Neighbors(y, x) ==> get1(p.0, p.1) == get2(p.0, p.1)
    ensures CountNeighbors(y, x, get1) == CountNeighbors(y, x, get2)
  {
    assert AliveAmong(Neighbors(y, x), get1) == AliveAmong(Neighbors(y, x), get2);
  }

  /** The `get` of the source's test: ALIVE exactly on the positions in `alive`. */
  function FakeGet(alive: set<(int, int)>): (int, int) -> Cell {
    (y: int, x: int) => if (y, x) in alive then Alive else Empty
  }

  /** The source's check: with (9, 5) and (9, 6) alive, cell (10, 5) has two
      neighbours, and the positions read are the eight around it. */
  lemma CountNeighborsExample()
    ensures CountNeighbors(10, 5, FakeGet({(9, 5), (9, 6)})) == 2
    ensures (set p | p in Neighbors(10, 5)) ==
      {(9, 5), (9, 6), (10, 6), (11, 6), (11, 5), (11, 4), (10, 4), (9, 4)}
  {
    assert CountAlive(Neighbors(10, 5), FakeGet({(9, 5), (9, 6)})) == 2;
  }

  /** `game_logic(state, neighbors)`: a live cell dies with fewer than two or
      more than three neighbours, an empty cell with exactly three comes alive,
      every other cell keeps its state. */
  function GameLogic(state: Cell, neighbors: int): (r: Cell)
    ensures state == Alive && (neighbors < 2 || neighbors > 3) ==> r == Empty
    ensures state == Empty && neighbors == 3 ==> r == Alive
    ensures (state == Alive && 2 <= neighbors <= 3) || (state == Empty && neighbors != 3) ==> r == state
  {
    if state == Alive then
      if neighbors < 2 then Empty
      else if neighbors > 3 then Empty
      else state
    else
      if neighbors == 3 then Alive
      else state
  }

  /** The rule is Conway's B3/S23: the next state is ALIVE exactly when there
      are three neighbours, or two and the cell is already alive. */
  lemma GameLogicIsB3S23(state: Cell, neighbors: int)
    ensures GameLogic(state, neighbors) == Alive <==>
      neighbors == 3 || (state == Alive && neighbors == 2)
  {
  }

  /** The truth table asserted in the source. */
  lemma GameLogicTable()
    ensures GameLogic(Alive, 0) == Empty && GameLogic(Alive, 1) == Empty
    ensures GameLogic(Alive, 2) == Alive && GameLogic(Alive, 3) == Alive
    ensures GameLogic(Alive, 4) == Empty
    ensures GameLogic(Empty, 0) == Empty && GameLogic(Empty, 1) == Empty
    ensures GameLogic(Empty, 2) == Empty && GameLogic(Empty, 3) == Alive
    ensures GameLogic(Empty, 4) == Empty
  {
  }

  /** The state `step_cell` writes for position (y, x). */
  function NextState(y: int, x: int, get: (int, int) -> Cell): Cell {
    GameLogic(get(y, x), CountNeighbors(y, x, get))
  }

  /** `step_cell(y, x, get, set)` with `set` writing into `next`: the rule
      applied to (y, x) lands at (y, x) of `next`, and nothing else of `next`
      changes. */
  function StepCell(y: int, x: int, get: (int, int) -> Cell, next: Board): (r: Board)
    ensures r.height == next.height && r.width == next.width
    ensures Get(r, y, x) == GameLogic(get(y, x), CountNeighbors(y, x, get))
    ensures forall i, j ::
      0 <= i < next.height && 0 <= j < next.width && (i != y % next.height || j != x % next.width) ==>
        r.rows[i][j] == next.rows[i][j]
  {
    Set(next, y, x, NextState(y, x, get))
  }

  /** The first `step_cell` check of the source: a live cell with two live
      neighbours stays alive. */
  lemma StepCellStaysAlive()
    ensures NextState(10, 5, FakeGet({(10, 5), (9, 5), (9, 6)})) == Alive
  {
    assert CountAlive(Neighbors(10, 5), FakeGet({(10, 5), (9, 5), (9, 6)})) == 2;
  }

  /** The second check: an empty cell with two live neighbours stays empty. */
  lemma StepCellStaysEmpty()
    ensures NextState(10, 5, FakeGet({(9, 5), (9, 6)})) == Empty
  {
    assert CountAlive(Neighbors(10, 5), FakeGet({(9, 5), (9, 6)})) == 2;
  }

  /** The third check: an empty cell with three live neighbours comes alive. */
  lemma StepCellRegenerates()
    ensures NextState(10, 5, FakeGet({(9, 5), (9, 6), (10, 6)})) == Alive
  {
    assert CountAlive(Neighbors(10, 5), FakeGet({(9, 5), (9, 6), (10, 6)})) == 3;
  }

  /** The grid's `get` as a function value. */
  function Getter(g: Board): (int, int) -> Cell {
    (y: int, x: int) => Get(g, y, x)
  }

  /** Inside the grid, `get` reads the stored cell directly. */
  lemma GetInRange(g: Board, y: int, x: int)
    requires 0 <= y < g.height && 0 <= x < g.width
    ensures y % g.height == y && x % g.width == x
    ensures Getter(g)(y, x) == g.rows[y][x]
  {
    ModUnique(y, g.height, 0, y);
    ModUnique(x, g.width, 0, x);
  }

  /** Cell (i, j) of `next` already holds the next generation of `g`. */
  predicate Stepped(g: Board, next: Board, i: int, j: int)
    requires next.height == g.height && next.width == g.width
    requires 0 <= i < g.height && 0 <= j < g.width
  {
    next.rows[i][j] == NextState(i, j, Getter(g))
  }

  lemma SteppedFrame(g: Board, a: Board, b: Board, i: int, j: int)
    requires a.height == g.height && a.width == g.width
    requires b.height == g.height && b.width == g.width
    requires 0 <= i < g.height && 0 <= j < g.width
    requires a.rows[i][j] == b.rows[i][j]
    ensures Stepped(g, a, i, j) == Stepped(g, b, i, j)
  {
  }

  /** The inner loop of `simulate`: steps every cell of row `y` into `next`,
      leaving the other rows as they were. */
  method StepRow(g: Board, next: Board, y: int) returns (r: Board)
    requires next.height == g.height && next.width == g.width
    requires 0 <= y < g.height
    ensures r.height == g.height && r.width == g.width
    ensures forall j :: 0 <= j < g.width ==> Stepped(g, r, y, j)
    ensures forall i, j :: 0 <= i < g.height && i != y && 0 <= j < g.width ==>
      r.rows[i][j] == next.rows[i][j]
  {
    r := next;
    var x := 0;
    while x < g.width
      invariant 0 <= x <= g.width
      invariant r.height == g.height && r.width == g.width
      invariant forall j :: 0 <= j < x ==> Stepped(g, r, y, j)
      invariant forall i, j :: 0 <= i < g.height && i != y && 0 <= j < g.width ==>
        r.rows[i][j] == next.rows[i][j]
    {
      GetInRange(g, y, x);
      var prev := r;
      r := StepCell(y, x, Getter(g), prev);
      forall j | 0 <= j < x
        ensures Stepped(g, r, y, j)
      {
        assert r.rows[y][j] == prev.rows[y][j];
        SteppedFrame(g, prev, r, y, j);
      }
      forall i, j | 0 <= i < g.height && i != y && 0 <= j < g.width
        ensures r.rows[i][j] == next.rows[i][j]
      {
        assert r.rows[i][j] == prev.rows[i][j];
      }
      x := x + 1;
    }
  }

  /** `simulate(grid)`: a fresh grid of the same size in which every cell is
      the rule applied to the old grid's cell and its old neighbours. The old
      grid is a value and cannot be written to. A grid with no rows or empty
      rows has no cell to step, so its next grid is a fresh grid of the same
      dimensions and no `get` or `set` is made. */
  method Simulate(g: Grid) returns (next: Grid)
    requires Laid(g)
    ensures next.height == g.height && next.width == g.width
    ensures Laid(next)
    ensures g.height > 0 && g.width > 0 ==> Shaped(g) && forall y, x :: 0 <= y < g.height && 0 <= x < g.width ==>
      next.rows[y][x] == GameLogic(g.rows[y][x], CountNeighbors(y, x, Getter(g)))
  {
    if g.height <= 0 || g.width <= 0 {
      return NewGrid(g.height, g.width);
    }
    assert Shaped(g);
    next := SimulateBoard(g);
  }

  /** The two loops of `simulate` on a grid with at least one cell. */
  method SimulateBoard(g: Board) returns (next: Board)
    ensures next.height == g.height && next.width == g.width
    ensures forall y, x :: 0 <= y < g.height && 0 <= x < g.width ==>
      next.rows[y][x] == GameLogic(g.rows[y][x], CountNeighbors(y, x, Getter(g)))
  {
    next := NewGrid(g.height, g.width);
    var y := 0;
    while y < g.height
      invariant 0 <= y <= g.height
      invariant next.height == g.height && next.width == g.width
      invariant forall i, j :: 0 <= i < y && 0 <= j < g.width ==> Stepped(g, next, i, j)
    {
      var prev := next;
      next := StepRow(g, prev, y);
      forall i, j | 0 <= i < y && 0 <= j < g.width
        ensures Stepped(g, next, i, j)
      {
        SteppedFrame(g, prev, next, i, j);
      }
      y := y + 1;
    }
    forall y, x | 0 <= y < g.height && 0 <= x < g.width
      ensures next.rows[y][x] == GameLogic(g.rows[y][x], CountNeighbors(y, x, Getter(g)))
    {
      assert Stepped(g, next, y, x);
      GetInRange(g, y, x);
    }
  }

  /** One row of `__str__`: the symbol of each cell. */
  function RenderRow(row: seq<Cell>): (s: string)
    ensures |s| == |row|
    ensures forall j :: 0 <= j < |row| ==> s[j] == Symbol(row[j])
  {
    seq(|row|, j requires 0 <= j < |row| => Symbol(row[j]))
  }

  /** `__str__`: every row's symbols followed by a newline. */
  function Render(rows: seq<seq<Cell>>): string {
    if |rows| == 0 then "" else RenderRow(rows[0]) + "\n" + Render(rows[1..])
  }

  /** Where line `y` starts in text whose lines hold `width` symbols and
      a newline: `y * (width + 1)`, written by repeated addition. */
  function Offset(y: nat, width: nat): (n: nat)
    decreases y
  {
    if y == 0 then 0 else Offset(y - 1, width) + width + 1
  }

  lemma {:induction false} OffsetIsProduct(y: nat, width: nat)
    ensures Offset(y, width) == y * (width + 1)
    decreases y
  {
    if y > 0 {
      OffsetIsProduct(y - 1, width);
    }
  }

  lemma {:induction false} OffsetMonotone(y: nat, n: nat, width: nat)
    requires y <= n
    ensures Offset(y, width) <= Offset(n, width)
    decreases n - y
  {
    if y < n {
      OffsetMonotone(y, n - 1, width);
    }
  }

  lemma {:induction false} RenderLength(rows: seq<seq<Cell>>, width: nat)
    requires forall i :: 0 <= i < |rows| ==> |rows[i]| == width
    ensures |Render(rows)| == Offset(|rows|, width)
    decreases |rows|
  {
    if |rows| > 0 {
      RenderLength(rows[1..], width);
    }
  }

  lemma SliceAfterHead(head: string, tail: string, i: nat, j: nat)
    requires i <= j <= |tail|
    ensures (head + tail)[|head| + i .. |head| + j] == tail[i..j]
  {
  }

  /** For rows all `width` long, line `y` of the text is row `y`'s symbols
      followed by a newline. */
  lemma {:induction false} RenderLine(rows: seq<seq<Cell>>, width: nat, y: nat)
    requires forall i :: 0 <= i < |rows| ==> |rows[i]| == width
    requires y < |rows|
    ensures Offset(y, width) + width + 1 <= |Render(rows)|
    ensures Render(rows)[Offset(y, width) .. Offset(y, width) + width + 1] == RenderRow(rows[y]) + "\n"
    decreases y
  {
    var w := width + 1;
    RenderLength(rows, width);
    OffsetMonotone(y + 1, |rows|, width);
    var head := RenderRow(rows[0]) + "\n";
    var rest := rows[1..];
    assert Render(rows) == head + Render(rest);
    assert |head| == w;
    if y > 0 {
      RenderLine(rest, width, y - 1);
      SliceAfterHead(head, Render(rest), Offset(y - 1, width), Offset(y - 1, width) + w);
      assert rest[y - 1] == rows[y];
    }
  }

  /** `str(grid)`: one line per row, line `y` being the symbols of row `y`
      followed by a newline, so `Dim(height)` lines of `Dim(width) + 1`
      characters: "" for a grid without rows, only newlines for one with
      empty rows. */
  function ToString(g: Grid): (s: string)
    ensures s == "" <==> |g.rows| == 0
    ensures Laid(g) ==> |s| == Offset(Dim(g.height), Dim(g.width))
    ensures Laid(g) ==> forall y :: 0 <= y < Dim(g.height) ==>
      Offset(y, Dim(g.width)) + Dim(g.width) + 1 <= |s|
    ensures Laid(g) ==> forall y :: 0 <= y < Dim(g.height) ==>
      s[Offset(y, Dim(g.width)) .. Offset(y, Dim(g.width)) + Dim(g.width) + 1] == RenderRow(g.rows[y]) + "\n"
  {
    RenderLaid(g);
    Render(g.rows)
  }

  /** The line layout of the rendering of a laid-out grid. */
  lemma RenderLaid(g: Grid)
    ensures Laid(g) ==> |Render(g.rows)| == Offset(Dim(g.height), Dim(g.width))
    ensures Laid(g) ==> forall y :: 0 <= y < Dim(g.height) ==>
      Offset(y, Dim(g.width)) + Dim(g.width) + 1 <= |Render(g.rows)|
    ensures Laid(g) ==> forall y :: 0 <= y < Dim(g.height) ==>
      Render(g.rows)[Offset(y, Dim(g.width)) .. Offset(y, Dim(g.width)) + Dim(g.width) + 1] == RenderRow(g.rows[y]) + "\n"
  {
    if Laid(g) {
      RenderLength(g.rows, Dim(g.width));
      forall y | 0 <= y < Dim(g.height)
        ensures Offset(y, Dim(g.width)) + Dim(g.width) + 1 <= |Render(g.rows)|
        ensures Render(g.rows)[Offset(y, Dim(g.width)) .. Offset(y, Dim(g.width)) + Dim(g.width) + 1] == RenderRow(g.rows[y]) + "\n"
      {
        RenderLine(g.rows, Dim(g.width), y);
      }
    }
  }

  /** The text has `height * (width + 1)` characters, dimensions read as
      `range` reads them: `str(Grid(3, 0))` is three newlines and
      `str(Grid(0, 4))` is empty. */
  lemma ToStringLength(g: Grid)
    requires Laid(g)
    ensures |ToString(g)| == Dim(g.height) * (Dim(g.width) + 1)
    ensures g.height > 0 && g.width >= 0 ==> |ToString(g)| == g.height * (g.width + 1)
    ensures g.height <= 0 ==> ToString(g) == ""
  {
    OffsetIsProduct(Dim(g.height), Dim(g.width));
  }

  /** `str` of a grid with empty rows and of a grid with no rows. */
  lemma ToStringEmptyGrids()
    ensures ToString(NewGrid(3, 0)) == "\n\n\n"
    ensures ToString(NewGrid(0, 4)) == ""
  {
    var g := NewGrid(3, 0);
    assert g.rows == [[], [], []];
    assert Render(g.rows[2..]) == "\n";
    assert Render(g.rows[1..]) == "\n\n";
  }
}

=== FILE: missing.dfy ===
/** `increment_with_report` and the `CountMissing` / `BetterCountMissing`
    counters of Item38.py: a `defaultdict` seeded with `current` receives
    `(key, amount)` increments, and its default factory counts how many
    keys it had to create. */
module CountMissing {
  import opened Common
  import opened PyDict

  /** The state of `CountMissing` and `BetterCountMissing`, and of the
      closure's `nonlocal added_count`. */
  datatype Counter = Counter(added: nat)

  /** `CountMissing.missing()` and `BetterCountMissing.__call__()`: the
      default value 0, counting the call. */
  function Missing(c: Counter): (r: (int, Counter))
    ensures r.0 == 0 && r.1.added == c.added + 1
  {
    (0, Counter(c.added + 1))
  }

  /** The keys that occur among the increments. */
  function IncrementKeys(increments: seq<(string, int)>): (keys: set<string>)
    ensures forall i :: 0 <= i < |increments| ==> increments[i].0 in keys
    ensures forall k :: k in keys ==> exists i :: 0 <= i < |increments| && increments[i].0 == k
    decreases |increments|
  {
    if |increments| == 0 then {}
    else
      var rest := IncrementKeys(increments[1..]);
      assert forall i :: 1 <= i < |increments| ==> increments[i] == increments[1..][i - 1];
      {increments[0].0} + rest
  }

  /** The total of the amounts given for `key`. */
  function AmountFor(increments: seq<(string, int)>, key: string): int
    decreases |increments|
  {
    if |increments| == 0 then 0
    else (if increments[0].0 == key then increments[0].1 else 0) + AmountFor(increments[1..], key)
  }

  /** `current.get(key, 0)`. */
  function GetOrZero(d: Dict<int>, key: string): int {
    if key in d.values then d.values[key] else 0
  }

  /** `result[key] += amount` on the defaultdict: a missing key is first
      created with the counter's default. */
  function Increment(d: Dict<int>, c: Counter, key: string, amount: int): (r: (Dict<int>, Counter))
    requires Valid(d)
    ensures Valid(r.0)
    ensures Get(r.0, key) == Some(GetOrZero(d, key) + amount)
    ensures forall k :: k != key ==> Get(r.0, k) == Get(d, k)
    ensures r.0.values.Keys == d.values.Keys + {key}
    ensures r.1.added == c.added + (if key in d.values then 0 else 1)
  {
    if key in d.values then (Set(d, key, d.values[key] + amount), c)
    else
      var (zero, c1) := Missing(c);
      (Set(d, key, zero + amount), c1)
  }

  /** The loop `for key, amount in increments: result[key] += amount`. */
  function ApplyIncrements(d: Dict<int>, c: Counter, increments: seq<(string, int)>): (r: (Dict<int>, Counter))
    requires Valid(d)
    ensures Valid(r.0)
    decreases |increments|
  {
    if |increments| == 0 then (d, c)
    else
      var r1 := Increment(d, c, increments[0].0, increments[0].1);
      ApplyIncrements(r1.0, r1.1, increments[1..])
  }

  /** The keys afterwards are the old ones and the incremented ones. */
  lemma {:induction false} ApplyIncrementsKeys(d: Dict<int>, c: Counter, increments: seq<(string, int)>)
    requires Valid(d)
    ensures forall k :: k in ApplyIncrements(d, c, increments).0.values <==> k in d.values || k in IncrementKeys(increments)
    decreases |increments|
  {
    if |increments| > 0 {
      var r1 := Increment(d, c, increments[0].0, increments[0].1);
      ApplyIncrementsKeys(r1.0, r1.1, increments[1..]);
    }
  }

  /** Each key ends up with its old value, 0 if it was absent, plus all
      its amounts. */
  lemma {:induction false} ApplyIncrementsValues(d: Dict<int>, c: Counter, increments: seq<(string, int)>)
    requires Valid(d)
    ensures var r := ApplyIncrements(d, c, increments).0;
      forall k :: k in r.values ==> r.values[k] == GetOrZero(d, k) + AmountFor(increments, k)
    decreases |increments|
  {
    if |increments| > 0 {
      var r1 := Increment(d, c, increments[0].0, increments[0].1);
      ApplyIncrementsValues(r1.0, r1.1, increments[1..]);
      var r := ApplyIncrements(d, c, increments).0;
      assert r == ApplyIncrements(r1.0, r1.1, increments[1..]).0;
      forall k | k in r.values ensures r.values[k] == GetOrZero(d, k) + AmountFor(increments, k) {
        assert r.values[k] == GetOrZero(r1.0, k) + AmountFor(increments[1..], k);
        if k == increments[0].0 {
          assert Get(r1.0, k) == Some(GetOrZero(d, k) + increments[0].1);
        } else {
          assert Get(r1.0, k) == Get(d, k);
        }
      }
    } else {
      forall k | k in d.values ensures AmountFor(increments, k) == 0 { }
    }
  }

  /** The counter grows by the number of distinct incremented keys that
      were absent. */
  lemma {:induction false} ApplyIncrementsAdded(d: Dict<int>, c: Counter, increments: seq<(string, int)>)
    requires Valid(d)
    ensures ApplyIncrements(d, c, increments).1.added == c.added + |IncrementKeys(increments) - d.values.Keys|
    decreases |increments|
  {
    if |increments| > 0 {
      var key := increments[0].0;
      var r1 := Increment(d, c, key, increments[0].1);
      var total := ApplyIncrements(r1.0, r1.1, increments[1..]).1.added;
      ApplyIncrementsAdded(r1.0, r1.1, increments[1..]);
      NewKeysSplit(d.values.Keys, key, IncrementKeys(increments[1..]), r1.0.values.Keys,
                   IncrementKeys(increments), c.added, r1.1.added, total);
    }
  }

  /** Counting the absent keys one increment at a time. */
  lemma NewKeysSplit(before: set<string>, key: string, rest: set<string>, after: set<string>,
                     all: set<string>, added0: nat, added1: nat, total: nat)
    requires after == before + {key} && all == {key} + rest
    requires added1 == added0 + (if key in before then 0 else 1)
    requires total == added1 + |rest - after|
    ensures total == added0 + |all - before|
  {
    if key in before {
      assert all - before == rest - after;
    } else {
      assert all - before == {key} + (rest - after);
    }
  }

  /** `increment_with_report(current, increments)`: the updated mapping
      and the number of keys the default factory created. */
  function IncrementWithReport(current: Dict<int>, increments: seq<(string, int)>): (r: (Dict<int>, nat))
    requires Valid(current)
    ensures Valid(r.0)
    ensures forall k :: k in r.0.values <==> k in current.values || k in IncrementKeys(increments)
    ensures forall k :: k in r.0.values ==> r.0.values[k] == GetOrZero(current, k) + AmountFor(increments, k)
    ensures r.1 == |IncrementKeys(increments) - current.values.Keys|
  {
    ApplyIncrementsKeys(current, Counter(0), increments);
    ApplyIncrementsValues(current, Counter(0), increments);
    ApplyIncrementsAdded(current, Counter(0), increments);
    var (result, counter) := ApplyIncrements(current, Counter(0), increments);
    (result, counter.added)
  }

  /** Keys already in `current` are never counted as added: with no new
      keys the count is 0, and the count never exceeds the number of
      increments. */
  lemma {:induction false} AddedBounded(current: Dict<int>, increments: seq<(string, int)>)
    requires Valid(current)
    ensures IncrementWithReport(current, increments).1 <= |increments|
    ensures (forall i :: 0 <= i < |increments| ==> increments[i].0 in current.values) ==> IncrementWithReport(current, increments).1 == 0
  {
    KeysAtMostLength(increments);
    assert IncrementKeys(increments) - current.values.Keys <= IncrementKeys(increments);
    if forall i :: 0 <= i < |increments| ==> increments[i].0 in current.values {
      assert IncrementKeys(increments) - current.values.Keys == {};
    }
  }

  lemma {:induction false} KeysAtMostLength(increments: seq<(string, int)>)
    ensures |IncrementKeys(increments)| <= |increments|
    decreases |increments|
  {
    if |increments| > 0 {
      var rest := increments[1..];
      KeysAtMostLength(rest);
      if increments[0].0 in IncrementKeys(rest) {
        assert IncrementKeys(increments) == IncrementKeys(rest);
      }
    }
  }

  /** Six increments over two present keys and four absent ones, the
      shape of the example data, create exactly four keys. */
  lemma {:induction false} FourAbsentKeys(green: string, blue: string, red: string, orange: string, violet: string, white: string)
    requires green != blue
    requires red !in {green, blue} && orange !in {green, blue, red}
    requires violet !in {green, blue, red, orange} && white !in {green, blue, red, orange, violet}
    ensures var current := Dict([green, blue], map[green := 12, blue := 3]);
      Valid(current)
      && IncrementWithReport(current, [(red, 5), (blue, 17), (orange, 9), (blue, 3), (violet, 1), (white, 2)]).1 == 4
  {
    var current := Dict([green, blue], map[green := 12, blue := 3]);
    var increments := [(red, 5), (blue, 17), (orange, 9), (blue, 3), (violet, 1), (white, 2)];
    assert Valid(current);
    assert current.values.Keys == {green, blue};
    ExampleKeys(green, blue, red, orange, violet, white);
    AbsentFour(green, blue, red, orange, violet, white);
  }

  /** The keys of the example's increments, one increment at a time. */
  lemma ExampleKeys(green: string, blue: string, red: string, orange: string, violet: string, white: string)
    ensures IncrementKeys([(red, 5), (blue, 17), (orange, 9), (blue, 3), (violet, 1), (white, 2)])
      == {red} + ({blue} + ({orange} + ({blue} + ({violet} + ({white} + {})))))
  {
    var increments := [(red, 5), (blue, 17), (orange, 9), (blue, 3), (violet, 1), (white, 2)];
    var s5 := [(white, 2)];
    var s4 := [(violet, 1)] + s5;
    var s3 := [(blue, 3)] + s4;
    var s2 := [(orange, 9)] + s3;
    var s1 := [(blue, 17)] + s2;
    assert increments == [(red, 5)] + s1;
    assert s5[1..] == [] && s4[1..] == s5 && s3[1..] == s4 && s2[1..] == s3 && s1[1..] == s2 && increments[1..] == s1;
    assert IncrementKeys(s5) == {white} + {};
    assert IncrementKeys(s4) == {violet} + IncrementKeys(s5);
    assert IncrementKeys(s3) == {blue} + IncrementKeys(s4);
    assert IncrementKeys(s2) == {orange} + IncrementKeys(s3);
    assert IncrementKeys(s1) == {blue} + IncrementKeys(s2);
    assert IncrementKeys(increments) == {red} + IncrementKeys(s1);
  }

  /** The set algebra of the example, over any type. */
  lemma AbsentFour<T>(green: T, blue: T, red: T, orange: T, violet: T, white: T)
    requires green != blue
    requires red !in {green, blue} && orange !in {green, blue, red}
    requires violet !in {green, blue, red, orange} && white !in {green, blue, red, orange, violet}
    ensures |({red} + ({blue} + ({orange} + ({blue} + ({violet} + ({white} + {})))))) - {green, blue}| == 4
  {
    assert ({red} + ({blue} + ({orange} + ({blue} + ({violet} + ({white} + {})))))) - {green, blue}
      == {red, orange, violet, white};
  }

  /** Example 5 and Examples 7 and 9: four of the six increments name a key
      missing from `{'green': 12, 'blue': 3}`, so the counters end at 4. */
  lemma AddedExample()
    ensures var current := Dict(["green", "blue"], map["green" := 12, "blue" := 3]);
      Valid(current)
      && IncrementWithReport(current, [("red", 5), ("blue", 17), ("orange", 9), ("blue", 3), ("violet", 1), ("white", 2)]).1 == 4
  {
    FourAbsentKeys("green", "blue", "red", "orange", "violet", "white");
  }

  /** `BetterCountMissing()()`: a fresh counter returns 0 and has counted
      one call. */
  lemma CallExample()
    ensures Missing(Counter(0)) == (0, Counter(1))
  {
  }
}

=== FILE: polygons.dfy ===
/** The class-creation checks of Item48.py, modelled as validating
    constructors of class definitions: the `ValidatePolygon` and
    `ValidateFilledPolygon` metaclasses and the `__init_subclass__` hooks
    of `BetterPolygon` and `Filled`. */
module Polygons {
  import opened Common

  /** The attributes of a class statement that the checks read: its class
      attributes `sides` and `color` (None where the class body does not
      set them), its `is_root` flag, and whether it names base classes. */
  datatype ClassDef = ClassDef(name: string, sides: Option<int>, color: Option<string>, isRoot: bool, hasBases: bool)

  datatype Error =
    | ValueError(message: string)
    | KeyError      // `class_dict['sides']` on a body without `sides`
    | TypeError     // `None < 3`, when only the base's `sides = None` is seen

  /** The class is created, or its creation raises. */
  datatype Created = Created(c: ClassDef) | Raised(error: Error)

  const SidesMessage := "Polygons need 3+ sides"
  const FilledMessage := "Fill color must be supported"
  const ColorMessage := "Fills need a valid color"

  /** `interior_angles()`: `(sides - 2) * 180`. */
  function InteriorAngles(sides: int): int {
    (sides - 2) * 180
  }

  /** Each added side adds 180 degrees, and every valid polygon has at
      least the triangle's 180. */
  lemma InteriorAnglesGrow(sides: int)
    ensures InteriorAngles(sides + 1) == InteriorAngles(sides) + 180
    ensures sides >= 3 ==> InteriorAngles(sides) >= 180
  {
  }

  /** Examples 2 and 4: triangle, rectangle, nonagon and hexagon. */
  lemma InteriorAnglesExamples()
    ensures InteriorAngles(3) == 180 && InteriorAngles(4) == 360
    ensures InteriorAngles(9) == 1260 && InteriorAngles(6) == 720
  {
  }

  /** The sides check on a class body: `class_dict['sides'] < 3`. */
  function CheckSidesInBody(c: ClassDef): (r: Option<Error>)
    ensures r.None? <==> c.sides.Some? && c.sides.value >= 3
  {
    match c.sides
    case None => Some(KeyError)
    case Some(n) => if n < 3 then Some(ValueError(SidesMessage)) else None
  }

  /** Example 2's `ValidatePolygon`: every class with bases is checked; the
      root `Polygon` has none. */
  function ValidatePolygon(c: ClassDef): (r: Created)
    ensures r.Created? <==> !c.hasBases || (c.sides.Some? && c.sides.value >= 3)
    ensures r.Created? ==> r.c == c
  {
    if c.hasBases then
      match CheckSidesInBody(c)
      case Some(e) => Raised(e)
      case None => Created(c)
    else Created(c)
  }

  /** Example 8's `ValidatePolygon`: classes marked `is_root` are skipped. */
  function ValidatePolygonRoot(c: ClassDef): (r: Created)
    ensures r.Created? <==> c.isRoot || (c.sides.Some? && c.sides.value >= 3)
    ensures r.Created? ==> r.c == c
  {
    if !c.isRoot then
      match CheckSidesInBody(c)
      case Some(e) => Raised(e)
      case None => Created(c)
    else Created(c)
  }

  /** `ValidateFilledPolygon`: on a non-root class the colour must be red
      or green, checked before the sides; `class_dict['color']` on a body
      without `color` raises KeyError. */
  function ValidateFilledPolygon(c: ClassDef): (r: Created)
    ensures r.Created? <==> c.isRoot || (c.color in {Some("red"), Some("green")} && c.sides.Some? && c.sides.value >= 3)
    ensures r.Created? ==> r.c == c
    ensures !c.isRoot && c.color.None? ==> r == Raised(KeyError)
    ensures !c.isRoot && c.color.Some? && c.color !in {Some("red"), Some("green")} ==>
      r == Raised(ValueError(FilledMessage))
    ensures !c.isRoot && c.color in {Some("red"), Some("green")} ==> r == ValidatePolygonRoot(c)
  {
    if !c.isRoot then
      match c.color
      case None => Raised(KeyError)
      case Some(color) =>
        if color !in {"red", "green"} then Raised(ValueError(FilledMessage))
        else ValidatePolygonRoot(c)
    else ValidatePolygonRoot(c)
  }

  /** `BetterPolygon.__init_subclass__`: `cls.sides < 3`, where a class
      that sets no `sides` sees the base's None. */
  function BetterPolygonCheck(c: ClassDef): (r: Option<Error>)
    ensures r.None? <==> c.sides.Some? && c.sides.value >= 3
    ensures c.sides.None? ==> r == Some(TypeError)
  {
    match c.sides
    case None => Some(TypeError)
    case Some(n) => if n < 3 then Some(ValueError(SidesMessage)) else None
  }

  /** A subclass of `BetterPolygon` alone. */
  function BetterPolygonSubclass(c: ClassDef): (r: Created)
    ensures r.Created? <==> c.sides.Some? && c.sides.value >= 3
  {
    match BetterPolygonCheck(c)
    case Some(e) => Raised(e)
    case None => Created(c)
  }

  /** A subclass of `Filled` and `BetterPolygon` (Example 13):
      `Filled.__init_subclass__` first calls `super().__init_subclass__()`,
      which is `BetterPolygon`'s, and only then checks the colour among
      red, green and blue. */
  function FilledPolygonSubclass(c: ClassDef): (r: Created)
    ensures r.Created? <==> c.sides.Some? && c.sides.value >= 3 && c.color in {Some("red"), Some("green"), Some("blue")}
    ensures r.Created? ==> r.c == c
  {
    match BetterPolygonCheck(c)
    case Some(e) => Raised(e)
    case None =>
      if c.color !in {Some("red"), Some("green"), Some("blue")} then Raised(ValueError(ColorMessage))
      else Created(c)
  }

  /** With `__init_subclass__` the sides are reported before the colour;
      the metaclass version reports the colour first (a KeyError when the
      body sets no colour at all). */
  lemma CheckOrder(c: ClassDef)
    requires c.sides.Some? && c.sides.value < 3 && !c.isRoot
    requires c.color !in {Some("red"), Some("green"), Some("blue")}
    ensures FilledPolygonSubclass(c) == Raised(ValueError(SidesMessage))
    ensures ValidateFilledPolygon(c) == Raised(if c.color.None? then KeyError else ValueError(FilledMessage))
  {
  }

  function Subclass(name: string, sides: int, color: string): ClassDef {
    ClassDef(name, Some(sides), Some(color), false, true)
  }

  /** Examples 9 to 11 and 13 to 15. */
  lemma ClassExamples()
    ensures ValidateFilledPolygon(Subclass("GreenPentagon", 5, "green")).Created?
    ensures ValidateFilledPolygon(Subclass("OrangePentagon", 5, "orange")) == Raised(ValueError(FilledMessage))
    ensures ValidateFilledPolygon(Subclass("RedLine", 2, "red")) == Raised(ValueError(SidesMessage))
    ensures FilledPolygonSubclass(Subclass("RedTriangle", 3, "red")).Created?
    ensures FilledPolygonSubclass(Subclass("BlueLine", 2, "blue")) == Raised(ValueError(SidesMessage))
    ensures FilledPolygonSubclass(Subclass("BeigeSquare", 4, "beige")) == Raised(ValueError(ColorMessage))
  {
  }

  /** Examples 3 and 5: a line and a point are rejected, and the roots
      `Polygon` and `FilledPolygon` pass unchecked. */
  lemma RejectedShapes()
    ensures ValidatePolygon(ClassDef("Line", Some(2), None, false, true)) == Raised(ValueError(SidesMessage))
    ensures BetterPolygonSubclass(ClassDef("Point", Some(1), None, false, true)) == Raised(ValueError(SidesMessage))
    ensures ValidatePolygon(ClassDef("Polygon", None, None, false, false)).Created?
    ensures ValidateFilledPolygon(ClassDef("FilledPolygon", None, None, true, true)).Created?
    ensures ValidateFilledPolygon(ClassDef("Colourless", Some(4), None, false, true)) == Raised(KeyError)
  {
  }
}

=== FILE: pydict.dfy ===
/** Python's `dict` with string keys: a finite map that also remembers the
    order in which its keys were first inserted, since iteration follows
    that order. */
module PyDict {
  import opened Common

  datatype Dict<V> = Dict(keys: seq<string>, values: map<string, V>)

  /** The keys listed once each, and exactly the keys of the map. */
  predicate Valid<V>(d: Dict<V>) {
    Distinct(d.keys) && d.values.Keys == (set k | k in d.keys)
  }

  function Empty<V>(): (r: Dict<V>)
    ensures Valid(r) && |r.keys| == 0
  {
    Dict([], map[])
  }

  /** `d[key]`: the stored value, or None where Python raises KeyError. */
  function Get<V>(d: Dict<V>, key: string): (r: Option<V>)
    ensures r.Some? <==> key in d.values
  {
    if key in d.values then Some(d.values[key]) else None
  }

  /** `d[key] = value`: a new key goes to the end of the order, an existing
      one keeps its place. */
  function Set<V>(d: Dict<V>, key: string, value: V): (r: Dict<V>)
    requires Valid(d)
    ensures Valid(r)
    ensures Get(r, key) == Some(value)
    ensures forall k :: k != key ==> Get(r, k) == Get(d, k)
    ensures key in d.values ==> r.keys == d.keys
    ensures key !in d.values ==> r.keys == d.keys + [key]
  {
    if key in d.values then Dict(d.keys, d.values[key := value])
    else Dict(d.keys + [key], d.values[key := value])
  }

  /** `s` without the elements equal to `x`, order kept. */
  function Remove(s: seq<string>, x: string): (r: seq<string>)
    ensures forall y :: y in r <==> y in s && y != x
    ensures |r| <= |s|
    ensures x !in s ==> r == s
    decreases |s|
  {
    if |s| == 0 then []
    else if s[0] == x then Remove(s[1..], x)
    else [s[0]] + Remove(s[1..], x)
  }

  lemma {:induction false} RemoveKeepsDistinct(s: seq<string>, x: string)
    requires Distinct(s)
    ensures Distinct(Remove(s, x))
    decreases |s|
  {
    if |s| > 0 {
      assert Distinct(s[1..]) by {
        forall i, j | 0 <= i < j < |s[1..]| ensures s[1..][i] != s[1..][j] {
          assert s[1..][i] == s[i + 1] && s[1..][j] == s[j + 1];
        }
      }
      RemoveKeepsDistinct(s[1..], x);
      var rest := Remove(s[1..], x);
      if s[0] != x {
        assert s[0] !in s[1..] by {
          forall k | 0 <= k < |s[1..]| ensures s[1..][k] != s[0] {
            assert s[1..][k] == s[k + 1];
          }
        }
        var r := [s[0]] + rest;
        forall i, j | 0 <= i < j < |r| ensures r[i] != r[j] {
          if i == 0 {
            assert r[j] == rest[j - 1] && rest[j - 1] in rest;
          } else {
            assert r[i] == rest[i - 1] && r[j] == rest[j - 1];
          }
        }
      }
    }
  }

  /** Removing an element that occurs once, at `p`, cuts out just that
      position. */
  lemma {:induction false} RemoveOnce(s: seq<string>, x: string, p: nat)
    requires p < |s| && s[p] == x
    requires x !in s[..p] && x !in s[p + 1..]
    ensures Remove(s, x) == s[..p] + s[p + 1..]
    decreases p
  {
    if p == 0 {
      assert s[p + 1..] == s[1..];
    } else {
      assert s[0] in s[..p];
      assert s[1..][..p - 1] == s[1..p];
      assert s[1..][p - 1 + 1..] == s[p + 1..];
      RemoveOnce(s[1..], x, p - 1);
      assert s[..p] == [s[0]] + s[1..p];
    }
  }

  /** In a list without repeats, an element occurs nowhere but its own
      position. */
  lemma OccursOnce(s: seq<string>, p: nat)
    requires Distinct(s) && p < |s|
    ensures s[p] !in s[..p] && s[p] !in s[p + 1..]
  {
    forall i | 0 <= i < p ensures s[..p][i] != s[p] {
      assert s[..p][i] == s[i];
    }
    var tail := s[p + 1..];
    forall i | 0 <= i < |tail| ensures tail[i] != s[p] {
      assert tail[i] == s[p + 1 + i];
    }
  }

  /** The position of a present key in the insertion order, and what
      removing it leaves. */
  lemma KeyPosition<V>(d: Dict<V>, key: string)
    requires Valid(d) && key in d.values
    ensures exists p :: (0 <= p < |d.keys| && d.keys[p] == key
      && Remove(d.keys, key) == d.keys[..p] + d.keys[p + 1..])
    ensures |Remove(d.keys, key)| + 1 == |d.keys|
  {
    assert key in set k | k in d.keys;
    var p :| 0 <= p < |d.keys| && d.keys[p] == key;
    OccursOnce(d.keys, p);
    RemoveOnce(d.keys, key, p);
  }

  /** `del d[key]`: None where Python raises KeyError; otherwise only `key`
      is gone and the others keep their order: the new order is the old one
      with the key's position cut out. */
  function Delete<V>(d: Dict<V>, key: string): (r: Option<Dict<V>>)
    requires Valid(d)
    ensures r.None? <==> key !in d.values
    ensures r.Some? ==> Valid(r.value) && Get(r.value, key).None?
    ensures r.Some? ==> forall k :: k != key ==> Get(r.value, k) == Get(d, k)
    ensures r.Some? ==> |r.value.keys| + 1 == |d.keys|
    ensures r.Some? ==> r.value.keys == Remove(d.keys, key)
    ensures r.Some? ==> exists p :: (0 <= p < |d.keys| && d.keys[p] == key
      && r.value.keys == d.keys[..p] + d.keys[p + 1..])
  {
    if key !in d.values then None
    else
      WithoutKey(d, key);
      Some(Dict(Remove(d.keys, key), map k | k in d.values && k != key :: d.values[k]))
  }

  /** The dict left once a present key is gone: still valid, without the
      key, with the other keys' values, and one key shorter. */
  lemma WithoutKey<V>(d: Dict<V>, key: string)
    requires Valid(d) && key in d.values
    ensures var r := Dict(Remove(d.keys, key), map k | k in d.values && k != key :: d.values[k]);
      && Valid(r) && Get(r, key).None?
      && (forall k :: k != key ==> Get(r, k) == Get(d, k))
      && |r.keys| + 1 == |d.keys|
      && exists p :: (0 <= p < |d.keys| && d.keys[p] == key && r.keys == d.keys[..p] + d.keys[p + 1..])
  {
    KeyPosition(d, key);
    RemoveKeepsDistinct(d.keys, key);
  }

  /** A list of distinct strings has as many members as elements. */
  lemma {:induction false} DistinctCardinality(s: seq<string>)
    requires Distinct(s)
    ensures |set k | k in s| == |s|
    decreases |s|
  {
    if |s| > 0 {
      assert Distinct(s[1..]) by {
        forall i, j | 0 <= i < j < |s[1..]| ensures s[1..][i] != s[1..][j] {
          assert s[1..][i] == s[i + 1] && s[1..][j] == s[j + 1];
        }
      }
      DistinctCardinality(s[1..]);
      assert (set k | k in s) == (set k | k in s[1..]) + {s[0]};
      assert s[0] !in s[1..];
    }
  }

  /** `len(d)`. */
  function Len<V>(d: Dict<V>): (n: nat)
    requires Valid(d)
    ensures n == |d.values.Keys|
  {
    DistinctCardinality(d.keys);
    assert d.values.Keys == set k | k in d.keys;
    |d.keys|
  }
}

=== FILE: ranks.dfy ===
/** The vote ranking of Item15.py: `populate_ranks` numbers the names from 1
    by falling vote count, and three versions of `get_winner` read the
    winner back, either from a plain `dict` (insertion order) or from the
    `SortedDict` class, which iterates its keys in alphabetical order. */
module Ranking {
  import opened Common
  import opened PyDict

  // ------------------------------------------------------------ SortedDict

  /** No string is below a string before it. */
  predicate Ascending(s: seq<string>) {
    forall i, j :: 0 <= i < j < |s| ==> !LexLess(s[j], s[i])
  }

  /** The stable placement of `x` into an ascending list. */
  function InsertAscending(q: seq<string>, x: string): (r: seq<string>)
    ensures multiset(r) == multiset(q) + multiset{x}
    decreases |q|
  {
    if |q| == 0 then [x]
    else if LexLess(x, q[0]) then [x] + q
    else
      assert q == [q[0]] + q[1..];
      [q[0]] + InsertAscending(q[1..], x)
  }

  lemma {:induction false} InsertAscendingSorted(q: seq<string>, x: string)
    requires Ascending(q)
    ensures Ascending(InsertAscending(q, x))
    decreases |q|
  {
    if |q| > 0 {
      var r := InsertAscending(q, x);
      if LexLess(x, q[0]) {
        forall i, j | 0 <= i < j < |r| ensures !LexLess(r[j], r[i]) {
          if i == 0 {
            assert r[j] == q[j - 1];
            LexLessAsymmetric(x, q[0]);
            LexNotLessTransitive(x, q[0], q[j - 1]);
            LexLessTotal(q[0], q[j - 1]);
            LexLessTransitive(q[j - 1], q[0], x);
            LexLessTransitive(x, q[0], q[j - 1]);
            LexLessAsymmetric(x, q[j - 1]);
          } else {
            assert r[i] == q[i - 1] && r[j] == q[j - 1];
          }
        }
      } else {
        InsertAscendingSorted(q[1..], x);
        var rest := InsertAscending(q[1..], x);
        assert r == [q[0]] + rest;
        forall j | 0 <= j < |rest| ensures !LexLess(rest[j], q[0]) {
          assert rest[j] in multiset(rest);
          if rest[j] != x {
            assert rest[j] in q[1..];
            var k :| 0 <= k < |q[1..]| && q[1..][k] == rest[j];
            assert q[k + 1] == rest[j];
          }
        }
      }
    }
  }

  /** `keys.sort()` on a list of strings. */
  function SortStrings(s: seq<string>): (r: seq<string>)
    ensures multiset(r) == multiset(s)
    ensures Ascending(r)
    decreases |s|
  {
    if |s| == 0 then []
    else
      var init := s[..|s| - 1];
      assert s == init + [s[|s| - 1]];
      InsertAscendingSorted(SortStrings(init), s[|s| - 1]);
      InsertAscending(SortStrings(init), s[|s| - 1])
  }

  /** Two ascending arrangements of the same strings are equal. */
  lemma {:induction false} AscendingUnique(a: seq<string>, b: seq<string>)
    requires Ascending(a) && Ascending(b) && multiset(a) == multiset(b)
    ensures a == b
    decreases |a|
  {
    assert |a| == |multiset(a)| && |b| == |multiset(b)|;
    if |a| > 0 {
      AscendingHeadIsLeast(a, b);
      AscendingHeadIsLeast(b, a);
      LexNotLessBothWays(a[0], b[0]);
      HeadTailMultiset(a);
      HeadTailMultiset(b);
      AscendingUnique(a[1..], b[1..]);
      assert a == [a[0]] + a[1..] && b == [b[0]] + b[1..];
    }
  }

  lemma AscendingHeadIsLeast(a: seq<string>, b: seq<string>)
    requires Ascending(a) && |a| > 0 && |b| > 0
    requires multiset(a) == multiset(b)
    ensures !LexLess(b[0], a[0])
  {
    assert b[0] in multiset(b);
    var i :| 0 <= i < |a| && a[i] == b[0];
    if i == 0 {
      LexLessIrreflexive(a[0]);
    }
  }

  /** A plain `dict`, or the `SortedDict` class, which stores into a plain
      dict `data` and only changes the iteration order. */
  datatype Mapping = PlainDict(d: Dict<int>) | SortedDict(d: Dict<int>)

  /** `iter(m)`: insertion order for a dict, sorted keys for SortedDict. */
  function Iter(m: Mapping): seq<string> {
    match m
    case PlainDict(d) => d.keys
    case SortedDict(d) => SortStrings(d.keys)
  }

  /** `m[key] = value`, the same for both kinds. */
  function SetItem(m: Mapping, key: string, value: int): (r: Mapping)
    requires Valid(m.d)
    ensures Valid(r.d) && r.PlainDict? == m.PlainDict?
    ensures Get(r.d, key) == Some(value)
    ensures forall k :: k != key ==> Get(r.d, k) == Get(m.d, k)
    ensures key !in m.d.values ==> r.d.keys == m.d.keys + [key]
  {
    m.(d := Set(m.d, key, value))
  }

  /** A SortedDict iterates over exactly its keys, in ascending order. */
  lemma SortedDictIterKeys(a: Dict<int>)
    requires Valid(a)
    ensures Ascending(Iter(SortedDict(a)))
    ensures forall k :: k in Iter(SortedDict(a)) <==> k in a.values
  {
    var ia := Iter(SortedDict(a));
    forall k ensures k in ia <==> k in a.values {
      assert k in ia <==> k in multiset(ia);
    }
  }

  /** Two SortedDicts with the same keys iterate alike, however the keys
      were inserted. */
  lemma SortedDictIterOrderFree(a: Dict<int>, b: Dict<int>)
    requires Valid(a) && Valid(b) && a.values.Keys == b.values.Keys
    ensures Iter(SortedDict(a)) == Iter(SortedDict(b))
  {
    forall x ensures x in a.keys <==> x in b.keys {
      if x in a.keys {
        assert x in a.values.Keys;
      }
      if x in b.keys {
        assert x in b.values.Keys;
      }
    }
    DistinctSameElements(a.keys, b.keys);
    AscendingUnique(Iter(SortedDict(a)), Iter(SortedDict(b)));
  }

  /** Example 13: insert otter, cheeta, anteater and deer, delete cheeta;
      the items come out as anteater, deer, otter. */
  lemma SortedDictExample()
    ensures var d1 := Set(Set(Set(Set(Empty<int>(), "otter", 1), "cheeta", 2), "anteater", 3), "deer", 4);
      Get(d1, "otter") == Some(1)
      && Delete(d1, "cheeta").Some?
      && Get(Delete(d1, "cheeta").value, "cheeta").None?
      && Iter(SortedDict(Delete(d1, "cheeta").value)) == ["anteater", "deer", "otter"]
  {
    var d1 := Set(Set(Set(Set(Empty<int>(), "otter", 1), "cheeta", 2), "anteater", 3), "deer", 4);
    ExampleInsertionOrder();
    ExampleKeysSorted(Delete(d1, "cheeta").value.keys);
  }

  lemma ExampleInsertionOrder()
    ensures Set(Set(Set(Set(Empty<int>(), "otter", 1), "cheeta", 2), "anteater", 3), "deer", 4).keys
      == ["otter", "cheeta", "anteater", "deer"]
  {
    var a := Set(Empty<int>(), "otter", 1);
    assert a.keys == ["otter"];
    var b := Set(a, "cheeta", 2);
    assert "cheeta" !in a.values;
    var c := Set(b, "anteater", 3);
    assert "anteater" !in b.values;
    assert "deer" !in c.values;
  }

  /** The three keys left in the example sort to anteater, deer, otter. */
  lemma ExampleKeysSorted(keys: seq<string>)
    requires keys == Remove(["otter", "cheeta", "anteater", "deer"], "cheeta")
    ensures SortStrings(keys) == ["anteater", "deer", "otter"]
  {
    ExampleRemove();
    ExampleAscending();
    var want := ["anteater", "deer", "otter"];
    assert multiset(keys) == multiset(want);
    AscendingUnique(SortStrings(keys), want);
  }

  lemma ExampleRemove()
    ensures Remove(["otter", "cheeta", "anteater", "deer"], "cheeta") == ["otter", "anteater", "deer"]
  {
    var s := ["otter", "cheeta", "anteater", "deer"];
    assert s[1..][1..] == ["anteater", "deer"];
    assert Remove(["deer"], "cheeta") == ["deer"];
    assert Remove(["anteater", "deer"], "cheeta") == ["anteater", "deer"];
  }

  lemma ExampleAscending()
    ensures Ascending(["anteater", "deer", "otter"])
  {
    var want := ["anteater", "deer", "otter"];
    assert LexLess(want[0], want[1]) && LexLess(want[1], want[2]) && LexLess(want[0], want[2]);
    forall i, j | 0 <= i < j < 3 ensures !LexLess(want[j], want[i]) {
      LexLessAsymmetric(want[i], want[j]);
    }
  }

  // ------------------------------------------------------------ ranks

  /** No name has more votes than a name before it. */
  predicate ByVotesDesc(names: seq<string>, votes: map<string, int>)
    requires forall n :: n in names ==> n in votes
  {
    forall i, j :: 0 <= i < j < |names| ==> votes[names[i]] >= votes[names[j]]
  }

  /** The stable placement of `x` after every name with at least as many
      votes. */
  function InsertByVotes(q: seq<string>, x: string, votes: map<string, int>): (r: seq<string>)
    requires x in votes && forall n :: n in q ==> n in votes
    ensures multiset(r) == multiset(q) + multiset{x}
    ensures forall n :: n in r ==> n in votes
    decreases |q|
  {
    if |q| == 0 then [x]
    else if votes[q[0]] < votes[x] then [x] + q
    else
      assert q == [q[0]] + q[1..];
      [q[0]] + InsertByVotes(q[1..], x, votes)
  }

  lemma {:induction false} InsertByVotesSorted(q: seq<string>, x: string, votes: map<string, int>)
    requires x in votes && forall n :: n in q ==> n in votes
    requires ByVotesDesc(q, votes)
    ensures ByVotesDesc(InsertByVotes(q, x, votes), votes)
    decreases |q|
  {
    if |q| > 0 && votes[q[0]] >= votes[x] {
      InsertByVotesSorted(q[1..], x, votes);
      var rest := InsertByVotes(q[1..], x, votes);
      forall j | 0 <= j < |rest| ensures votes[q[0]] >= votes[rest[j]] {
        assert rest[j] in multiset(rest);
        if rest[j] != x {
          assert rest[j] in q[1..];
          var k :| 0 <= k < |q[1..]| && q[1..][k] == rest[j];
          assert q[k + 1] == rest[j];
        }
      }
    }
  }

  /** `names.sort(key=votes.get, reverse=True)`. */
  function SortByVotes(names: seq<string>, votes: map<string, int>): (r: seq<string>)
    requires forall n :: n in names ==> n in votes
    ensures multiset(r) == multiset(names)
    ensures forall n :: n in r ==> n in votes
    ensures ByVotesDesc(r, votes)
    decreases |names|
  {
    if |names| == 0 then []
    else
      var init := names[..|names| - 1];
      assert names == init + [names[|names| - 1]];
      InsertByVotesSorted(SortByVotes(init, votes), names[|names| - 1], votes);
      InsertByVotes(SortByVotes(init, votes), names[|names| - 1], votes)
  }

  /** The loop `for i, name in enumerate(names, first): ranks[name] = i`. */
  function AssignRanks(m: Mapping, names: seq<string>, first: int): (r: Mapping)
    requires Valid(m.d)
    ensures Valid(r.d) && r.PlainDict? == m.PlainDict?
    ensures forall k :: k !in names ==> Get(r.d, k) == Get(m.d, k)
    decreases |names|
  {
    if |names| == 0 then m
    else AssignRanks(SetItem(m, names[0], first), names[1..], first + 1)
  }

  /** Each name of a list without repeats gets its position plus `first`. */
  lemma {:induction false} AssignRanksValues(m: Mapping, names: seq<string>, first: int)
    requires Valid(m.d) && Distinct(names)
    ensures forall i :: 0 <= i < |names| ==> Get(AssignRanks(m, names, first).d, names[i]) == Some(first + i)
    decreases |names|
  {
    if |names| > 0 {
      var m1 := SetItem(m, names[0], first);
      DistinctTail(names);
      AssignRanksValues(m1, names[1..], first + 1);
      forall i | 0 <= i < |names|
        ensures Get(AssignRanks(m, names, first).d, names[i]) == Some(first + i)
      {
        if i > 0 {
          assert names[i] == names[1..][i - 1];
        }
      }
    }
  }

  /** On a mapping holding none of the names, the names are appended to
      the insertion order in the order they were ranked. */
  lemma {:induction false} AssignRanksOrder(m: Mapping, names: seq<string>, first: int)
    requires Valid(m.d) && Distinct(names)
    requires forall n :: n in names ==> n !in m.d.values
    ensures AssignRanks(m, names, first).d.keys == m.d.keys + names
    decreases |names|
  {
    if |names| == 0 {
      assert m.d.keys + names == m.d.keys;
    } else {
      var m1 := SetItem(m, names[0], first);
      FirstAssignment(m, names, first);
      AssignRanksOrder(m1, names[1..], first + 1);
      UnfoldAssign(m, names, first);
      AppendHead(m.d.keys, names);
    }
  }

  lemma UnfoldAssign(m: Mapping, names: seq<string>, first: int)
    requires Valid(m.d) && |names| > 0
    ensures AssignRanks(m, names, first) == AssignRanks(SetItem(m, names[0], first), names[1..], first + 1)
  {
  }

  lemma AppendHead(a: seq<string>, names: seq<string>)
    requires |names| > 0
    ensures a + [names[0]] + names[1..] == a + names
  {
    assert names == [names[0]] + names[1..];
  }

  /** After the first assignment the rest of the names are still fresh. */
  lemma FirstAssignment(m: Mapping, names: seq<string>, first: int)
    requires Valid(m.d) && Distinct(names) && |names| > 0
    requires forall n :: n in names ==> n !in m.d.values
    ensures var m1 := SetItem(m, names[0], first);
      m1.d.keys == m.d.keys + [names[0]] && Distinct(names[1..])
      && forall n :: n in names[1..] ==> n !in m1.d.values
  {
    var m1 := SetItem(m, names[0], first);
    DistinctTail(names);
    forall n | n in names[1..] ensures n !in m1.d.values {
      assert n in names && n != names[0];
      assert Get(m1.d, n) == Get(m.d, n);
    }
  }

  /** The names of `votes` ordered by falling vote count. */
  function RankedNames(votes: Dict<int>): (r: seq<string>)
    requires Valid(votes)
    ensures forall n :: n in r <==> n in votes.values
    ensures Distinct(r) && ByVotesDesc(r, votes.values)
    ensures |r| == |votes.keys|
  {
    var r := SortByVotes(votes.keys, votes.values);
    PermutationKeepsDistinct(votes.keys, r);
    assert forall n :: n in r <==> n in multiset(votes.keys);
    assert |r| == |multiset(r)| == |multiset(votes.keys)| == |votes.keys|;
    r
  }

  /** `populate_ranks(votes, ranks)`. */
  function PopulateRanks(votes: Dict<int>, ranks: Mapping): (r: Mapping)
    requires Valid(votes) && Valid(ranks.d)
    ensures Valid(r.d) && r.PlainDict? == ranks.PlainDict?
    ensures forall k :: k !in votes.values ==> Get(r.d, k) == Get(ranks.d, k)
  {
    AssignRanks(ranks, RankedNames(votes), 1)
  }

  /** The rank of a voted name is its place in the vote order, counting
      from 1: ranks run from 1 to the number of names, differ between
      names, a name with more votes gets a smaller rank, and keys that got
      no votes keep what they had. */
  lemma PopulateRanksSpec(votes: Dict<int>, ranks: Mapping)
    requires Valid(votes) && Valid(ranks.d)
    ensures var r := PopulateRanks(votes, ranks).d;
      (forall a :: a in votes.values ==> Get(r, a).Some? && 1 <= Get(r, a).value <= |votes.keys|)
      && (forall a, b :: a in votes.values && b in votes.values && a != b
            ==> Get(r, a) != Get(r, b))
      && (forall a, b :: a in votes.values && b in votes.values && votes.values[a] > votes.values[b]
            ==> Get(r, a).value < Get(r, b).value)
      && (forall k :: k !in votes.values ==> Get(r, k) == Get(ranks.d, k))
  {
    var names := RankedNames(votes);
    PopulateValues(votes, ranks);
    RanksFromOrder(names, votes.values, PopulateRanks(votes, ranks).d);
  }

  /** Ranks `1 + i` on a list without repeats in falling vote order lie in
      `1..|names|`, differ between names, and fall as the votes rise. */
  lemma RanksFromOrder(names: seq<string>, votes: map<string, int>, r: Dict<int>)
    requires forall n :: n in names ==> n in votes
    requires Distinct(names) && ByVotesDesc(names, votes)
    requires forall i :: 0 <= i < |names| ==> Get(r, names[i]) == Some(1 + i)
    ensures forall a :: a in names ==> Get(r, a).Some? && 1 <= Get(r, a).value <= |names|
    ensures forall a, b :: a in names && b in names && a != b ==> Get(r, a) != Get(r, b)
    ensures forall a, b :: a in names && b in names && votes[a] > votes[b] ==> Get(r, a).value < Get(r, b).value
  {
    forall a | a in names ensures Get(r, a).Some? && 1 <= Get(r, a).value <= |names| {
      var i :| 0 <= i < |names| && names[i] == a;
    }
    forall a, b | a in names && b in names && a != b ensures Get(r, a) != Get(r, b) {
      var i :| 0 <= i < |names| && names[i] == a;
      var j :| 0 <= j < |names| && names[j] == b;
    }
    forall a, b | a in names && b in names && votes[a] > votes[b]
      ensures Get(r, a).value < Get(r, b).value
    {
      var i :| 0 <= i < |names| && names[i] == a;
      var j :| 0 <= j < |names| && names[j] == b;
    }
  }

  // ------------------------------------------------------------ get_winner

  datatype Answer = Winner(name: string) | NoWinner | StopIteration | TypeError

  /** Iterating a mapping visits each of its keys, as many as there are. */
  lemma IterMembers(m: Mapping)
    ensures |Iter(m)| == |m.d.keys|
    ensures forall k :: k in Iter(m) <==> k in m.d.keys
  {
    if m.SortedDict? {
      var it := Iter(m);
      assert |it| == |multiset(it)| == |multiset(m.d.keys)| == |m.d.keys|;
      forall k ensures k in it <==> k in m.d.keys {
        assert k in it <==> k in multiset(it);
        assert k in m.d.keys <==> k in multiset(m.d.keys);
      }
    }
  }

  /** Example 11: `next(iter(ranks))`, StopIteration when empty. */
  function GetWinnerFirst(m: Mapping): (r: Answer)
    ensures r.StopIteration? <==> |m.d.keys| == 0
    ensures r.Winner? || r.StopIteration?
    ensures r.Winner? ==> r.name in m.d.keys
  {
    IterMembers(m);
    var it := Iter(m);
    if |it| == 0 then StopIteration else Winner(it[0])
  }

  /** The first name, in the order given, whose rank is 1. */
  function FirstRankedOne(names: seq<string>, d: Dict<int>): (r: Answer)
    ensures r.Winner? ==> r.name in names && Get(d, r.name) == Some(1)
    ensures r.NoWinner? <==> forall n :: n in names ==> Get(d, n) != Some(1)
    ensures r.Winner? || r.NoWinner?
    decreases |names|
  {
    if |names| == 0 then NoWinner
    else if Get(d, names[0]) == Some(1) then Winner(names[0])
    else FirstRankedOne(names[1..], d)
  }

  /** Example 15: the first name in iteration order with rank 1, or None
      (NoWinner) when there is none. */
  function GetWinnerByRank(m: Mapping): (r: Answer)
    ensures r.Winner? ==> r.name in m.d.keys && Get(m.d, r.name) == Some(1)
    ensures r.NoWinner? <==> forall n :: n in m.d.keys ==> Get(m.d, n) != Some(1)
    ensures r.Winner? || r.NoWinner?
  {
    IterMembers(m);
    FirstRankedOne(Iter(m), m.d)
  }

  /** Example 16: TypeError for anything but a plain dict, otherwise
      `next(iter(ranks))`. */
  function GetWinnerChecked(m: Mapping): (r: Answer)
    ensures m.SortedDict? <==> r == TypeError
    ensures m.PlainDict? ==> r == GetWinnerFirst(m)
  {
    if !m.PlainDict? then TypeError else GetWinnerFirst(m)
  }

  /** Ranks filled into an empty mapping: the keys are the names in vote
      order. */
  lemma PopulateEmpty(votes: Dict<int>, ranks: Mapping)
    requires Valid(votes) && ranks.d == Empty()
    ensures PopulateRanks(votes, ranks).d.keys == RankedNames(votes)
  {
    var names := RankedNames(votes);
    AssignRanksOrder(ranks, names, 1);
    EmptyPrefix(ranks.d.keys, names);
  }

  /** Each voted name holds its place in the vote order, counted from 1. */
  lemma PopulateValues(votes: Dict<int>, ranks: Mapping)
    requires Valid(votes) && Valid(ranks.d)
    ensures var r := PopulateRanks(votes, ranks).d;
      var names := RankedNames(votes);
      forall i :: 0 <= i < |names| ==> Get(r, names[i]) == Some(1 + i)
  {
    AssignRanksValues(ranks, RankedNames(votes), 1);
  }

  lemma EmptyPrefix(e: seq<string>, s: seq<string>)
    requires |e| == 0
    ensures e + s == s
  {
  }

  /** The first name in vote order has the most votes. */
  lemma TopVoted(votes: Dict<int>)
    requires Valid(votes) && |votes.keys| > 0
    ensures var names := RankedNames(votes);
      |names| > 0 && names[0] in votes.values
      && forall n :: n in votes.values ==> votes.values[n] <= votes.values[names[0]]
  {
    var names := RankedNames(votes);
    forall n | n in votes.values ensures votes.values[n] <= votes.values[names[0]] {
      var i :| 0 <= i < |names| && names[i] == n;
    }
  }

  /** Example 12: ranks filled into an empty dict; the first key is the
      name with the most votes, which has rank 1. */
  lemma WinnerFromDict(votes: Dict<int>)
    requires Valid(votes) && |votes.keys| > 0
    ensures var r := PopulateRanks(votes, PlainDict(Empty()));
      var w := GetWinnerFirst(r);
      w.Winner? && w.name in votes.values && Get(r.d, w.name) == Some(1)
      && forall n :: n in votes.values ==> votes.values[n] <= votes.values[w.name]
  {
    PopulateEmpty(votes, PlainDict(Empty()));
    PopulateValues(votes, PlainDict(Empty()));
    TopVoted(votes);
  }

  /** Example 14: with a SortedDict the first key is the alphabetically
      smallest name, whatever its votes. */
  lemma WinnerFromSortedDict(votes: Dict<int>)
    requires Valid(votes) && |votes.keys| > 0
    ensures var r := PopulateRanks(votes, SortedDict(Empty()));
      var w := GetWinnerFirst(r);
      w.Winner? && w.name in votes.values
      && forall n :: n in votes.values ==> !LexLess(n, w.name)
  {
    var r := PopulateRanks(votes, SortedDict(Empty()));
    PopulateEmpty(votes, SortedDict(Empty()));
    SortedFirstIsLeast(r.d, votes);
  }

  /** The first key a SortedDict yields is the least of its keys. */
  lemma SortedFirstIsLeast(d: Dict<int>, votes: Dict<int>)
    requires Valid(d) && Valid(votes) && |votes.keys| > 0
    requires forall n :: n in d.keys <==> n in votes.values
    ensures var it := Iter(SortedDict(d));
      |it| > 0 && it[0] in votes.values
      && forall n :: n in votes.values ==> !LexLess(n, it[0])
  {
    var it := Iter(SortedDict(d));
    SortedDictIterKeys(d);
    var k := votes.keys[0];
    assert k in votes.values;
    assert k in d.keys;
    assert k in d.values.Keys;
    assert |it| > 0;
    assert it[0] in d.values;
    assert it[0] in d.keys;
    forall n | n in votes.values ensures !LexLess(n, it[0]) {
      assert n in d.keys;
      assert n in d.values.Keys;
      var i :| 0 <= i < |it| && it[i] == n;
      if i == 0 {
        LexLessIrreflexive(n);
      }
    }
  }

  /** Example 15: looking for rank 1 finds the top-voted name in either
      kind of mapping. */
  lemma WinnerByRankAnyOrder(votes: Dict<int>, sorted: bool)
    requires Valid(votes) && |votes.keys| > 0
    ensures var ranks := if sorted then SortedDict(Empty()) else PlainDict(Empty());
      var w := GetWinnerByRank(PopulateRanks(votes, ranks));
      w.Winner? && w.name in votes.values
      && forall n :: n in votes.values ==> votes.values[n] <= votes.values[w.name]
  {
    var ranks: Mapping := if sorted then SortedDict(Empty()) else PlainDict(Empty());
    var r := PopulateRanks(votes, ranks);
    PopulateEmpty(votes, ranks);
    PopulateValues(votes, ranks);
    TopVoted(votes);
    var names := RankedNames(votes);
    assert Get(r.d, names[0]) == Some(1);
    assert (names[0] in Iter(r)) && forall n :: n in Iter(r) ==> n in names by {
      if sorted {
        SortedDictIterKeys(r.d);
      }
    }
    OnlyTopRankedOne(names, r.d, Iter(r));
  }

  /** With ranks `1 + i` on the distinct `names`, the only name ranked 1 is
      the first, wherever it comes in the iteration order. */
  lemma OnlyTopRankedOne(names: seq<string>, d: Dict<int>, it: seq<string>)
    requires Distinct(names) && |names| > 0
    requires forall i :: 0 <= i < |names| ==> Get(d, names[i]) == Some(1 + i)
    requires forall n :: n in it ==> n in names
    requires names[0] in it
    ensures FirstRankedOne(it, d) == Winner(names[0])
  {
    var w := FirstRankedOne(it, d);
    assert Get(d, names[0]) == Some(1);
    var i :| 0 <= i < |names| && names[i] == w.name;
  }
}

=== FILE: resistors.dfy ===
/** The resistor classes of Item44.py: plain getters and setters, public
    attributes, and `@property` setters that validate (`BoundedResistance`)
    or forbid reassignment (`FixedResistance`). Resistances are whole
    numbers of ohms, as in every example. */
module Resistors {
  import opened Common

  /** The exception an assignment raises. */
  datatype Error = ValueError | AttributeError

  /** The object after an assignment, and the exception it raised, if any;
      a failed assignment leaves the object as it was. */
  datatype Update<T> = Update(after: T, error: Option<Error>)

  /** `OldResistor`: `_ohms` behind `get_ohms` / `set_ohms`. */
  datatype OldResistor = OldResistor(ohms: int)

  /** `get_ohms()`: setting back the value just read leaves the resistor
      as it was. */
  function GetOhms(r: OldResistor): (o: int)
    ensures SetOhms(r, o) == r
  {
    r.ohms
  }

  function SetOhms(r: OldResistor, ohms: int): (s: OldResistor)
    ensures s.ohms == ohms
  {
    OldResistor(ohms)
  }

  /** Example 3: `set_ohms(get_ohms() - 4e3)` after `set_ohms(10e3)`
      leaves 6e3. */
  lemma OldResistorExample()
    ensures var r := SetOhms(OldResistor(50000), 10000);
      GetOhms(SetOhms(r, GetOhms(r) - 4000)) == 6000
  {
  }

  /** `Resistor`, with public attributes. */
  datatype Resistor = Resistor(ohms: int, voltage: int, current: int)

  function NewResistor(ohms: int): (r: Resistor)
    ensures r.ohms == ohms && r.voltage == 0 && r.current == 0
  {
    Resistor(ohms, 0, 0)
  }

  /** The `BoundedResistance.ohms` setter: only positive values. */
  function SetBoundedOhms(r: Resistor, ohms: int): (u: Update<Resistor>)
    ensures u.error.Some? <==> ohms <= 0
    ensures u.error.Some? ==> u.error == Some(ValueError) && u.after == r
    ensures u.error.None? ==> u.after == r.(ohms := ohms)
  {
    if ohms <= 0 then Update(r, Some(ValueError)) else Update(r.(ohms := ohms), None)
  }

  /** `BoundedResistance(ohms)`: `Resistor.__init__` assigns through the
      validating setter, so construction fails the same way. */
  function NewBounded(ohms: int): (u: Update<Option<Resistor>>)
    ensures u.error.Some? <==> ohms <= 0
    ensures u.error.Some? ==> u.error == Some(ValueError) && u.after.None?
    ensures u.error.None? ==> u.after == Some(NewResistor(ohms))
  {
    var initial := SetBoundedOhms(Resistor(0, 0, 0), ohms);
    if initial.error.Some? then Update(None, initial.error)
    else Update(Some(initial.after.(voltage := 0, current := 0)), None)
  }

  /** Every bounded resistor that construction and assignment produce has
      positive resistance. */
  lemma BoundedStaysPositive(r: Resistor, ohms: int, initial: int)
    requires r.ohms > 0
    ensures SetBoundedOhms(r, ohms).after.ohms > 0
    ensures NewBounded(initial).after.Some? ==> NewBounded(initial).after.value.ohms > 0
  {
  }

  /** Examples 9 and 10: assigning 0 and constructing with -5 both raise
      ValueError. */
  lemma BoundedExamples()
    ensures NewBounded(1000).error.None?
    ensures SetBoundedOhms(NewBounded(1000).after.value, 0).error == Some(ValueError)
    ensures NewBounded(-5).error == Some(ValueError)
  {
  }

  /** `FixedResistance`: `_ohms` absent until the first assignment. */
  datatype FixedResistance = FixedResistance(ohms: Option<int>, voltage: int, current: int)

  /** The `FixedResistance.ohms` setter: AttributeError once `_ohms`
      exists. */
  function SetFixedOhms(f: FixedResistance, ohms: int): (u: Update<FixedResistance>)
    ensures u.error.Some? <==> f.ohms.Some?
    ensures u.error.Some? ==> u.error == Some(AttributeError) && u.after == f
    ensures u.error.None? ==> u.after == f.(ohms := Some(ohms))
  {
    if f.ohms.Some? then Update(f, Some(AttributeError)) else Update(f.(ohms := Some(ohms)), None)
  }

  /** `FixedResistance(ohms)`: the first assignment, made by `__init__`,
      succeeds. */
  function NewFixed(ohms: int): (f: FixedResistance)
    ensures f.ohms == Some(ohms) && f.voltage == 0 && f.current == 0
  {
    var initial := SetFixedOhms(FixedResistance(None, 0, 0), ohms);
    initial.after.(voltage := 0, current := 0)
  }

  /** Assigning a list of values one after another: each assignment to a
      constructed FixedResistance fails and the constructor's value
      stays. */
  function AssignAll(f: FixedResistance, values: seq<int>): FixedResistance
    decreases |values|
  {
    if |values| == 0 then f else AssignAll(SetFixedOhms(f, values[0]).after, values[1..])
  }

  lemma {:induction false} FixedIsImmutable(ohms: int, values: seq<int>)
    ensures AssignAll(NewFixed(ohms), values) == NewFixed(ohms)
    decreases |values|
  {
    if |values| > 0 {
      FixedIsImmutable(ohms, values[1..]);
    }
  }

  /** Example 12: `r4.ohms = 2e3` raises AttributeError. */
  lemma FixedExample()
    ensures SetFixedOhms(NewFixed(1000), 2000).error == Some(AttributeError)
    ensures SetFixedOhms(NewFixed(1000), 2000).after.ohms == Some(1000)
  {
  }
}

=== FILE: sorter.dfy ===
/** The `Sorter` key object of Item21.py: sorting with it puts the numbers in
    `group` first, each part in ascending order, and its `found` flag
    records whether any number in `group` was seen. */
module PrioritySort {
  import opened Common

  datatype Sorter = Sorter(group: set<int>, found: bool)

  /** A key tuple `(rank, value)`, compared as Python compares tuples. */
  datatype Key = Key(rank: int, value: int)

  predicate KeyLess(a: Key, b: Key) {
    a.rank < b.rank || (a.rank == b.rank && a.value < b.value)
  }

  /** `Sorter(group)`: nothing found yet, and a call on the fresh sorter
      sets `found` exactly for a member of the group. */
  function NewSorter(group: set<int>): (r: Sorter)
    ensures r.group == group && !r.found
    ensures forall x :: Call(r, x).0.found <==> x in group
  {
    Sorter(group, false)
  }

  /** `Sorter.__call__(x)`: the key `(0, x)` for members of the group, which
      also sets `found`, and `(1, x)` for everyone else. */
  function Call(s: Sorter, x: int): (r: (Sorter, Key))
    ensures r.0.group == s.group
    ensures r.0.found <==> s.found || x in s.group
    ensures r.1.value == x && (r.1.rank == 0 || r.1.rank == 1)
    ensures r.1.rank == 0 <==> x in s.group
  {
    if x in s.group then (s.(found := true), Key(0, x)) else (s, Key(1, x))
  }

  /** `list.sort(key=sorter)` calls the key once per element, in list order.
      The flag ends up set iff it was set before or some element is in the
      group: it is never reset. */
  function ApplyKeys(s: Sorter, xs: seq<int>): (r: (Sorter, seq<Key>))
    ensures r.0.group == s.group
    ensures r.0.found <==> s.found || exists i :: 0 <= i < |xs| && xs[i] in s.group
    ensures |r.1| == |xs|
    ensures forall i :: 0 <= i < |xs| ==> r.1[i] == Call(s, xs[i]).1
    decreases |xs|
  {
    if |xs| == 0 then (s, [])
    else
      var (s1, k) := Call(s, xs[0]);
      var (s2, ks) := ApplyKeys(s1, xs[1..]);
      assert forall i :: 1 <= i < |xs| ==> xs[i] == xs[1..][i - 1];
      (s2, [k] + ks)
  }

  /** The key of `x` (the flag plays no part in it). */
  function KeyOf(group: set<int>, x: int): Key {
    Call(NewSorter(group), x).1
  }

  /** No element's key is below the key of an element before it. */
  predicate SortedByKey(group: set<int>, r: seq<int>) {
    forall i, j :: 0 <= i < j < |r| ==> !KeyLess(KeyOf(group, r[j]), KeyOf(group, r[i]))
  }

  /** The stable placement of `x`: after every element whose key is not
      above its own. */
  function InsertByKey(group: set<int>, q: seq<int>, x: int): (r: seq<int>)
    ensures multiset(r) == multiset(q) + multiset{x}
    ensures |r| == |q| + 1
    decreases |q|
  {
    if |q| == 0 then [x]
    else if KeyLess(KeyOf(group, x), KeyOf(group, q[0])) then [x] + q
    else
      assert q == [q[0]] + q[1..];
      [q[0]] + InsertByKey(group, q[1..], x)
  }

  lemma {:induction false} InsertByKeySorted(group: set<int>, q: seq<int>, x: int)
    requires SortedByKey(group, q)
    ensures SortedByKey(group, InsertByKey(group, q, x))
    decreases |q|
  {
    if |q| > 0 && !KeyLess(KeyOf(group, x), KeyOf(group, q[0])) {
      InsertByKeySorted(group, q[1..], x);
      var rest := InsertByKey(group, q[1..], x);
      forall j | 0 <= j < |rest|
        ensures !KeyLess(KeyOf(group, rest[j]), KeyOf(group, q[0]))
      {
        assert rest[j] in multiset(rest);
        if rest[j] != x {
          assert rest[j] in q[1..];
          var k :| 0 <= k < |q[1..]| && q[1..][k] == rest[j];
          assert q[k + 1] == rest[j];
        }
      }
    }
  }

  /** The sorted order `numbers.sort(key=sorter)` produces: a stable sort
      by key, written as an insertion sort. */
  function SortByKey(group: set<int>, xs: seq<int>): (r: seq<int>)
    ensures multiset(r) == multiset(xs)
    ensures SortedByKey(group, r)
    decreases |xs|
  {
    if |xs| == 0 then []
    else
      var init := xs[..|xs| - 1];
      assert xs == init + [xs[|xs| - 1]];
      InsertByKeySorted(group, SortByKey(group, init), xs[|xs| - 1]);
      InsertByKey(group, SortByKey(group, init), xs[|xs| - 1])
  }

  /** After the sort every member of the group comes before every other
      number, and within each of the two parts the numbers ascend. */
  lemma PriorityOrder(group: set<int>, xs: seq<int>)
    ensures var r := SortByKey(group, xs);
      (forall i, j :: 0 <= i < j < |r| && r[j] in group ==> r[i] in group)
      && (forall i, j :: 0 <= i < j < |r| && (r[i] in group <==> r[j] in group) ==> r[i] <= r[j])
  {
    var r := SortByKey(group, xs);
    forall i, j | 0 <= i < j < |r|
      ensures r[j] in group ==> r[i] in group
      ensures (r[i] in group <==> r[j] in group) ==> r[i] <= r[j]
    {
      assert !KeyLess(KeyOf(group, r[j]), KeyOf(group, r[i]));
    }
  }

  /** `numbers.sort(key=sorter)`: the sorted numbers and the sorter after
      all keys were taken. */
  method SortWith(s: Sorter, numbers: seq<int>) returns (after: Sorter, sorted: seq<int>)
    ensures after.group == s.group
    ensures after.found <==> s.found || exists x :: x in numbers && x in s.group
    ensures multiset(sorted) == multiset(numbers)
    ensures SortedByKey(s.group, sorted)
  {
    var (s1, keys) := ApplyKeys(s, numbers);
    after := s1;
    sorted := SortByKey(s.group, numbers);
  }

  /** The example as written: `group = {9, 10}` shares nothing with the
      numbers, so `found` stays False and the closing assertion fails. */
  lemma ExampleAsWritten()
    ensures var (s, _) := ApplyKeys(NewSorter({9, 10}), [8, 3, 1, 2, 5, 7, 4, 6]);
      !s.found
  {
    var xs := [8, 3, 1, 2, 5, 7, 4, 6];
    assert forall i :: 0 <= i < |xs| ==> 1 <= xs[i] <= 8;
  }

  /** With the group left in the comment, `{2, 3, 5, 7}`, the flag is set and
      the primes come first. */
  lemma ExampleIntended()
    ensures var (s, _) := ApplyKeys(NewSorter({2, 3, 5, 7}), [8, 3, 1, 2, 5, 7, 4, 6]);
      s.found
  {
    var xs := [8, 3, 1, 2, 5, 7, 4, 6];
    assert xs[1] in {2, 3, 5, 7};
  }

  /** Two key-sorted arrangements of the same numbers start alike: the
      head of each is in the other, so neither key is below the other. */
  lemma KeySortedHead(group: set<int>, a: seq<int>, b: seq<int>)
    requires SortedByKey(group, a) && SortedByKey(group, b)
    requires multiset(a) == multiset(b) && |a| > 0
    ensures |b| > 0 && a[0] == b[0]
  {
    assert a[0] in multiset(a);
    assert |b| > 0;
    assert b[0] in multiset(b);
    var i :| 0 <= i < |a| && a[i] == b[0];
    var j :| 0 <= j < |b| && b[j] == a[0];
    assert !KeyLess(KeyOf(group, a[i]), KeyOf(group, a[0]));
    assert !KeyLess(KeyOf(group, b[j]), KeyOf(group, b[0]));
  }

  lemma SortedByKeyTail(group: set<int>, a: seq<int>)
    requires SortedByKey(group, a) && |a| > 0
    ensures SortedByKey(group, a[1..])
  {
    forall i, j | 0 <= i < j < |a[1..]|
      ensures !KeyLess(KeyOf(group, a[1..][j]), KeyOf(group, a[1..][i]))
    {
      assert a[1..][i] == a[i + 1] && a[1..][j] == a[j + 1];
    }
  }

  /** Two key-sorted arrangements of the same numbers are equal: keys of
      distinct numbers differ, so the key order leaves no ties to break. */
  lemma {:induction false} KeySortedUnique(group: set<int>, a: seq<int>, b: seq<int>)
    requires SortedByKey(group, a) && SortedByKey(group, b)
    requires multiset(a) == multiset(b)
    ensures a == b
    decreases |a|
  {
    assert |a| == |multiset(a)| && |b| == |multiset(b)|;
    if |a| > 0 {
      KeySortedHead(group, a, b);
      assert a == [a[0]] + a[1..] && b == [b[0]] + b[1..];
      assert multiset(a[1..]) == multiset(b[1..]) by {
        assert multiset(a[1..]) == multiset(a) - multiset{a[0]};
        assert multiset(b[1..]) == multiset(b) - multiset{b[0]};
      }
      SortedByKeyTail(group, a);
      SortedByKeyTail(group, b);
      KeySortedUnique(group, a[1..], b[1..]);
    }
  }

  /** The group members in ascending order followed by the other numbers in
      ascending order is key-sorted. */
  lemma PartsSortedByKey(group: set<int>, g: seq<int>, o: seq<int>)
    requires Sorted(g) && Sorted(o)
    requires forall i :: 0 <= i < |g| ==> g[i] in group
    requires forall i :: 0 <= i < |o| ==> o[i] !in group
    ensures SortedByKey(group, g + o)
  {
    var r := g + o;
    forall i, j | 0 <= i < j < |r|
      ensures !KeyLess(KeyOf(group, r[j]), KeyOf(group, r[i]))
    {
      if j < |g| {
        assert r[i] == g[i] && r[j] == g[j];
      } else if i >= |g| {
        assert r[i] == o[i - |g|] && r[j] == o[j - |g|];
      } else {
        assert r[i] == g[i] && r[j] == o[j - |g|];
      }
    }
  }

  /** The sort's result is the group members ascending, then the rest
      ascending. */
  lemma SortIsParts(group: set<int>, xs: seq<int>, g: seq<int>, o: seq<int>)
    requires Sorted(g) && Sorted(o)
    requires forall i :: 0 <= i < |g| ==> g[i] in group
    requires forall i :: 0 <= i < |o| ==> o[i] !in group
    requires multiset(g + o) == multiset(xs)
    ensures SortByKey(group, xs) == g + o
  {
    PartsSortedByKey(group, g, o);
    KeySortedUnique(group, SortByKey(group, xs), g + o);
  }
}

=== FILE: stats.dfy ===
/** Both `get_stats` functions of Item19.py. Python's `min`, `max` and
    `sum(...) / count` raise on an empty list; those cases are None here.
    The two float divisions (the average and the even-count median) are
    exact reals. */
module Stats {
  import opened Common
  import InsertionSort

  /** `min(numbers)`. */
  function Minimum(numbers: seq<int>): (m: int)
    requires |numbers| > 0
    ensures m in numbers && forall i :: 0 <= i < |numbers| ==> m <= numbers[i]
  {
    if |numbers| == 1 then numbers[0]
    else
      var rest := Minimum(numbers[1..]);
      assert forall i :: 1 <= i < |numbers| ==> numbers[i] == numbers[1..][i - 1];
      if numbers[0] <= rest then numbers[0] else rest
  }

  /** `max(numbers)`. */
  function Maximum(numbers: seq<int>): (m: int)
    requires |numbers| > 0
    ensures m in numbers && forall i :: 0 <= i < |numbers| ==> numbers[i] <= m
  {
    if |numbers| == 1 then numbers[0]
    else
      var rest := Maximum(numbers[1..]);
      assert forall i :: 1 <= i < |numbers| ==> numbers[i] == numbers[1..][i - 1];
      if numbers[0] >= rest then numbers[0] else rest
  }

  /** Example 1: `(min(numbers), max(numbers))`; None where `min` raises
      ValueError on an empty list. */
  function GetMinMax(numbers: seq<int>): (r: Option<(int, int)>)
    ensures r.None? <==> |numbers| == 0
    ensures r.Some? ==> r.value.0 in numbers && forall i :: 0 <= i < |numbers| ==> r.value.0 <= numbers[i]
    ensures r.Some? ==> r.value.1 in numbers && forall i :: 0 <= i < |numbers| ==> numbers[i] <= r.value.1
  {
    if |numbers| == 0 then None else Some((Minimum(numbers), Maximum(numbers)))
  }

  datatype Summary = Summary(minimum: int, maximum: int, average: real, median: real, count: nat)

  /** The median of an ascending list: its middle element, or the mean of
      the two middle elements when the length is even. */
  function Middle(sorted: seq<int>): real
    requires |sorted| > 0
  {
    var middle := |sorted| / 2;
    if |sorted| % 2 == 0 then (sorted[middle - 1] + sorted[middle]) as real / 2.0
    else sorted[middle] as real
  }

  /** Example 4: minimum, maximum, average, median and count. The median is
      read from `sorted(numbers)`, a fresh sorted copy. */
  function GetStats(numbers: seq<int>): (r: Option<Summary>)
    ensures r.None? <==> |numbers| == 0
    ensures r.Some? ==> r.value.count == |numbers|
    ensures r.Some? ==> r.value.average == Average(numbers)
    ensures r.Some? ==> r.value.minimum in numbers && forall i :: 0 <= i < |numbers| ==> r.value.minimum <= numbers[i]
    ensures r.Some? ==> r.value.maximum in numbers && forall i :: 0 <= i < |numbers| ==> numbers[i] <= r.value.maximum
  {
    if |numbers| == 0 then None
    else
      var sortedNumbers := InsertionSort.InsertionSort(numbers);
      Some(Summary(Minimum(numbers), Maximum(numbers), Average(numbers), Middle(sortedNumbers), |numbers|))
  }

  /** `sum(numbers) / count`. */
  function Average(numbers: seq<int>): (a: real)
    requires |numbers| > 0
    ensures a * (|numbers| as real) == Sum(numbers) as real
  {
    var n := |numbers| as real;
    var s := Sum(numbers) as real;
    assert s / n * n == s;
    s / n
  }

  /** The median does not depend on how the copy was sorted: it is the
      middle of every ascending arrangement of the numbers. */
  lemma MedianOfAnySortedArrangement(numbers: seq<int>, s: seq<int>)
    requires Sorted(s) && multiset(s) == multiset(numbers) && |numbers| > 0
    ensures GetStats(numbers).value.median == Middle(s)
  {
    InsertionSort.InsertionSortSortsAndPermutes(numbers);
    SortedPermutationsEqual(InsertionSort.InsertionSort(numbers), s);
  }

  /** A sum of numbers between `lo` and `hi` lies between `lo` and `hi`
      times the count. */
  lemma {:induction false} SumBounds(numbers: seq<int>, lo: int, hi: int)
    requires forall i :: 0 <= i < |numbers| ==> lo <= numbers[i] <= hi
    ensures lo * |numbers| <= Sum(numbers) <= hi * |numbers|
    decreases |numbers|
  {
    if |numbers| > 0 {
      assert forall i :: 0 <= i < |numbers[1..]| ==> numbers[1..][i] == numbers[i + 1];
      SumBounds(numbers[1..], lo, hi);
      assert lo * |numbers| == lo * |numbers[1..]| + lo;
      assert hi * |numbers| == hi * |numbers[1..]| + hi;
    }
  }

  /** The average and the median both lie between the minimum and the
      maximum. */
  lemma AverageAndMedianBetween(numbers: seq<int>)
    requires |numbers| > 0
    ensures var r := GetStats(numbers).value;
      r.minimum as real <= r.average <= r.maximum as real
      && r.minimum as real <= r.median <= r.maximum as real
  {
    var r := GetStats(numbers).value;
    AverageBetween(numbers, r.minimum, r.maximum);
    var s := InsertionSort.InsertionSort(numbers);
    InsertionSort.InsertionSortSortsAndPermutes(numbers);
    MiddleBetween(s, numbers, r.minimum, r.maximum);
  }

  lemma AverageBetween(numbers: seq<int>, lo: int, hi: int)
    requires |numbers| > 0
    requires forall i :: 0 <= i < |numbers| ==> lo <= numbers[i] <= hi
    ensures lo as real <= Average(numbers) <= hi as real
  {
    SumBounds(numbers, lo, hi);
    BetweenByScale(Average(numbers), Sum(numbers), |numbers|, lo, hi);
  }

  /** A real `a` with `a * count == total`, where the integer total lies
      between `lo * count` and `hi * count`, lies between `lo` and `hi`. */
  lemma BetweenByScale(a: real, total: int, count: nat, lo: int, hi: int)
    requires count > 0 && a * count as real == total as real
    requires lo * count <= total <= hi * count
    ensures lo as real <= a <= hi as real
  {
    var n := count as real;
    CastProduct(lo, count);
    CastProduct(hi, count);
    assert lo as real * n <= a * n <= hi as real * n;
    ScaleBounds(a, n, lo as real, hi as real);
  }

  lemma CastProduct(a: int, b: int)
    ensures (a * b) as real == a as real * b as real
  {
  }

  lemma ScaleBounds(a: real, n: real, lo: real, hi: real)
    requires n > 0.0 && lo * n <= a * n <= hi * n
    ensures lo <= a <= hi
  {
  }

  /** The middle of an arrangement of numbers between `lo` and `hi` is
      between them too. */
  lemma MiddleBetween(s: seq<int>, numbers: seq<int>, lo: int, hi: int)
    requires |s| > 0 && multiset(s) == multiset(numbers)
    requires forall i :: 0 <= i < |numbers| ==> lo <= numbers[i] <= hi
    ensures lo as real <= Middle(s) <= hi as real
  {
    forall k | 0 <= k < |s| ensures lo <= s[k] <= hi {
      assert s[k] in multiset(numbers);
      var j :| 0 <= j < |numbers| && numbers[j] == s[k];
    }
  }

  /** Example 4's second check: `[1, 2, 3]` has median 2 and count 3. */
  lemma OddCountExample()
    ensures GetStats([1, 2, 3]).value.median == 2.0 && GetStats([1, 2, 3]).value.count == 3
  {
    MedianOfAnySortedArrangement([1, 2, 3], [1, 2, 3]);
  }

  function Lengths(): seq<int> {
    [63, 73, 72, 60, 67, 66, 71, 61, 72, 70]
  }

  /** Example 4: the ten `lengths` average 67.5. */
  lemma LengthsAverage()
    ensures Average(Lengths()) == 67.5
  {
    var a := Average(Lengths());
    assert a * 10.0 == 67.5 * 10.0 by {
      LengthsSum();
    }
    ScaleEqual(a, 67.5, 10.0);
  }

  lemma LengthsSum()
    ensures Sum(Lengths()) == 675
  {
    var s9 := [70];
    var s8 := [72] + s9;
    var s7 := [61] + s8;
    var s6 := [71] + s7;
    var s5 := [66] + s6;
    var s4 := [67] + s5;
    var s3 := [60] + s4;
    var s2 := [72] + s3;
    var s1 := [73] + s2;
    var s0 := [63] + s1;
    assert s0 == Lengths();
    SumCons(70, []);
    SumCons(72, s9);
    SumCons(61, s8);
    SumCons(71, s7);
    SumCons(66, s6);
    SumCons(67, s5);
    SumCons(60, s4);
    SumCons(72, s3);
    SumCons(73, s2);
    SumCons(63, s1);
  }

  lemma ScaleEqual(a: real, b: real, n: real)
    requires n > 0.0 && a * n == b * n
    ensures a == b
  {
  }

  lemma SumCons(x: int, rest: seq<int>)
    ensures Sum([x] + rest) == x + Sum(rest)
  {
    assert ([x] + rest)[1..] == rest;
  }
}

=== FILE: text.dfy ===
/** String helpers the examples rely on: Python's `str.split(sep)` with an
    explicit one-character separator, its inverse `sep.join`, and the decimal
    rendering `format(n)` / `str(n)` of an integer with its base-10 parse
    `int(s)`. */
module Text {
  import opened Common

  /** `s.split(sep)`: the pieces between occurrences of `sep`, so one more
      piece than there are separators (`"".split(' ') == ['']`). */
  function Split(s: string, sep: char): (parts: seq<string>)
    ensures |parts| >= 1
    ensures forall i :: 0 <= i < |parts| ==> sep !in parts[i]
    decreases |s|
  {
    if |s| == 0 then [""]
    else
      var rest := Split(s[1..], sep);
      if s[0] == sep then [""] + rest
      else [[s[0]] + rest[0]] + rest[1..]
  }

  /** `sep.join(parts)`. */
  function Join(parts: seq<string>, sep: char): (r: string)
    requires |parts| >= 1
    ensures parts[0] <= r
    ensures |parts| == 1 ==> r == parts[0]
    ensures |parts| > 1 ==> |r| > |parts[0]| && r[|parts[0]|] == sep
    decreases |parts|
  {
    if |parts| == 1 then parts[0] else parts[0] + [sep] + Join(parts[1..], sep)
  }

  /** Splitting undoes joining, provided no piece holds the separator. */
  lemma {:induction false} SplitJoin(parts: seq<string>, sep: char)
    requires |parts| >= 1
    requires forall i :: 0 <= i < |parts| ==> sep !in parts[i]
    ensures Split(Join(parts, sep), sep) == parts
    decreases |parts|, |parts[0]|
  {
    if |parts| == 1 {
      SplitNoSep(parts[0], sep);
    } else if |parts[0]| == 0 {
      var tail := Join(parts[1..], sep);
      assert Join(parts, sep) == [sep] + tail;
      assert (Join(parts, sep))[1..] == tail;
      SplitJoin(parts[1..], sep);
      assert parts == [""] + parts[1..];
    } else {
      var p0 := parts[0];
      var shorter := [p0[1..]] + parts[1..];
      assert forall i :: 0 <= i < |shorter| ==> sep !in shorter[i] by {
        forall i | 0 <= i < |shorter| ensures sep !in shorter[i] {
          if i == 0 {
            assert forall c :: c in p0[1..] ==> c in p0;
          } else {
            assert shorter[i] == parts[i];
          }
        }
      }
      SplitJoin(shorter, sep);
      assert shorter[1..] == parts[1..];
      var whole := Join(parts, sep);
      assert whole == p0 + [sep] + Join(parts[1..], sep);
      assert whole[0] == p0[0];
      assert whole[1..] == Join(shorter, sep) by {
        assert Join(shorter, sep) == p0[1..] + [sep] + Join(parts[1..], sep);
      }
      assert p0 == [p0[0]] + p0[1..];
      assert p0[0] != sep by { assert p0[0] in p0; }
    }
  }

  lemma {:induction false} SplitNoSep(s: string, sep: char)
    requires sep !in s
    ensures Split(s, sep) == [s]
    decreases |s|
  {
    if |s| > 0 {
      assert forall c :: c in s[1..] ==> c in s;
      SplitNoSep(s[1..], sep);
      assert s == [s[0]] + s[1..];
      assert s[0] in s;
    }
  }

  /** Joining undoes splitting. */
  lemma {:induction false} JoinSplit(s: string, sep: char)
    ensures Join(Split(s, sep), sep) == s
    decreases |s|
  {
    if |s| > 0 {
      JoinSplit(s[1..], sep);
      var rest := Split(s[1..], sep);
      if s[0] == sep {
        assert Split(s, sep) == [""] + rest;
        assert ([""] + rest)[1..] == rest;
        assert s == [sep] + s[1..];
      } else {
        var parts := Split(s, sep);
        assert parts == [[s[0]] + rest[0]] + rest[1..];
        if |rest| == 1 {
          assert s == [s[0]] + s[1..];
        } else {
          assert parts[1..] == rest[1..];
          assert Join(rest, sep) == rest[0] + [sep] + Join(rest[1..], sep);
          assert s == [s[0]] + s[1..];
        }
      }
    }
  }

  function DigitChar(d: nat): char
    requires d < 10
  {
    "0123456789"[d]
  }

  predicate IsDigit(c: char) {
    '0' <= c <= '9'
  }

  function DigitValue(c: char): nat
    requires IsDigit(c)
  {
    (c as int - '0' as int) as nat
  }

  /** The decimal digits of `n`, most significant first, without leading zeros. */
  function Digits(n: nat): (s: string)
    ensures |s| >= 1
    ensures forall i :: 0 <= i < |s| ==> IsDigit(s[i])
    decreases n
  {
    if n < 10 then [DigitChar(n)] else Digits(n / 10) + [DigitChar(n % 10)]
  }

  /** `format(n)` / `str(n)` for an integer: a minus sign for negatives, then
      the digits. */
  function IntToString(n: int): (s: string)
    ensures |s| >= 1
    ensures ' ' !in s
    ensures s[0] == '-' <==> n < 0
  {
    if n < 0 then "-" + Digits(-n) else Digits(n)
  }

  predicate AllDigits(s: string) {
    forall i :: 0 <= i < |s| ==> IsDigit(s[i])
  }

  /** The value of a non-empty run of decimal digits. */
  function DigitsValue(s: string): nat
    requires |s| >= 1 && AllDigits(s)
    decreases |s|
  {
    if |s| == 1 then DigitValue(s[0])
    else DigitsValue(s[..|s| - 1]) * 10 + DigitValue(s[|s| - 1])
  }

  /** The characters `str.isspace()` accepts, which `int()` ignores at both
      ends of its argument. */
  predicate IsSpace(c: char) {
    c == ' ' || '\t' <= c <= '\r' || '\U{1C}' <= c <= '\U{1F}' || c == '\U{85}' || c == '\U{A0}'
    || c == '\U{1680}' || '\U{2000}' <= c <= '\U{200A}' || c == '\U{2028}' || c == '\U{2029}'
    || c == '\U{202F}' || c == '\U{205F}' || c == '\U{3000}'
  }

  predicate AllSpace(s: string) {
    forall i :: 0 <= i < |s| ==> IsSpace(s[i])
  }

  /** Decimal digits with single underscores between them, as `int()`
      accepts them: `1_000`, but not `_1`, `1_` or `1__0`. */
  predicate DigitGroups(s: string)
    decreases |s|
  {
    |s| > 0 && IsDigit(s[0]) &&
    (|s| == 1 || (if s[1] == '_' then DigitGroups(s[2..]) else DigitGroups(s[1..])))
  }

  /** `s` without its underscores. */
  function WithoutUnderscores(s: string): (r: string)
    ensures |r| <= |s|
    decreases |s|
  {
    if |s| == 0 then []
    else (if s[0] == '_' then [] else [s[0]]) + WithoutUnderscores(s[1..])
  }

  lemma {:induction false} WithoutUnderscoresAppend(a: string, b: string)
    ensures WithoutUnderscores(a + b) == WithoutUnderscores(a) + WithoutUnderscores(b)
    decreases |a|
  {
    if |a| > 0 {
      assert (a + b)[1..] == a[1..] + b;
      WithoutUnderscoresAppend(a[1..], b);
    } else {
      assert a + b == b;
    }
  }

  /** Digit groups lose their underscores and keep at least one digit. */
  lemma {:induction false} GroupsAreDigits(s: string)
    requires DigitGroups(s)
    ensures |WithoutUnderscores(s)| >= 1 && AllDigits(WithoutUnderscores(s))
    decreases |s|
  {
    var r := WithoutUnderscores(s);
    assert r == [s[0]] + WithoutUnderscores(s[1..]);
    if |s| > 1 {
      if s[1] == '_' {
        GroupsAreDigits(s[2..]);
        assert s[1..][1..] == s[2..];
        assert WithoutUnderscores(s[1..]) == WithoutUnderscores(s[2..]);
      } else {
        GroupsAreDigits(s[1..]);
      }
    }
  }

  /** The value of a run of digit groups, underscores ignored. */
  function GroupsValue(s: string): nat
    requires DigitGroups(s)
  {
    GroupsAreDigits(s);
    DigitsValue(WithoutUnderscores(s))
  }

  /** A plain run of digits is a single digit group with no underscore to
      drop. */
  lemma {:induction false} DigitsAreGroups(s: string)
    requires |s| >= 1 && AllDigits(s)
    ensures DigitGroups(s) && WithoutUnderscores(s) == s
    decreases |s|
  {
    if |s| > 1 {
      DigitsAreGroups(s[1..]);
    }
    assert s == [s[0]] + s[1..];
  }

  /** `int(s)` in base 10: whitespace at either end is skipped, then an
      optional `+` or `-` sign and digit groups are read. Anything else
      raises ValueError, here `None`; so does a blank text, and an accepted
      one holds at least one digit. */
  function ParseInt(s: string): (r: Option<int>)
    ensures AllSpace(s) ==> r.None?
    ensures r.Some? ==> exists k :: 0 <= k < |s| && IsDigit(s[k])
    decreases |s|
  {
    if |s| > 0 && IsSpace(s[0]) then
      var r := ParseInt(s[1..]);
      assert r.Some? ==> exists k :: 0 <= k < |s| && IsDigit(s[k]) by {
        if r.Some? {
          var k :| 0 <= k < |s[1..]| && IsDigit(s[1..][k]);
          assert s[k + 1] == s[1..][k];
        }
      }
      r
    else if |s| > 0 && IsSpace(s[|s| - 1]) then
      var r := ParseInt(s[..|s| - 1]);
      assert r.Some? ==> exists k :: 0 <= k < |s| && IsDigit(s[k]) by {
        if r.Some? {
          var k :| 0 <= k < |s[..|s| - 1]| && IsDigit(s[..|s| - 1][k]);
          assert s[k] == s[..|s| - 1][k];
        }
      }
      r
    else
      var r := ParseStripped(s);
      assert r.Some? ==> IsDigit(s[|s| - 1]);
      r
  }

  /** `int()` on a text with no surrounding whitespace. */
  function ParseStripped(t: string): (r: Option<int>)
    ensures r.Some? ==> |t| > 0 && IsDigit(t[|t| - 1])
    ensures r.Some? && r.value < 0 ==> t[0] == '-'
  {
    if |t| > 0 && (t[0] == '+' || t[0] == '-') then
      if DigitGroups(t[1..]) then
        LastGroupDigit(t[1..]);
        assert t[1..][|t| - 2] == t[|t| - 1];
        var v := GroupsValue(t[1..]);
        Some(if t[0] == '-' then 0 - v else v)
      else None
    else if DigitGroups(t) then
      LastGroupDigit(t);
      Some(GroupsValue(t))
    else None
  }

  /** Digit groups end in a digit. */
  lemma {:induction false} LastGroupDigit(s: string)
    requires DigitGroups(s)
    ensures IsDigit(s[|s| - 1])
    decreases |s|
  {
    if |s| > 1 {
      if s[1] == '_' {
        LastGroupDigit(s[2..]);
      } else {
        LastGroupDigit(s[1..]);
      }
    }
  }

  lemma {:induction false} DigitsValueOfDigits(n: nat)
    ensures DigitsValue(Digits(n)) == n
    decreases n
  {
    if n >= 10 {
      DigitsValueOfDigits(n / 10);
      var s := Digits(n);
      assert s[..|s| - 1] == Digits(n / 10);
    }
  }

  /** A run of digits parses to its value. */
  lemma ParseDigits(d: string)
    requires |d| >= 1 && AllDigits(d)
    ensures ParseStripped(d) == Some(DigitsValue(d))
  {
    DigitsAreGroups(d);
    assert d[0] != '+' && d[0] != '-';
  }

  /** A plain run of digits has the value of its digits as a group. */
  lemma DigitsGroupsValue(d: string)
    requires |d| >= 1 && AllDigits(d)
    ensures DigitGroups(d) && GroupsValue(d) == DigitsValue(d)
  {
    DigitsAreGroups(d);
  }

  /** After a sign, the rest must be digit groups, read with that sign. */
  lemma ParseStrippedSigned(t: string)
    requires |t| > 0 && (t[0] == '+' || t[0] == '-')
    ensures ParseStripped(t) == if !DigitGroups(t[1..]) then None
      else Some(if t[0] == '-' then 0 - GroupsValue(t[1..]) else GroupsValue(t[1..]))
  {
  }

  /** A run of digits after a sign parses to its value with that sign. */
  lemma ParseSignedDigits(t: string)
    requires |t| >= 2 && (t[0] == '+' || t[0] == '-') && AllDigits(t[1..])
    ensures ParseStripped(t) == Some(if t[0] == '-' then 0 - DigitsValue(t[1..]) else DigitsValue(t[1..]))
  {
    ParseStrippedSigned(t);
    DigitsGroupsValue(t[1..]);
  }

  /** A text without surrounding whitespace is parsed as it is. */
  lemma ParseIntUnstripped(t: string)
    requires |t| > 0 && !IsSpace(t[0]) && !IsSpace(t[|t| - 1])
    ensures ParseInt(t) == ParseStripped(t)
  {
  }

  /** A rendered integer neither starts nor ends with whitespace. */
  lemma IntToStringUnpadded(n: int)
    ensures var s := IntToString(n); !IsSpace(s[0]) && !IsSpace(s[|s| - 1])
  {
  }

  /** A rendered integer, stripped of nothing, parses back. */
  lemma ParseStrippedIntToString(n: int)
    ensures ParseStripped(IntToString(n)) == Some(n)
  {
    if n < 0 {
      ParseSignedRendered('-', -n);
      assert IntToString(n) == ['-'] + Digits(-n);
    } else {
      DigitsValueOfDigits(n);
      ParseDigits(Digits(n));
    }
  }

  /** Parsing a rendered integer gives the integer back. */
  lemma ParseIntToString(n: int)
    ensures ParseInt(IntToString(n)) == Some(n)
  {
    IntToStringUnpadded(n);
    ParseIntUnstripped(IntToString(n));
    ParseStrippedIntToString(n);
  }

  /** Leading whitespace is skipped. */
  lemma {:induction false} ParseIntSkipsBefore(w: string, x: string)
    requires AllSpace(w) && |x| > 0 && !IsSpace(x[0])
    ensures ParseInt(w + x) == ParseInt(x)
    decreases |w|
  {
    if |w| > 0 {
      assert (w + x)[0] == w[0];
      assert (w + x)[1..] == w[1..] + x;
      ParseIntSkipsBefore(w[1..], x);
    } else {
      assert w + x == x;
    }
  }

  /** Trailing whitespace is skipped. */
  lemma {:induction false} ParseIntSkipsAfter(t: string, w: string)
    requires AllSpace(w) && |t| > 0 && !IsSpace(t[0])
    ensures ParseInt(t + w) == ParseInt(t)
    decreases |w|
  {
    if |w| > 0 {
      var tw := t + w;
      assert tw[0] == t[0] && tw[|tw| - 1] == w[|w| - 1];
      assert tw[..|tw| - 1] == t + w[..|w| - 1];
      ParseIntSkipsAfter(t, w[..|w| - 1]);
    } else {
      assert t + w == t;
    }
  }

  /** Whitespace around a text is ignored: `int(" 42\n") == int("42")`. */
  lemma ParseIntPadded(before: string, t: string, after: string)
    requires AllSpace(before) && AllSpace(after)
    requires |t| > 0 && !IsSpace(t[0])
    ensures ParseInt(before + t + after) == ParseInt(t)
  {
    assert before + t + after == before + (t + after);
    assert (t + after)[0] == t[0];
    ParseIntSkipsBefore(before, t + after);
    ParseIntSkipsAfter(t, after);
  }

  /** A sign followed by the digits of `n` parses to `n` with that sign. */
  lemma ParseSignedNat(sign: char, n: nat)
    requires sign == '+' || sign == '-'
    ensures ParseInt([sign] + Digits(n)) == Some(if sign == '-' then 0 - n else n as int)
  {
    ParseSignedRendered(sign, n);
    var t := [sign] + Digits(n);
    assert t[|t| - 1] == Digits(n)[|Digits(n)| - 1];
    ParseIntUnstripped(t);
  }

  lemma ParseSignedRendered(sign: char, n: nat)
    requires sign == '+' || sign == '-'
    ensures ParseStripped([sign] + Digits(n)) == Some(if sign == '-' then 0 - n else n as int)
  {
    DigitsValueOfDigits(n);
    var d := Digits(n);
    var t := [sign] + d;
    assert t[1..] == d;
    ParseSignedDigits(t);
  }

  /** An explicit sign is accepted: `int("+7") == 7` and
      `int("-7") == -7`. */
  lemma ParseIntSigned(n: nat)
    ensures ParseInt("+" + IntToString(n)) == Some(n)
    ensures ParseInt("-" + IntToString(n)) == Some(-(n as int))
  {
    var d := Digits(n);
    assert IntToString(n) == d;
    assert "+" + IntToString(n) == ['+'] + d;
    assert "-" + IntToString(n) == ['-'] + d;
    ParseSignedNat('+', n);
    ParseSignedNat('-', n);
  }

  /** Digit groups parse to their value. */
  lemma ParseGroups(t: string)
    requires DigitGroups(t)
    ensures ParseStripped(t) == Some(GroupsValue(t))
  {
    assert t[0] != '+' && t[0] != '-';
  }

  /** Joining two runs of digits with an underscore gives digit groups
      whose digits are the two runs together. */
  lemma UnderscoreGroups(a: string, b: string)
    requires |a| >= 1 && AllDigits(a) && |b| >= 1 && AllDigits(b)
    ensures DigitGroups(a + "_" + b)
    ensures WithoutUnderscores(a + "_" + b) == a + b
  {
    DigitsAreGroups(b);
    GroupsFollowedBy(a, b);
    UnderscoreDropped(a, b);
  }

  lemma UnderscoreDropped(a: string, b: string)
    requires |a| >= 1 && AllDigits(a) && |b| >= 1 && AllDigits(b)
    ensures WithoutUnderscores(a + "_" + b) == a + b
  {
    DigitsAreGroups(b);
    DigitsAreGroups(a);
    var u := "_" + b;
    WithoutUnderscoresAppend(a, u);
    assert WithoutUnderscores(u) == b by {
      assert u[0] == '_' && u[1..] == b;
    }
    assert a + "_" + b == a + u;
  }

  /** Digit groups, with nothing around them, parse to their value. */
  lemma ParseIntGroups(t: string)
    requires DigitGroups(t)
    ensures ParseInt(t) == Some(GroupsValue(t))
  {
    LastGroupDigit(t);
    assert !IsSpace(t[0]);
    ParseIntUnstripped(t);
    ParseGroups(t);
  }

  /** An underscore between two digits changes nothing:
      `int("1_000") == int("1000")`. */
  lemma ParseIntUnderscore(a: string, b: string)
    requires |a| >= 1 && AllDigits(a) && |b| >= 1 && AllDigits(b)
    ensures ParseInt(a + "_" + b) == ParseInt(a + b)
    ensures ParseInt(a + b) == Some(DigitsValue(a + b))
  {
    var ab := a + b;
    assert AllDigits(ab);
    UnderscoreGroups(a, b);
    DigitsAreGroups(ab);
    ParseIntGroups(a + "_" + b);
    ParseIntGroups(ab);
  }

  /** Digits followed by an underscore and a further digit group form a
      digit group. */
  lemma {:induction false} GroupsFollowedBy(a: string, b: string)
    requires |a| >= 1 && AllDigits(a) && DigitGroups(b)
    ensures DigitGroups(a + "_" + b)
    decreases |a|
  {
    var g := a + "_" + b;
    if |a| == 1 {
      assert g[1] == '_' && g[2..] == b;
    } else {
      GroupsFollowedBy(a[1..], b);
      assert g[1..] == a[1..] + "_" + b;
    }
  }

  /** Numbers in the form the examples exchange them. */
  lemma ParseIntExamples()
    ensures ParseInt("42") == Some(42) && ParseInt("-1") == Some(-1)
  {
    assert ParseInt("42") == Some(42) by {
      assert IntToString(42) == "42";
      ParseIntToString(42);
    }
    assert ParseInt("-1") == Some(-1) by {
      assert IntToString(-1) == "-1";
      ParseIntToString(-1);
    }
  }

  /** A sign and surrounding whitespace are accepted:
      `int(" +7\t") == 7`. */
  lemma ParseIntPaddedExample()
    ensures ParseInt(" +7\t") == Some(7)
  {
    assert " +7\t" == " " + "+7" + "\t";
    ParseIntPadded(" ", "+7", "\t");
    assert "+" + IntToString(7) == "+7";
    ParseIntSigned(7);
  }

  /** Empty and blank texts, and a lone sign, are rejected with
      ValueError. */
  lemma ParseIntRejectsBlank()
    ensures ParseInt("") == None && ParseInt(" ") == None && ParseInt("-") == None
  {
    assert " "[1..] == "";
    RejectedUnpadded("-");
  }

  /** Misplaced underscores are rejected with ValueError. */
  lemma ParseIntRejectsUnderscores()
    ensures ParseInt("1__0") == None && ParseInt("_1") == None && ParseInt("1_") == None
  {
    RejectedUnpadded("1__0");
    RejectedUnpadded("_1");
    RejectedUnpadded("1_");
  }

  /** Spaces inside the number and other characters are rejected with
      ValueError. */
  lemma ParseIntRejectsMalformed()
    ensures ParseInt("- 1") == None && ParseInt("4 2") == None && ParseInt("x") == None
  {
    RejectedUnpadded("- 1");
    RejectedUnpadded("4 2");
    RejectedUnpadded("x");
  }

  /** A text without surrounding whitespace that is neither digit groups
      nor a sign and digit groups is rejected. */
  lemma RejectedUnpadded(t: string)
    requires |t| > 0 && !IsSpace(t[0]) && !IsSpace(t[|t| - 1])
    requires !DigitGroups(t) && !((t[0] == '+' || t[0] == '-') && DigitGroups(t[1..]))
    ensures ParseInt(t) == None
  {
    ParseIntUnstripped(t);
  }
}

=== FILE: timer.dfy ===
/** The resettable countdown of Item35.py, driven as its `run()` functions
    drive it: before (generator) or after (class) each value, one entry is
    popped from a list of reset requests. The output is the list of
    announced values and the way the run ended. */
module ResettableTimer {

  datatype Outcome =
    | Finished(announced: seq<int>)      // StopIteration ended the loop
    | OutOfResets(announced: seq<int>)   // `RESETS.pop(0)` on an empty list
    | ResetEscaped(announced: seq<int>)  // Reset thrown into an unstarted generator

  /** The same ending with `v` announced first. */
  function Announce(v: int, o: Outcome): (r: Outcome)
    ensures r.announced == [v] + o.announced
    ensures r.Finished? == o.Finished? && r.OutOfResets? == o.OutOfResets?
  {
    match o
    case Finished(a) => Finished([v] + a)
    case OutOfResets(a) => OutOfResets([v] + a)
    case ResetEscaped(a) => ResetEscaped([v] + a)
  }

  /** The generator `timer(period)` with local `current`, suspended at its
      `yield` once `started`. Each step pops a request: False resumes it
      with `next`, True with `throw(Reset())`, which sets `current` back to
      `period` before the loop goes on. A period of zero yields nothing. */
  function GeneratorRun(period: int, current: int, started: bool, resets: seq<bool>): (r: Outcome)
    ensures r.OutOfResets? <==> |r.announced| == |resets|
    ensures |r.announced| <= |resets|
    ensures started ==> !r.ResetEscaped?
    decreases |resets|
  {
    if |resets| == 0 then OutOfResets([])
    else if resets[0] && !started then ResetEscaped([])
    else
      var c := if resets[0] then period else current;
      if c == 0 then Finished([])
      else Announce(c - 1, GeneratorRun(period, c - 1, true, resets[1..]))
  }

  /** Example 4's `run()` with `timer(period)`. */
  function RunWithThrow(period: int, resets: seq<bool>): Outcome {
    GeneratorRun(period, period, false, resets)
  }

  /** The `Timer` class: `current` counts down, `period` is kept for resets. */
  datatype Timer = Timer(current: int, period: int)

  function NewTimer(period: int): (t: Timer)
    ensures t.current == t.period == period
  {
    Timer(period, period)
  }

  /** `Timer.reset`: the count starts over; the period is unchanged. */
  function Reset(t: Timer): (r: Timer)
    ensures r.current == t.period && r.period == t.period
  {
    t.(current := t.period)
  }

  /** Example 6's loop: `__iter__` decrements `current` and yields it; the
      caller pops a request, resets the timer if asked, then announces. */
  function ClassRun(t: Timer, resets: seq<bool>): (r: Outcome)
    ensures !r.ResetEscaped?
    ensures |r.announced| <= |resets|
    ensures r.OutOfResets? ==> |r.announced| == |resets|
    decreases |resets|
  {
    if t.current == 0 then Finished([])
    else
      var yielded := t.(current := t.current - 1);
      if |resets| == 0 then OutOfResets([])
      else
        var next := if resets[0] then Reset(yielded) else yielded;
        Announce(yielded.current, ClassRun(next, resets[1..]))
  }

  /** Example 6's `run()` with `Timer(period)`. */
  function RunWithClass(period: int, resets: seq<bool>): Outcome {
    ClassRun(NewTimer(period), resets)
  }

  /** `period - 1, ..., 1, 0`. */
  function Countdown(n: nat): (r: seq<int>)
    ensures |r| == n && forall i :: 0 <= i < n ==> r[i] == n - 1 - i
  {
    seq(n, i => n - 1 - i)
  }

  /** Without resets, a generator at `current` counts down to zero and
      stops, provided the list holds a request for every step. */
  lemma {:induction false} GeneratorCountsDown(period: int, current: nat, started: bool, resets: seq<bool>)
    requires |resets| > current
    requires forall i :: 0 <= i < |resets| ==> !resets[i]
    ensures GeneratorRun(period, current, started, resets) == Finished(Countdown(current))
    decreases current
  {
    if current > 0 {
      GeneratorCountsDown(period, current - 1, true, resets[1..]);
      assert [current - 1] + Countdown(current - 1) == Countdown(current);
    }
  }

  /** Without resets the timer announces `period - 1` down to `0`. */
  lemma ThrowWithoutResets(period: nat, resets: seq<bool>)
    requires |resets| > period
    requires forall i :: 0 <= i < |resets| ==> !resets[i]
    ensures RunWithThrow(period, resets) == Finished(Countdown(period))
  {
    GeneratorCountsDown(period, period, false, resets);
  }

  /** Every announced value lies in `0 .. period - 1` when the count starts
      within that range. */
  lemma {:induction false} GeneratorValuesInRange(period: int, current: int, started: bool, resets: seq<bool>)
    requires 0 <= current <= period
    ensures forall i :: 0 <= i < |GeneratorRun(period, current, started, resets).announced| ==>
      0 <= GeneratorRun(period, current, started, resets).announced[i] < period
    decreases |resets|
  {
    if |resets| > 0 && !(resets[0] && !started) {
      var c := if resets[0] then period else current;
      if c != 0 {
        GeneratorValuesInRange(period, c - 1, true, resets[1..]);
        var rest := GeneratorRun(period, c - 1, true, resets[1..]);
        var a := GeneratorRun(period, current, started, resets).announced;
        assert a == [c - 1] + rest.announced;
        forall i | 1 <= i < |a| ensures 0 <= a[i] < period {
          assert a[i] == rest.announced[i - 1];
        }
      } else {
        assert GeneratorRun(period, current, started, resets) == Finished([]);
      }
    }
  }

  /** A reset thrown into a running generator makes it announce
      `period - 1` next. */
  lemma ThrowRestartsCount(period: int, current: int, resets: seq<bool>)
    requires |resets| > 0 && resets[0] && period > 0
    ensures var o := GeneratorRun(period, current, true, resets);
      |o.announced| > 0 && o.announced[0] == period - 1
  {
  }

  /** A reset thrown before the first `next` escapes from `run()`. */
  lemma ThrowBeforeStart(period: int, resets: seq<bool>)
    requires |resets| > 0 && resets[0]
    ensures RunWithThrow(period, resets) == ResetEscaped([])
  {
  }

  /** Every announced value of the class version lies in `0 .. period - 1`. */
  lemma {:induction false} ClassValuesInRange(t: Timer, resets: seq<bool>)
    requires 0 <= t.current <= t.period
    ensures forall i :: 0 <= i < |ClassRun(t, resets).announced| ==>
      0 <= ClassRun(t, resets).announced[i] < t.period
    decreases |resets|
  {
    if t.current != 0 && |resets| > 0 {
      var yielded := t.(current := t.current - 1);
      var next := if resets[0] then Reset(yielded) else yielded;
      ClassValuesInRange(next, resets[1..]);
      var a := ClassRun(t, resets).announced;
      var rest := ClassRun(next, resets[1..]).announced;
      assert a == [yielded.current] + rest;
      forall i | 1 <= i < |a| ensures 0 <= a[i] < t.period {
        assert a[i] == rest[i - 1];
      }
    }
  }

  /** The class polls after each value where the generator polls before
      the next one: a class run that ends normally announces what the
      generator announces when one leading False is added to the list. */
  lemma {:induction false} ClassMatchesGenerator(t: Timer, resets: seq<bool>)
    requires ClassRun(t, resets).Finished?
    ensures GeneratorRun(t.period, t.current, true, [false] + resets) == ClassRun(t, resets)
    decreases |resets|
  {
    var gs := [false] + resets;
    assert gs[1..] == resets;
    if t.current != 0 {
      var yielded := t.(current := t.current - 1);
      var next := if resets[0] then Reset(yielded) else yielded;
      ClassMatchesGenerator(next, resets[1..]);
      assert ([false] + resets[1..])[1..] == resets[1..];
    }
  }

  /** The same for whole runs. */
  lemma RunsAgree(period: int, resets: seq<bool>)
    requires RunWithClass(period, resets).Finished?
    ensures RunWithThrow(period, [false] + resets) == RunWithClass(period, resets)
  {
    ClassMatchesGenerator(NewTimer(period), resets);
  }

  /** Without resets the class version also counts down to zero. */
  lemma {:induction false} ClassCountsDown(t: Timer, resets: seq<bool>)
    requires 0 <= t.current <= |resets|
    requires forall i :: 0 <= i < |resets| ==> !resets[i]
    ensures ClassRun(t, resets) == Finished(Countdown(t.current))
    decreases t.current
  {
    if t.current > 0 {
      ClassCountsDown(t.(current := t.current - 1), resets[1..]);
      assert [t.current - 1] + Countdown(t.current - 1) == Countdown(t.current);
    }
  }

  /** `n` requests that never ask for a reset. */
  function NoResets(n: nat): (r: seq<bool>)
    ensures |r| == n && forall i :: 0 <= i < n ==> !r[i]
  {
    seq(n, i => false)
  }

  /** Example 4: resets at the fourth and sixth of fourteen requests. */
  lemma ThrowExample()
    ensures RunWithThrow(4, [false, false, false, true, false, true] + NoResets(8))
      == Finished([3, 2, 1, 3, 2, 3, 2, 1, 0])
  {
    var rs := [false, false, false, true, false, true] + NoResets(8);
    assert rs[6..] == NoResets(8);
    GeneratorCountsDown(4, 3, true, rs[6..]);
    assert Countdown(3) == [2, 1, 0];
    assert GeneratorRun(4, 2, true, rs[5..]) == Finished([3, 2, 1, 0]) by {
      assert rs[5..][0] && rs[5..][1..] == rs[6..];
    }
    assert GeneratorRun(4, 3, true, rs[4..]) == Finished([2, 3, 2, 1, 0]) by {
      assert !rs[4..][0] && rs[4..][1..] == rs[5..];
    }
    assert GeneratorRun(4, 1, true, rs[3..]) == Finished([3, 2, 3, 2, 1, 0]) by {
      assert rs[3..][0] && rs[3..][1..] == rs[4..];
    }
    assert GeneratorRun(4, 2, true, rs[2..]) == Finished([1, 3, 2, 3, 2, 1, 0]) by {
      assert !rs[2..][0] && rs[2..][1..] == rs[3..];
    }
    assert GeneratorRun(4, 3, true, rs[1..]) == Finished([2, 1, 3, 2, 3, 2, 1, 0]) by {
      assert !rs[1..][0] && rs[1..][1..] == rs[2..];
    }
  }

  /** Example 6: resets after the third and fifth values, among thirteen
      requests; the announced values are those of Example 4. */
  lemma ClassExample()
    ensures RunWithClass(4, [false, false, true, false, true] + NoResets(8))
      == Finished([3, 2, 1, 3, 2, 3, 2, 1, 0])
  {
    var rs := [false, false, true, false, true] + NoResets(8);
    assert rs[5..] == NoResets(8);
    ClassCountsDown(Timer(4, 4), rs[5..]);
    assert Countdown(4) == [3, 2, 1, 0];
    assert ClassRun(Timer(3, 4), rs[4..]) == Finished([2, 3, 2, 1, 0]) by {
      assert rs[4..][0] && rs[4..][1..] == rs[5..];
    }
    assert ClassRun(Timer(4, 4), rs[3..]) == Finished([3, 2, 3, 2, 1, 0]) by {
      assert !rs[3..][0] && rs[3..][1..] == rs[4..];
    }
    assert ClassRun(Timer(2, 4), rs[2..]) == Finished([1, 3, 2, 3, 2, 1, 0]) by {
      assert rs[2..][0] && rs[2..][1..] == rs[3..];
    }
    assert ClassRun(Timer(3, 4), rs[1..]) == Finished([2, 1, 3, 2, 3, 2, 1, 0]) by {
      assert !rs[1..][0] && rs[1..][1..] == rs[2..];
    }
  }
}

=== FILE: visits.dfy ===
/** The two `Visits` classes of Item17.py: a mapping from each country to
    the set of cities visited there, filled with `setdefault` in the first
    version and through a `defaultdict(set)` in the second. */
module Visits {
  import opened Common
  import opened PyDict

  type Visits = Dict<set<string>>

  /** `d.setdefault(key, default)`: the stored value, inserting `default`
      first when the key is missing. */
  function SetDefault<V>(d: Dict<V>, key: string, default: V): (r: (Dict<V>, V))
    requires Valid(d)
    ensures Valid(r.0) && Get(r.0, key) == Some(r.1)
    ensures key in d.values ==> r == (d, d.values[key])
    ensures key !in d.values ==> r.1 == default && forall k :: k != key ==> Get(r.0, k) == Get(d, k)
  {
    if key in d.values then (d, d.values[key]) else (Set(d, key, default), default)
  }

  /** Example 3's `add`: `setdefault(country, set())`, then add the city to
      the set it returns (which is the stored set). */
  function AddWithSetDefault(v: Visits, country: string, city: string): (r: Visits)
    requires Valid(v)
    ensures Valid(r)
    ensures Get(r, country).Some? && city in Get(r, country).value
    ensures country in v.values ==> Get(r, country) == Some(v.values[country] + {city})
    ensures country !in v.values ==> Get(r, country) == Some({city})
    ensures forall k :: k != country ==> Get(r, k) == Get(v, k)
  {
    var (v1, cities) := SetDefault(v, country, {});
    assert country !in v.values ==> cities + {city} == {city};
    Set(v1, country, cities + {city})
  }

  /** The cities recorded for `country`, as `defaultdict(set)` reads them:
      the empty set when the country is missing. */
  function CitiesOf(v: Visits, country: string): (r: set<string>)
    ensures country !in v.values ==> r == {}
  {
    if country in v.values then v.values[country] else {}
  }

  /** Example 5's `add`: `data[country].add(city)` on a `defaultdict(set)`. */
  function AddWithDefaultDict(v: Visits, country: string, city: string): (r: Visits)
    requires Valid(v)
    ensures Valid(r)
    ensures Get(r, country) == Some(CitiesOf(v, country) + {city})
    ensures forall k :: k != country ==> Get(r, k) == Get(v, k)
    ensures country in v.values ==> r.keys == v.keys
    ensures country !in v.values ==> r.keys == v.keys + [country]
  {
    Set(v, country, CitiesOf(v, country) + {city})
  }

  /** Both versions store the same data, with the countries in the same
      order. */
  lemma VersionsAgree(v: Visits, country: string, city: string)
    requires Valid(v)
    ensures AddWithSetDefault(v, country, city) == AddWithDefaultDict(v, country, city)
  {
  }

  /** After `add`, the city is recorded for the country; the first add for
      a country records just that city; other countries keep their
      cities. */
  lemma AddRecordsCity(v: Visits, country: string, city: string)
    requires Valid(v)
    ensures var r := AddWithSetDefault(v, country, city);
      country in r.values && city in r.values[country]
      && (country !in v.values ==> r.values[country] == {city})
      && (forall k :: k != country ==> Get(r, k) == Get(v, k))
  {
  }

  /** Adding the same pair twice is the same as adding it once. */
  lemma AddIdempotent(v: Visits, country: string, city: string)
    requires Valid(v)
    ensures var once := AddWithDefaultDict(v, country, city);
      AddWithDefaultDict(once, country, city) == once
  {
    var once := AddWithDefaultDict(v, country, city);
    assert CitiesOf(once, country) + {city} == CitiesOf(once, country);
    assert once.values[country := CitiesOf(once, country)] == once.values;
  }

  /** Example 4: three Russian cities and one in Tanzania, countries in
      first-visit order. */
  lemma VisitsExample()
    ensures var v := AddWithSetDefault(AddWithSetDefault(AddWithSetDefault(AddWithSetDefault(
        Empty(), "Russia", "Yekaterinburg"), "Tanzania", "Zanzibar"), "Russia", "Moscow"), "Russia", "St. Petersburg");
      v.keys == ["Russia", "Tanzania"]
      && v.values["Russia"] == {"Yekaterinburg", "Moscow", "St. Petersburg"}
      && v.values["Tanzania"] == {"Zanzibar"}
  {
    var v1 := AddWithSetDefault(Empty(), "Russia", "Yekaterinburg");
    var v2 := AddWithSetDefault(v1, "Tanzania", "Zanzibar");
    assert v2.keys == ["Russia", "Tanzania"];
    var v3 := AddWithSetDefault(v2, "Russia", "Moscow");
    assert v3.values["Russia"] == {"Yekaterinburg", "Moscow"};
  }
}

=== FILE: weight.dfy ===
/** The `determine_weight` versions of Item87.py and the module's exception
    hierarchy: a root `Error` that callers can catch for every error the
    module raises on purpose, with more specific classes below it. An
    `except` chain is modelled as the list of its classes, tried in
    order. */
module WeightErrors {
  import opened Common

  datatype ExceptionClass =
    | Exception
    | ValueError
    | ZeroDivisionError
    | Error
    | InvalidDensityError
    | InvalidVolumeError
    | NegativeDensityError

  /** The direct base class, None for the root `Exception`. */
  function Base(c: ExceptionClass): Option<ExceptionClass> {
    match c
    case Exception => None
    case ValueError => Some(Exception)
    case ZeroDivisionError => Some(Exception)
    case Error => Some(Exception)
    case InvalidDensityError => Some(Error)
    case InvalidVolumeError => Some(Error)
    case NegativeDensityError => Some(InvalidDensityError)
  }

  /** How far below `Exception` a class sits. */
  function Depth(c: ExceptionClass): nat {
    match c
    case Exception => 0
    case ValueError | ZeroDivisionError | Error => 1
    case InvalidDensityError | InvalidVolumeError => 2
    case NegativeDensityError => 3
  }

  /** `issubclass(c, d)`: `d` is `c` or one of its ancestors. */
  predicate IsSubclass(c: ExceptionClass, d: ExceptionClass)
    decreases Depth(c)
  {
    c == d || (Base(c).Some? && IsSubclass(Base(c).value, d))
  }

  /** The module's errors all derive from `Error`; ZeroDivisionError and
      ValueError do not; `NegativeDensityError` is an
      `InvalidDensityError`; everything is an `Exception`. */
  lemma HierarchyFacts(c: ExceptionClass)
    ensures IsSubclass(c, Exception)
    ensures IsSubclass(c, Error) <==> c in {Error, InvalidDensityError, InvalidVolumeError, NegativeDensityError}
    ensures IsSubclass(NegativeDensityError, InvalidDensityError)
    ensures !IsSubclass(InvalidVolumeError, InvalidDensityError)
  {
  }

  /** Example 1: density must be positive. */
  function DetermineWeightV1(volume: int, density: int): (r: Option<ExceptionClass>)
    ensures r.Some? <==> density <= 0
    ensures r.Some? ==> r.value == ValueError
  {
    if density <= 0 then Some(ValueError) else None
  }

  /** Example 2: the density check comes first, then the volume; a zero
      volume reaches `density / volume`. Otherwise the function returns
      None and computes no weight. */
  function DetermineWeightV2(volume: int, density: int): (r: Option<ExceptionClass>)
    ensures r == Some(InvalidDensityError) <==> density < 0
    ensures r == Some(InvalidVolumeError) <==> density >= 0 && volume < 0
    ensures r == Some(ZeroDivisionError) <==> density >= 0 && volume == 0
    ensures r.None? <==> density >= 0 && volume > 0
  {
    if density < 0 then Some(InvalidDensityError)
    else if volume < 0 then Some(InvalidVolumeError)
    else if volume == 0 then Some(ZeroDivisionError)
    else None
  }

  /** Example 6: only a negative density is rejected. */
  function DetermineWeightV3(volume: int, density: int): (r: Option<ExceptionClass>)
    ensures r == Some(NegativeDensityError) <==> density < 0
    ensures r.None? <==> density >= 0
  {
    if density < 0 then Some(NegativeDensityError) else None
  }

  /** Every error of the second version except the division by zero is
      caught by `except Error`. */
  lemma ErrorCatchesModuleErrors(volume: int, density: int)
    ensures var r := DetermineWeightV2(volume, density);
      r.Some? ==> (IsSubclass(r.value, Error) <==> r.value != ZeroDivisionError)
  {
  }

  /** The clause of an `except` chain that handles `raised`: the first one
      naming a class `raised` derives from; None when the exception
      propagates. */
  function Handler(raised: ExceptionClass, clauses: seq<ExceptionClass>): (r: Option<nat>)
    ensures r.Some? ==> r.value < |clauses| && IsSubclass(raised, clauses[r.value])
    ensures r.Some? ==> forall j :: 0 <= j < r.value ==> !IsSubclass(raised, clauses[j])
    ensures r.None? ==> forall j :: 0 <= j < |clauses| ==> !IsSubclass(raised, clauses[j])
    decreases |clauses|
  {
    if |clauses| == 0 then None
    else if IsSubclass(raised, clauses[0]) then Some(0)
    else match Handler(raised, clauses[1..])
      case Some(i) => Some(i + 1)
      case None => None
  }

  /** Examples 3 to 5 and 7: which clause handles each call. A negative
      volume falls to `except Error` (weight stays SENTINEL); a zero volume
      falls through to `except Exception` and is re-raised; Example 7's
      negative density is handled by the first, most specific clause. */
  lemma HandlerExamples()
    ensures Handler(DetermineWeightV2(1, -1).value, [Error]) == Some(0)
    ensures Handler(DetermineWeightV2(-1, 1).value, [InvalidDensityError, Error]) == Some(1)
    ensures Handler(DetermineWeightV2(0, 1).value, [InvalidDensityError, Error, Exception]) == Some(2)
    ensures Handler(DetermineWeightV3(1, -1).value,
                    [NegativeDensityError, InvalidDensityError, Error, Exception]) == Some(0)
    ensures Handler(DetermineWeightV1(1, 0).value, [ValueError]) == Some(0)
  {
  }
}

=== FILE: wordindex.dfy ===
/** The word-start generators of Item30.py: `index_words_iter` over one
    text and `index_file` over the lines of a file, which carries an
    offset from line to line. Each generator is modelled by the list of
    values it yields; the file is its sequence of lines. */
module WordIndex {
  import opened Common

  predicate Increasing(s: seq<nat>) {
    forall i, j :: 0 <= i < j < |s| ==> s[i] < s[j]
  }

  predicate NonDecreasing(s: seq<nat>) {
    forall i, j :: 0 <= i < j < |s| ==> s[i] <= s[j]
  }

  /** The loop `for index, letter in enumerate(text)` from position `i`:
      `index + 1` for every space. */
  function WordStarts(text: string, i: nat): (r: seq<nat>)
    requires i <= |text|
    ensures forall k :: k in r <==> i < k <= |text| && text[k - 1] == ' '
    ensures Increasing(r)
    ensures forall j :: 0 <= j < |r| ==> i < r[j] <= |text|
    decreases |text| - i
  {
    if i == |text| then []
    else (if text[i] == ' ' then [i + 1] else []) + WordStarts(text, i + 1)
  }

  /** `list(index_words_iter(text))`: 0 for a nonempty text, then the
      position after every space. */
  function IndexWordsIter(text: string): (r: seq<nat>)
    ensures |text| == 0 ==> r == []
    ensures forall k :: k in r <==> (k == 0 && |text| > 0) || (0 < k <= |text| && text[k - 1] == ' ')
    ensures Increasing(r)
    ensures forall j :: 0 <= j < |r| ==> r[j] <= |text|
  {
    (if |text| > 0 then [0] else []) + WordStarts(text, 0)
  }

  /** One value per space after position `i`. */
  lemma {:induction false} WordStartsCount(text: string, i: nat)
    requires i <= |text|
    ensures |WordStarts(text, i)| == CountOf(text[i..], ' ')
    decreases |text| - i
  {
    if i < |text| {
      WordStartsCount(text, i + 1);
      assert text[i..][1..] == text[i + 1..];
    }
  }

  /** `index_words_iter` yields one value for the start and one per space. */
  lemma IndexWordsCount(text: string)
    ensures |IndexWordsIter(text)| == (if |text| > 0 then 1 else 0) + CountOf(text, ' ')
  {
    WordStartsCount(text, 0);
    assert text[0..] == text;
  }

  /** The inner loop of `index_file` over one line: the offset grows by one
      per letter and is yielded after every space. */
  function AfterSpaces(line: string, offset: nat): (r: seq<nat>)
    ensures forall j :: 0 <= j < |r| ==> offset < r[j] <= offset + |line|
    ensures Increasing(r)
    ensures |r| == CountOf(line, ' ')
  {
    if |line| == 0 then []
    else (if line[0] == ' ' then [offset + 1] else []) + AfterSpaces(line[1..], offset + 1)
  }

  /** `k` is where a word of `line` starts when the line begins at `offset`:
      the line's own start if it is nonempty, or just after one of its
      spaces. */
  predicate StartsWord(line: string, offset: nat, k: nat) {
    (k == offset && |line| > 0) || (offset < k <= offset + |line| && line[k - offset - 1] == ' ')
  }

  /** One line's output: its starting offset if it is nonempty, then the
      offsets after its spaces. */
  function LineStarts(line: string, offset: nat): seq<nat> {
    (if |line| > 0 then [offset] else []) + AfterSpaces(line, offset)
  }

  /** The total number of characters in the lines. */
  function TotalLength(lines: seq<string>): nat {
    if |lines| == 0 then 0 else |lines[0]| + TotalLength(lines[1..])
  }

  /** `list(index_file(lines))` with the offset already at `offset`. The
      values never decrease and stay within the characters read; a line
      ending in a space followed by a nonempty line yields the same offset
      twice. */
  function IndexFile(lines: seq<string>, offset: nat): (r: seq<nat>)
    ensures NonDecreasing(r)
    ensures forall j :: 0 <= j < |r| ==> offset <= r[j] <= offset + TotalLength(lines)
    decreases |lines|
  {
    if |lines| == 0 then []
    else
      var first := LineStarts(lines[0], offset);
      var rest := IndexFile(lines[1..], offset + |lines[0]|);
      assert forall j :: 0 <= j < |first| ==> offset <= first[j] <= offset + |lines[0]|;
      first + rest
  }

  /** The scan of one line yields `k` exactly when the character before `k`
      is a space of the line. */
  lemma {:induction false} AfterSpacesMember(line: string, offset: nat, k: nat)
    ensures k in AfterSpaces(line, offset) <==> offset < k <= offset + |line| && line[k - offset - 1] == ' '
    decreases |line|
  {
    if |line| > 0 {
      AfterSpacesMember(line[1..], offset + 1, k);
      if offset + 1 < k <= offset + |line| {
        assert line[1..][k - (offset + 1) - 1] == line[k - offset - 1];
      }
    }
  }

  /** A line yields `k` exactly when a word of it starts there. */
  lemma LineStartsMember(line: string, offset: nat, k: nat)
    ensures k in LineStarts(line, offset) <==> StartsWord(line, offset, k)
  {
    AfterSpacesMember(line, offset, k);
  }

  /** Line `i` of the file begins at `offset` plus the lengths of the lines
      before it. */
  function LineOffset(lines: seq<string>, offset: nat, i: nat): nat
    requires i <= |lines|
  {
    offset + TotalLength(lines[..i])
  }

  /** Measured from the second line, every later line begins `|lines[0]|`
      further on. */
  lemma LineOffsetRest(lines: seq<string>, offset: nat, i: nat)
    requires i < |lines|
    requires |lines| > 0
    ensures LineOffset(lines, offset, i + 1) == LineOffset(lines[1..], offset + |lines[0]|, i)
  {
    assert lines[..i + 1][1..] == lines[1..][..i];
  }

  /** Some line of the file has a word starting at `k`. */
  predicate StartsWordIn(lines: seq<string>, offset: nat, k: nat) {
    exists i :: 0 <= i < |lines| && StartsWord(lines[i], LineOffset(lines, offset, i), k)
  }

  /** A word start of a later line is a word start of the whole file. */
  lemma StartsWordInRest(lines: seq<string>, offset: nat, k: nat)
    requires |lines| > 0
    requires StartsWordIn(lines[1..], offset + |lines[0]|, k)
    ensures StartsWordIn(lines, offset, k)
  {
    var i :| 0 <= i < |lines| - 1 && StartsWord(lines[1..][i], LineOffset(lines[1..], offset + |lines[0]|, i), k);
    LineOffsetRest(lines, offset, i);
    assert StartsWord(lines[i + 1], LineOffset(lines, offset, i + 1), k);
  }

  /** A word start of the whole file is in the first line or a later one. */
  lemma StartsWordInSplit(lines: seq<string>, offset: nat, k: nat)
    requires |lines| > 0
    requires StartsWordIn(lines, offset, k)
    ensures StartsWord(lines[0], offset, k) || StartsWordIn(lines[1..], offset + |lines[0]|, k)
  {
    var i :| 0 <= i < |lines| && StartsWord(lines[i], LineOffset(lines, offset, i), k);
    if i == 0 {
      assert lines[..0] == [];
    } else {
      LineOffsetRest(lines, offset, i - 1);
      assert StartsWord(lines[1..][i - 1], LineOffset(lines[1..], offset + |lines[0]|, i - 1), k);
    }
  }

  /** A word starts in the file exactly when it starts in the first line or
      in the rest. */
  lemma StartsWordInCases(lines: seq<string>, offset: nat, k: nat)
    requires |lines| > 0
    ensures StartsWordIn(lines, offset, k) <==>
      StartsWord(lines[0], offset, k) || StartsWordIn(lines[1..], offset + |lines[0]|, k)
  {
    if StartsWordIn(lines, offset, k) {
      StartsWordInSplit(lines, offset, k);
    }
    if StartsWordIn(lines[1..], offset + |lines[0]|, k) {
      StartsWordInRest(lines, offset, k);
    }
    if StartsWord(lines[0], offset, k) {
      assert lines[..0] == [];
      assert StartsWord(lines[0], LineOffset(lines, offset, 0), k);
    }
  }

  /** `index_file` yields exactly the word starts of every line, each line
      measured from the offset the file has reached when it is read. */
  lemma {:induction false} IndexFileMembers(lines: seq<string>, offset: nat, k: nat)
    ensures k in IndexFile(lines, offset) <==> StartsWordIn(lines, offset, k)
    decreases |lines|
  {
    if |lines| > 0 {
      var next := offset + |lines[0]|;
      var first, rest := LineStarts(lines[0], offset), IndexFile(lines[1..], next);
      assert IndexFile(lines, offset) == first + rest;
      IndexFileMembers(lines[1..], next, k);
      LineStartsMember(lines[0], offset, k);
      StartsWordInCases(lines, offset, k);
    }
  }

  /** The number of nonempty lines. */
  function NonEmptyLines(lines: seq<string>): nat {
    if |lines| == 0 then 0 else (if |lines[0]| > 0 then 1 else 0) + NonEmptyLines(lines[1..])
  }

  /** The number of spaces in all lines. */
  function Spaces(lines: seq<string>): nat {
    if |lines| == 0 then 0 else CountOf(lines[0], ' ') + Spaces(lines[1..])
  }

  /** `index_file` yields one value per nonempty line and one per space. */
  lemma {:induction false} IndexFileCount(lines: seq<string>, offset: nat)
    ensures |IndexFile(lines, offset)| == NonEmptyLines(lines) + Spaces(lines)
    decreases |lines|
  {
    if |lines| > 0 {
      IndexFileCount(lines[1..], offset + |lines[0]|);
    }
  }

  /** Scanning a suffix with the offset at its position gives the
      enumerate-based scan. */
  lemma {:induction false} AfterSpacesIsWordStarts(text: string, i: nat)
    requires i <= |text|
    ensures AfterSpaces(text[i..], i) == WordStarts(text, i)
    decreases |text| - i
  {
    if i < |text| {
      AfterSpacesIsWordStarts(text, i + 1);
      assert text[i..][1..] == text[i + 1..];
    }
  }

  /** For a file of one line, `index_file` yields what `index_words_iter`
      yields for that line. */
  lemma IndexFileOneLine(text: string)
    ensures IndexFile([text], 0) == IndexWordsIter(text)
  {
    AfterSpacesIsWordStarts(text, 0);
    assert text[0..] == text;
    assert [text][1..] == [];
  }

  /** A line ending in a space followed by a nonempty line yields the same
      offset twice: `["a ", "b"]` gives 0, 2, 2. */
  lemma RepeatedOffset()
    ensures IndexFile(["a ", "b"], 0) == [0, 2, 2]
  {
    assert AfterSpaces("a ", 0) == [2];
    assert LineStarts("b", 2) == [2];
  }
}

=== FILE: words.dfy ===
/** `palindrome` and `find_anagrams` of Item84.py. */
module WordPatterns {

  /** `word[::-1]`. */
  function Reverse(word: string): (r: string)
    ensures |r| == |word| && forall i :: 0 <= i < |word| ==> r[i] == word[|word| - 1 - i]
  {
    if |word| == 0 then [] else Reverse(word[1..]) + [word[0]]
  }

  /** `palindrome(word)`: the word reads the same backwards, that is each
      character equals its mirror image. */
  function Palindrome(word: string): (b: bool)
    ensures b <==> forall i :: 0 <= i < |word| ==> word[i] == word[|word| - 1 - i]
  {
    word == Reverse(word)
  }

  /** The asserts of Example 1. */
  lemma PalindromeExamples()
    ensures Palindrome("tacocat") && !Palindrome("banana")
  {
    assert "banana"[0] != "banana"[5];
  }

  /** `s` without its `i`-th character. */
  function Without(s: string, i: nat): (r: string)
    requires i < |s|
    ensures |r| == |s| - 1
    ensures multiset(r) == multiset(s) - multiset{s[i]}
  {
    assert s == s[..i] + [s[i]] + s[i + 1..];
    s[..i] + s[i + 1..]
  }

  /** The strings `''.join(x)` for `x` in `itertools.permutations(word)`:
      every choice of a first position followed by an arrangement of the
      rest. */
  function Permutations(word: string): (r: set<string>)
    ensures word in r
    decreases |word|
  {
    if |word| == 0 then {""}
    else
      var rest := Without(word, 0);
      assert word == [word[0]] + rest;
      assert rest in Permutations(rest);
      set i, p | 0 <= i < |word| && p in Permutations(Without(word, i)) :: [word[i]] + p
  }

  /** Every generated string rearranges the word. */
  lemma {:induction false} PermutationsRearrange(word: string, p: string)
    requires p in Permutations(word)
    ensures multiset(p) == multiset(word)
    decreases |word|
  {
    if |word| == 0 {
      assert p == "";
    } else {
      var i, q :| 0 <= i < |word| && q in Permutations(Without(word, i)) && p == [word[i]] + q;
      PermutationsRearrange(Without(word, i), q);
      PutBack(word, i, q);
    }
  }

  /** Putting the removed character back in front restores the letters. */
  lemma PutBack(word: string, i: nat, q: string)
    requires i < |word| && multiset(q) == multiset(Without(word, i))
    ensures multiset([word[i]] + q) == multiset(word)
  {
    assert word[i] in multiset(word);
  }

  /** Every rearrangement of the word is generated. */
  lemma {:induction false} RearrangementsArePermutations(word: string, w: string)
    requires multiset(w) == multiset(word)
    ensures w in Permutations(word)
    decreases |word|
  {
    assert |w| == |multiset(w)| == |multiset(word)| == |word|;
    if |word| == 0 {
      assert w == "";
    } else {
      assert w[0] in multiset(word) by {
        assert w[0] in multiset(w);
      }
      var i :| 0 <= i < |word| && word[i] == w[0];
      assert w == [w[0]] + w[1..];
      assert multiset(w[1..]) == multiset(w) - multiset{w[0]} by {
        assert multiset(w) == multiset{w[0]} + multiset(w[1..]);
      }
      RearrangementsArePermutations(Without(word, i), w[1..]);
    }
  }

  /** `find_anagrams(word, dictionary)`: the distinct permutations of the
      word that the dictionary contains. The set comprehension drops
      repeats, and `list(found)` follows the set's iteration order, so
      the result is modelled as the set. */
  function FindAnagrams(word: string, dictionary: seq<string>): (found: set<string>)
    ensures forall w :: w in found <==> w in dictionary && multiset(w) == multiset(word)
  {
    var found := set w | w in Permutations(word) && w in dictionary;
    AnagramsExactly(word, dictionary, found);
    found
  }

  lemma AnagramsExactly(word: string, dictionary: seq<string>, found: set<string>)
    requires found == set w | w in Permutations(word) && w in dictionary
    ensures forall w :: w in found <==> w in dictionary && multiset(w) == multiset(word)
  {
    forall w ensures w in found <==> w in dictionary && multiset(w) == multiset(word) {
      if w in Permutations(word) {
        PermutationsRearrange(word, w);
      }
      if multiset(w) == multiset(word) {
        RearrangementsArePermutations(word, w);
      }
    }
  }

  /** Example 5: 'scanpeak' is the anagram of 'pancakes' in the one-word
      dictionary. */
  lemma AnagramExample()
    ensures FindAnagrams("pancakes", ["scanpeak"]) == {"scanpeak"}
  {
    AnagramFound();
    AnagramOnlyCandidate();
  }

  lemma AnagramFound()
    ensures "scanpeak" in FindAnagrams("pancakes", ["scanpeak"])
  {
    SameLetters();
  }

  lemma AnagramOnlyCandidate()
    ensures forall w :: w in FindAnagrams("pancakes", ["scanpeak"]) ==> w == "scanpeak"
  {
  }

  lemma SameLetters()
    ensures multiset("scanpeak") == multiset("pancakes")
  {
    ScanpeakLetters();
    PancakesLetters();
    LettersAgree();
  }

  lemma ScanpeakLetters()
    ensures multiset("scanpeak") == multiset{'s', 'c', 'a', 'n', 'p', 'e', 'a', 'k'}
  {
  }

  lemma PancakesLetters()
    ensures multiset("pancakes") == multiset{'p', 'a', 'n', 'c', 'a', 'k', 'e', 's'}
  {
  }

  lemma LettersAgree()
    ensures multiset{'s', 'c', 'a', 'n', 'p', 'e', 'a', 'k'} == multiset{'p', 'a', 'n', 'c', 'a', 'k', 'e', 's'}
  {
  }
}

=== FILE: zoo.dfy ===
/** The zoo feeding rounds of Item78.py and Item79.py. `do_rounds` asks the
    database for the species' feeding period and its animals, then feeds
    every animal whose last meal is at least a period old. Item78.py
    compares with a strict `>`, Item79.py with `>=`; both are modelled, as
    `Rule`. Times are whole seconds since a fixed origin (the examples use
    one day, and 4.5 minutes is 270 seconds), and the database calls the
    examples check with mocks are recorded as a trace. */
module Zoo {
  import opened Common
  import opened Text

  /** One `(name, last_mealtime)` pair of `get_animals`. */
  datatype Animal = Animal(name: string, lastMealtime: int)

  /** The comparison of the two versions: Item78.py's `>` and Item79.py's `>=`. */
  datatype Rule = Strict | AtLeast

  /** A call `do_rounds` makes on the database. */
  datatype Call = GetFoodPeriod(species: string) | GetAnimals(species: string) | FeedAnimal(name: string, when: int)

  /** The result of `do_rounds`: the count it returns and the calls it made. */
  datatype Round = Round(fed: nat, calls: seq<Call>)

  /** Whether `now - last_mealtime` passes the period under the rule. */
  predicate Due(rule: Rule, now: int, period: int, a: Animal) {
    match rule
    case Strict => now - a.lastMealtime > period
    case AtLeast => now - a.lastMealtime >= period
  }

  /** The positions of the animals the round should feed. */
  function DueIndices(rule: Rule, now: int, period: int, animals: seq<Animal>): set<int> {
    set i | 0 <= i < |animals| && Due(rule, now, period, animals[i])
  }

  /** The loop of `do_rounds`: one `feed_animal(name, now)` per due animal,
      in the order `get_animals` listed them. */
  function FeedCalls(rule: Rule, now: int, period: int, animals: seq<Animal>): (r: seq<Call>)
    ensures |r| <= |animals|
    ensures forall i :: 0 <= i < |r| ==> r[i].FeedAnimal? && r[i].when == now
    decreases |animals|
  {
    if |animals| == 0 then []
    else
      var rest := FeedCalls(rule, now, period, animals[1..]);
      if Due(rule, now, period, animals[0]) then [FeedAnimal(animals[0].name, now)] + rest else rest
  }

  /** Every due animal is fed, and every feed call is for a due animal. */
  lemma {:induction false} FeedCallsFeedDue(rule: Rule, now: int, period: int, animals: seq<Animal>)
    ensures forall i :: 0 <= i < |animals| && Due(rule, now, period, animals[i]) ==> FeedAnimal(animals[i].name, now) in FeedCalls(rule, now, period, animals)
    ensures forall c :: c in FeedCalls(rule, now, period, animals) ==> exists i :: 0 <= i < |animals| && Due(rule, now, period, animals[i]) && c.name == animals[i].name
    decreases |animals|
  {
    if |animals| > 0 {
      FeedCallsFeedDue(rule, now, period, animals[1..]);
      assert forall i :: 1 <= i < |animals| ==> animals[i] == animals[1..][i - 1];
      var rest := FeedCalls(rule, now, period, animals[1..]);
      forall c | c in FeedCalls(rule, now, period, animals)
        ensures exists i :: 0 <= i < |animals| && Due(rule, now, period, animals[i]) && c.name == animals[i].name
      {
        if c !in rest {
          assert c == FeedAnimal(animals[0].name, now);
        } else {
          var j :| 0 <= j < |animals[1..]| && Due(rule, now, period, animals[1..][j]) && c.name == animals[1..][j].name;
          assert animals[j + 1] == animals[1..][j];
        }
      }
    }
  }

  lemma {:induction false} FeedCallsAppend(rule: Rule, now: int, period: int, animals: seq<Animal>, last: Animal)
    ensures FeedCalls(rule, now, period, animals + [last])
      == FeedCalls(rule, now, period, animals) + FeedCalls(rule, now, period, [last])
    decreases |animals|
  {
    if |animals| == 0 {
      assert animals + [last] == [last];
    } else {
      assert (animals + [last])[1..] == animals[1..] + [last];
      FeedCallsAppend(rule, now, period, animals[1..], last);
    }
  }

  lemma DueIndicesAppend(rule: Rule, now: int, period: int, animals: seq<Animal>, last: Animal)
    ensures DueIndices(rule, now, period, animals + [last])
      == DueIndices(rule, now, period, animals) + (if Due(rule, now, period, last) then {|animals|} else {})
  {
    var all := animals + [last];
    assert forall i :: 0 <= i < |animals| ==> all[i] == animals[i];
    assert all[|animals|] == last;
  }

  /** One feed call per due animal: the count `do_rounds` returns is the
      number of animals that pass the rule. */
  lemma {:induction false} FeedCallsCount(rule: Rule, now: int, period: int, animals: seq<Animal>)
    ensures |FeedCalls(rule, now, period, animals)| == |DueIndices(rule, now, period, animals)|
    decreases |animals|
  {
    if |animals| > 0 {
      var n := |animals| - 1;
      var init := animals[..n];
      var last := animals[n];
      assert animals == init + [last];
      FeedCallsAppend(rule, now, period, init, last);
      FeedCallsCount(rule, now, period, init);
      DueIndicesAppend(rule, now, period, init, last);
      assert n !in DueIndices(rule, now, period, init);
      assert [last][1..] == [];
    }
  }

  /** `do_rounds(database, species)`: read the clock (`now`), ask for the
      period and the animals, whose answers are the parameters, and feed
      the due ones. */
  function DoRounds(rule: Rule, species: string, now: int, period: int, animals: seq<Animal>): (r: Round)
    ensures |r.calls| == r.fed + 2
    ensures r.calls[0] == GetFoodPeriod(species) && r.calls[1] == GetAnimals(species)
    ensures forall i :: 2 <= i < |r.calls| ==> r.calls[i].FeedAnimal? && r.calls[i].when == now
  {
    var feeds := FeedCalls(rule, now, period, animals);
    Round(|feeds|, [GetFoodPeriod(species), GetAnimals(species)] + feeds)
  }

  /** The period and the animals are asked for exactly once each, with the
      species, and the count returned is the number of due animals. */
  lemma DoRoundsCounts(rule: Rule, species: string, now: int, period: int, animals: seq<Animal>)
    ensures var r := DoRounds(rule, species, now, period, animals);
      && r.fed == |DueIndices(rule, now, period, animals)|
      && CountOf(r.calls, GetFoodPeriod(species)) == 1
      && CountOf(r.calls, GetAnimals(species)) == 1
  {
    var feeds := FeedCalls(rule, now, period, animals);
    FeedCallsCount(rule, now, period, animals);
    NoQueryAmongFeeds(feeds, GetFoodPeriod(species));
    NoQueryAmongFeeds(feeds, GetAnimals(species));
    assert [GetFoodPeriod(species), GetAnimals(species)] + feeds == [GetFoodPeriod(species)] + ([GetAnimals(species)] + feeds);
    CountOfPrepend(GetAnimals(species), feeds, GetFoodPeriod(species));
    CountOfPrepend(GetFoodPeriod(species), [GetAnimals(species)] + feeds, GetFoodPeriod(species));
    CountOfPrepend(GetAnimals(species), feeds, GetAnimals(species));
    CountOfPrepend(GetFoodPeriod(species), [GetAnimals(species)] + feeds, GetAnimals(species));
  }

  /** Exactly the due animals are fed, each with the time of the round. */
  lemma DoRoundsFeedsDue(rule: Rule, species: string, now: int, period: int, animals: seq<Animal>)
    ensures var r := DoRounds(rule, species, now, period, animals);
      && (forall i :: 0 <= i < |animals| && Due(rule, now, period, animals[i]) ==> FeedAnimal(animals[i].name, now) in r.calls)
      && (forall c :: c in r.calls && c.FeedAnimal? ==> exists i :: 0 <= i < |animals| && Due(rule, now, period, animals[i]) && c.name == animals[i].name)
  {
    var feeds := FeedCalls(rule, now, period, animals);
    FeedCallsFeedDue(rule, now, period, animals);
    var calls := [GetFoodPeriod(species), GetAnimals(species)] + feeds;
    assert forall c :: c in calls && c.FeedAnimal? ==> c in feeds;
  }

  lemma {:induction false} NoQueryAmongFeeds(feeds: seq<Call>, q: Call)
    requires !q.FeedAnimal?
    requires forall i :: 0 <= i < |feeds| ==> feeds[i].FeedAnimal?
    ensures CountOf(feeds, q) == 0
    decreases |feeds|
  {
    if |feeds| > 0 {
      assert forall i :: 0 <= i < |feeds[1..]| ==> feeds[1..][i] == feeds[i + 1];
      NoQueryAmongFeeds(feeds[1..], q);
    }
  }

  lemma CountOfPrepend(x: Call, s: seq<Call>, y: Call)
    ensures CountOf([x] + s, y) == CountOf(s, y) + (if x == y then 1 else 0)
  {
    assert ([x] + s)[1..] == s;
  }

  /** The two versions disagree only on an animal fed exactly one period
      ago: Item79.py feeds it and Item78.py does not. */
  lemma RulesDifferAtBoundary(now: int, period: int, a: Animal)
    ensures Due(AtLeast, now, period, a) == (Due(Strict, now, period, a) || now - a.lastMealtime == period)
    ensures Due(Strict, now, period, a) ==> Due(AtLeast, now, period, a)
  {
  }

  /** The Meerkats of Item78.py's mocks: now 15:45, a period of three hours,
      Spot last fed at 11:15, Fluffy at 12:30 and Jojo at 12:45. */
  function MeerkatsAt(jojo: int): seq<Animal> {
    [Animal("Spot", 11 * 3600 + 15 * 60), Animal("Fluffy", 12 * 3600 + 30 * 60), Animal("Jojo", jojo)]
  }

  /** Item78.py: Jojo, fed exactly three hours ago, is not fed under the
      strict rule, so only Spot and Fluffy are fed and the result is 2.
      Under Item79.py's rule the same data would feed all three. */
  lemma StrictExample()
    ensures DoRounds(Strict, "Meerkat", 15 * 3600 + 45 * 60, 3 * 3600, MeerkatsAt(12 * 3600 + 45 * 60))
      == Round(2, [GetFoodPeriod("Meerkat"), GetAnimals("Meerkat"), FeedAnimal("Spot", 56700), FeedAnimal("Fluffy", 56700)])
    ensures DoRounds(AtLeast, "Meerkat", 15 * 3600 + 45 * 60, 3 * 3600, MeerkatsAt(12 * 3600 + 45 * 60)).fed == 3
  {
    var animals := MeerkatsAt(45900);
    assert animals[1..] == [Animal("Fluffy", 45000), Animal("Jojo", 45900)];
    assert animals[1..][1..] == [Animal("Jojo", 45900)];
    assert animals[1..][1..][1..] == [];
  }

  /** Item79.py's mocks: Jojo last fed at 12:55 is not due, and the result
      is 2 under the `>=` rule too. */
  lemma AtLeastExample()
    ensures DoRounds(AtLeast, "Meerkat", 15 * 3600 + 45 * 60, 3 * 3600, MeerkatsAt(12 * 3600 + 55 * 60))
      == Round(2, [GetFoodPeriod("Meerkat"), GetAnimals("Meerkat"), FeedAnimal("Spot", 56700), FeedAnimal("Fluffy", 56700)])
  {
    var animals := MeerkatsAt(46500);
    assert animals[1..] == [Animal("Fluffy", 45000), Animal("Jojo", 46500)];
    assert animals[1..][1..] == [Animal("Jojo", 46500)];
    assert animals[1..][1..][1..] == [];
  }

  /** `get_database()`: the global `DATABASE` is created (as `created`) on the
      first call and returned unchanged afterwards. The result is the new
      global and the database returned. */
  function GetDatabase<D>(global: Option<D>, created: D): (r: (Option<D>, D))
    ensures r.0 == Some(r.1)
    ensures global.Some? ==> r.1 == global.value
    ensures global.None? ==> r.1 == created
  {
    match global
    case Some(db) => (global, db)
    case None => (Some(created), created)
  }

  /** Every later call returns the instance of the first, whatever it would
      have created. */
  lemma GetDatabaseOnce<D>(global: Option<D>, first: D, second: D)
    ensures var (g1, d1) := GetDatabase(global, first);
      GetDatabase(g1, second) == (g1, d1)
  {
  }

  /** The outcome of `main(argv)`: its return code and what it printed, or
      IndexError when `argv` has no species. Either way `global` is the
      `DATABASE` global afterwards, since `get_database()` runs first. */
  datatype MainResult =
    | Exit(code: int, output: string, global: Option<string>)
    | IndexError(global: Option<string>)

  /** The line `main` prints. */
  function FedMessage(count: nat, species: string): (m: string)
    ensures |m| >= 9
    ensures m[..4] == "Fed "
    ensures m[|m| - 4..] == "(s)\n"
  {
    "Fed " + IntToString(count) + " " + species + "(s)\n"
  }

  /** `main(argv)` with the Item79.py rule: the database comes from
      `get_database` before `argv[1]` is read as the species, and the count
      is printed. The
      database is named by a string here; `now`, the period and the
      animals are what it answers. */
  function RunMain(argv: seq<string>, global: Option<string>, created: string, now: int, period: int, animals: seq<Animal>): (r: MainResult)
    ensures r.IndexError? <==> |argv| < 2
    ensures r.Exit? ==> r.code == 0
    ensures r.global == Some(GetDatabase(global, created).1)
    ensures global.Some? ==> r.global == global
  {
    var (g, _) := GetDatabase(global, created);
    if |argv| < 2 then IndexError(g)
    else
      var count := DoRounds(AtLeast, argv[1], now, period, animals).fed;
      Exit(0, FedMessage(count, argv[1]), g)
  }

  /** The printed count reads back as the number of animals fed. */
  lemma FedMessageCount(count: nat, species: string)
    ensures var m := FedMessage(count, species);
      var digits := IntToString(count);
      && m[4..4 + |digits|] == digits
      && ParseInt(m[4..4 + |digits|]) == Some(count)
      && m[4 + |digits|..|m| - 4] == " " + species
  {
    var digits := IntToString(count);
    var m := FedMessage(count, species);
    var rest := " " + species;
    assert m == "Fed " + digits + rest + "(s)\n";
    assert |m| == 4 + |digits| + |rest| + 4;
    assert m[4..4 + |digits|] == digits;
    forall i | 0 <= i < |rest|
      ensures m[4 + |digits|..|m| - 4][i] == rest[i]
    {
      assert m[4 + |digits| + i] == rest[i];
    }
    assert m[4 + |digits|..|m| - 4] == rest;
    ParseIntToString(count);
  }

  /** `main` reports the number of due animals of the species it was
      given, and leaves the global set to the database it used. */
  lemma MainReportsDue(argv: seq<string>, global: Option<string>, created: string, now: int, period: int, animals: seq<Animal>)
    requires |argv| >= 2
    ensures var r := RunMain(argv, global, created, now, period, animals);
      && r.output == FedMessage(|DueIndices(AtLeast, now, period, animals)|, argv[1])
      && r.global == Some(GetDatabase(global, created).1)
  {
    DoRoundsCounts(AtLeast, argv[1], now, period, animals);
  }

  /** Item79.py's `main` test: the period is three hours, Spot ate 4.5
      minutes ago, Fluffy 3.25 hours ago and Jojo exactly three hours ago,
      so Fluffy and Jojo are fed and `main` prints "Fed 2 Meerkat(s)". */
  lemma MainExample(now: int, global: Option<string>, created: string)
    ensures RunMain(["program name", "Meerkat"], global, created, now, 3 * 3600,
                 [Animal("Spot", now - 270), Animal("Fluffy", now - 11700), Animal("Jojo", now - 10800)]).output
      == "Fed 2 Meerkat(s)\n"
  {
    var animals := [Animal("Spot", now - 270), Animal("Fluffy", now - 11700), Animal("Jojo", now - 10800)];
    assert animals[1..] == [Animal("Fluffy", now - 11700), Animal("Jojo", now - 10800)];
    assert animals[1..][1..] == [Animal("Jojo", now - 10800)];
    assert animals[1..][1..][1..] == [];
    assert FeedCalls(AtLeast, now, 10800, animals[1..][1..]) == [FeedAnimal("Jojo", now)];
    assert FeedCalls(AtLeast, now, 10800, animals[1..]) == [FeedAnimal("Fluffy", now), FeedAnimal("Jojo", now)];
    assert FeedCalls(AtLeast, now, 10800, animals) == [FeedAnimal("Fluffy", now), FeedAnimal("Jojo", now)];
    assert DoRounds(AtLeast, "Meerkat", now, 3 * 3600, animals).fed == 2;
    assert IntToString(2) == "2";
  }
}
